=== FILE: README.md ===
# Cash-prediction dashboard core in Dafny

This project models the client-side logic of an ATM cash-prediction dashboard. That client is a Next.js front end. It talks to a forecasting backend and lets staff watch the machines in a network, raise and approve refills, and export reports. The model covers these parts:

- **Report exporter.** Delimited-text encoding follows section 2 of RFC 4180, keeping the dashboard's two deviations: `\n` line ends and no quoting of line breaks. The model covers the plain and byte-order-marked variants, the four report shapes (machine report, predictions, refill requests, analytics summary) and timestamped file names. An RFC 4180 reader for one record is the partner the encoder is proved lossless against.
- **API client.** The model covers:
  - the fixed role table;
  - the token life cycle: `login`, `logout`, `getCurrentUser`;
  - the bearer header of section 2.1 of RFC 6750;
  - how `request` sorts a response into ok, authentication required (with logout) or HTTP error;
  - model training;
  - the refill-request endpoint;
  - the built-in sample network;
  - the push channel's reconnect counter with its linear back-off.
- **Offline forecast.** This is the fallback of the prediction form: a day-by-day cash depletion clamped at zero, with three risk bands.
- **Role permissions.** Who may raise a refill, approve one, or train the model, and how these agree with the role table and the demo accounts of the sign-in form.
- **List updates and aggregates.** These cover:
  - add, edit, delete and refill on the machine list;
  - the network figures of the dashboard page;
  - the series and tables of the historical-analysis screen;
  - the fill-level colour thresholds.

Everything is pure. Parts of the program that cannot be modelled directly become parameters:

- **Backend.** Its answers are parameters: `Option` when only success matters, and `Api.Reply` where the status matters. A reply is `NoResponse`, `Response(status, body)` with a decoded body, or `MalformedBody(status)` for a body that is not JSON.
- **Clock.** The current ISO instant and "today minus i days" are passed in as values. One export uses a single instant for all of its rows; see "Left out".
- **Locale and number formatting.** These are functions passed in, `Export.Host`.
- **`parseInt` and `parseFloat`.** These are functions passed in, `AtmManagement.Parsers`.
- **Downloads.** They are returned as `Export.Download` values.

JavaScript semantics that matter are written out:

- `||` treats `0`, `""`, `null` and `undefined` as missing (`Csv.Or`, `HistoricalData.DayWithdrawal`);
- `Math.max()` and `Math.min()` of nothing are infinities (`Numeric.JsMax`, `Numeric.JsMin`);
- `Math.round` rounds half up (`Numeric.JsRound`);
- `Math.floor` is used for the transaction estimate.

Money is modelled as `int`, and ratios and percentages as exact `real`.

Where the code and its design description disagree, the model follows the code:

- `getCurrentUser` and the bearer header test the token for truthiness, so an empty token counts as no token (`Api.HasToken`).
- `trainModel` does not go through `request`, so a 401 there does not log out (`Api.TrainModel`).
- `getAllATMs` never reaches its sample-data fallback (see Findings).

Modules follow the program:

| module | file | models |
|---|---|---|
| `Wrappers`, `Numeric`, `Text` | wrappers.dfy, numeric.dfy, text.dfy | Option/Result, sums, counts, JS max/min/round, split/join |
| `AtmTypes` | atm_types.dfy | `types/atm.ts`, `find` by id, fill percentage and colour |
| `Csv` | csv.dfy | cell encoding, line assembly, the partner reader |
| `Export` | export.dfy | `lib/export-utils.ts` |
| `Api` | api.dfy | `lib/api.ts` (client) |
| `PushChannel` | websocket.dfy | `lib/api.ts` (`ATMWebSocket`) |
| `PredictionForm` | forecast.dfy | `components/prediction-form.tsx` |
| `RefillManagement` | refill_management.dfy | `components/refill-management.tsx` |
| `AtmManagement` | atm_management.dfy | `components/atm-management.tsx` |
| `HistoricalData` | historical_data.dfy | `components/historical-data.tsx` |
| `Dashboard` | dashboard.dfy | `app/page.tsx` |
| `MlPrediction` | ml_prediction.dfy | `components/ml-prediction.tsx` |
| `LoginForm` | login_form.dfy | `components/auth/login-form.tsx` |
| `Permissions` | permissions.dfy | the role checks of the three screens taken together |

## Model

| member | source | states |
|---|---|---|
| Numeric.JsMax | lib/export-utils.ts:93 | the largest withdrawal, or negative infinity exactly when the list is empty |
| Numeric.JsMin | lib/export-utils.ts:94 | the smallest withdrawal, or positive infinity exactly when the list is empty |
| Numeric.JsRound | lib/export-utils.ts:92 | the rounded value lies within one half of the exact one (half rounds up) |
| Text.JoinSplit | components/historical-data.tsx:98 | splitting on a character and joining the pieces with it gives back the original string |
| Text.SplitJoin | components/historical-data.tsx:98 | joining non-empty separator-free pieces and splitting again gives back the pieces |
| AtmTypes.FindById | components/atm-management.tsx:193 | none exactly when no machine has the id; otherwise the first machine in the list with that id |
| AtmTypes.CashPercent | app/page.tsx:147-149 | the percentage times the capacity is the cash times 100, so it lies between 0 and 100 for cash between zero and capacity |
| AtmTypes.LevelColour | app/page.tsx:151-155 | red exactly below 20%, amber exactly in [20%, 40%), emerald exactly from 40% |
| AtmTypes.MeanWithdrawal | app/page.tsx:97 | the mean times the history length equals the history's sum |
| Csv.Get | lib/export-utils.ts:23 | a key the record lacks reads as undefined |
| Csv.RowCells | lib/export-utils.ts:20-23 | a row yields exactly one cell per header, namely its value under that header |
| Csv.Lines | lib/export-utils.ts:17-36 | one line more than records: line 0 is the first record's keys joined by commas, line i+1 is record i encoded under those headers |
| Csv.StringCellEncoding | lib/export-utils.ts:29-32 | a string with a comma or quote is wrapped in quotes with quotes doubled, and reading it back gives the string; any other string, even one with a line break, is emitted unchanged |
| Csv.JsonCellEncoding | lib/export-utils.ts:25-27 | an object or array is emitted as its JSON text, quoted with inner quotes doubled, and reads back as that text |
| Csv.ReadEncodedCell | lib/export-utils.ts:25-32 | every encoded cell followed by the rest of a line reads back as the cell's text, leaving the rest |
| Csv.RecordRoundTrip | lib/export-utils.ts:21-34 | reading a whole encoded line gives exactly the cells' texts, in order |
| Csv.RowRoundTrip | lib/export-utils.ts:20-34 | an encoded row reads back as one field per header, each the text of that header's cell |
| Csv.GetZip | lib/export-utils.ts:20-23 | a record built from column names, each unlike the ones before it, gives back under each name the value supplied for it |
| Csv.Document | lib/export-utils.ts:17-36 | the document is the first record's keys joined by commas, a line break, and then the encoded records joined by line breaks |
| Csv.DocumentSplitsIntoLines | lib/export-utils.ts:17-36 | when no line holds a line break, splitting the document at line breaks gives back exactly the header line and the record lines |
| Export.ExportToCsv | lib/export-utils.ts:12-39 | refused with "No data to export" exactly for an empty list; otherwise a text/csv download named filename + ".csv" whose content is the document: the header line of the first record's keys, then one encoded line per record |
| Export.ExportToExcel | lib/export-utils.ts:48-77 | refused with "No data to export" exactly for an empty list; otherwise a text/csv download named filename + ".csv" whose content is the byte-order mark followed by that same document |
| Export.ExcelIsBomPlusCsv | lib/export-utils.ts:54-74 | the spreadsheet variant succeeds exactly when the plain one does, and its content is the byte-order mark followed by the plain content |
| Export.SpreadsheetHeader | lib/export-utils.ts:54-74 | a byte-order-marked document of records keyed by given columns starts with the mark and those columns joined by commas |
| Export.Timestamp | lib/export-utils.ts:243 | no ':' or '.' remains, each kept character is the original with ':' and '.' turned into '-', and five characters fewer remain |
| Export.TimestampOfIsoInstant | lib/export-utils.ts:243 | for a 24-character ISO instant the stamp is its first 19 characters with the two time colons turned into dashes |
| Export.GeneratedNameGetsSecondExtension | lib/export-utils.ts:76 | a generated ".csv" name passed on as the base name of an export ends in ".csv.csv" |
| Export.ExtCell | lib/export-utils.ts:93-94 | finite extremes become number cells with that value; infinities become the infinite cells |
| Export.AtmReportRecordGet | lib/export-utils.ts:81-97 | a machine-report record has the fifteen report columns in order, and each column name gives back its own field of the line: id, location, cash, capacity, fill text, risk, status, both dates, total, average, peak, low, coordinates and export time |
| Export.CoordinatesText | lib/export-utils.ts:95 | "N/A" exactly when a machine has no coordinates; otherwise the latitude's text, ", " and the longitude's text, which the encoder will quote |
| Export.AtmReportLineOf | lib/export-utils.ts:82-96 | id, location, cash and capacity copied; the fill percentage to two decimals plus "%"; the risk and status names; both dates copied; the weekly total is the sum; the daily average is within one half of sum/7 whatever the history length; peak and low are the max and min, infinities on an empty history; the coordinate text; the export time |
| Export.AtmReportRecords | lib/export-utils.ts:81-97 | one report record per machine, in list order, each with the report columns |
| Export.ExportAtmReport | lib/export-utils.ts:80-100 | refused exactly for an empty network; otherwise named filename + ".csv", its content the byte-order mark and the document of one report record per machine, so it starts with the fifteen report columns as header line |
| Export.AtmReportRecordReadsBack | lib/export-utils.ts:81-97 | when numbers render without commas or quotes, an encoded report record reads back as fifteen fields, the first two being the id and location, whatever commas or quotes those hold |
| Export.AtmReportLineReadsBack | lib/export-utils.ts:80-100 | under the same condition, line i+1 of the report reads back as fifteen fields whose first two are machine i's id and location |
| Export.PercentText | lib/export-utils.ts:112 | a missing percentage gives "undefined%" and never "N/A"; a number gives its two-decimal text plus "%"; a non-number value throws |
| Export.RoundedWeekAverage | lib/export-utils.ts:92 | the daily average column is within one half of the weekly total over seven, whatever the history length |
| Export.PredictionLineOf | lib/export-utils.ts:108-117 | each fallback column takes the field when it is truthy and the fallback otherwise: day or position + 1, predictedCash or predicted_withdrawal, riskLevel or "N/A", dailyWithdrawal or predicted_withdrawal, running_total or "N/A"; the date is copied; the percentage is its rendered text and never "N/A"; the export time |
| Export.PredictionRecordGet | lib/export-utils.ts:108-117 | each of the eight column names of a prediction record gives back its own field of the line |
| Export.PredictionLines | lib/export-utils.ts:108-117 | fails with the `toFixed` error exactly when some prediction's percentage is neither a number nor missing; otherwise one line per prediction, line i built from prediction i at position i |
| Export.PredictionRecords | lib/export-utils.ts:108-117 | one record per prediction, record i built from prediction i at position i |
| Export.ExportPredictions | lib/export-utils.ts:103-120 | an empty list is refused with "No prediction data to export"; otherwise it fails with the `toFixed` error exactly when some percentage is neither a number nor missing, and else is named filename + ".csv" with content the byte-order mark and the document of the prediction records, headed by the eight prediction columns |
| Export.OrNA | lib/export-utils.ts:136 | a missing or empty text becomes "N/A"; any other text is kept |
| Export.RefillLineOf | lib/export-utils.ts:128-141 | ids, amount and requestor copied; the status name; both dates through the host's date rendering; the comment or "N/A"; the approval count is the history length; latest approver and action come from the last history entry or are "N/A"; the export time |
| Export.RefillRecordGet | lib/export-utils.ts:127-142 | each of the twelve column names of a refill record gives back its own field of the line |
| Export.RefillRecords | lib/export-utils.ts:127-142 | one record per request, in order, record i built from request i |
| Export.ExportRefillRequests | lib/export-utils.ts:123-144 | refused with "No refill request data to export" exactly for an empty list; otherwise named filename + ".csv" with content the byte-order mark and the document of the refill records, headed by the twelve refill columns |
| Export.RatioPercentText | lib/export-utils.ts:175 | with a zero capacity, zero cash renders "NaN", positive cash "Infinity" and negative cash "-Infinity"; otherwise the ratio times 100 to two decimals |
| Export.MeanWeeklyAverage | lib/export-utils.ts:209-215 | the rounded network mean of the machines' weekly totals over seven lies within one half of the exact mean |
| Export.AnalyticsLines | lib/export-utils.ts:148-223 | twelve lines with their fixed metric and category; the values are the machine count, total cash and total capacity as "$" + locale text, utilisation as the ratio text + "%", the three risk counts and the three status counts (each triple adding up to the machine count), the average daily withdrawal as "$" + locale text of the rounded mean, and the report time; an empty network shows "NaN%" and "$NaN" |
| Export.SummaryRecords | lib/export-utils.ts:157-223 | twelve records, record i carrying the metric, value and category of summary line i |
| Export.ExportAnalyticsReport | lib/export-utils.ts:147-226 | never refused, even for an empty network; named filename + ".csv"; content the byte-order mark and the document of the twelve summary records, headed Metric,Value,Category |
| Api.RoleOf | lib/api.ts:126-136 | the four login names map to their four labels; "Unknown" exactly for every other name |
| Api.Login | lib/api.ts:103-142 | a refused or missing response, or a success whose body is not JSON, fails and leaves the session alone; success stores the access token if non-empty, else the user name, and reports the looked-up role |
| Api.Logout | lib/api.ts:144-149 | afterwards there is no token |
| Api.GetCurrentUser | lib/api.ts:151-166 | none exactly when there is no token; otherwise user name and token are the stored token |
| Api.AuthHeader | lib/api.ts:78 | a header exactly when there is a token, and it is "Bearer " + the token |
| Api.Request | lib/api.ts:72-100 | no response is a network failure; 401 logs out and reports authentication required; another non-2xx status reports that status; 2xx returns the body with the session unchanged, or fails with the decode error when the body is not JSON |
| Api.TrainModel | lib/api.ts:200-217 | succeeds exactly on a 2xx response with a JSON body; a non-2xx status is "Model training failed", a body that is not JSON the decode error; the session is never touched, not even on 401 |
| Api.RefillRequestsEndpoint | lib/api.ts:180-183 | an absent or empty filter asks for the plain path; any other filter is appended as `status_filter` |
| Api.UnauthorizedClearsUser | lib/api.ts:87-91 | after a 401 reply there is no current user, and the error is "authentication required" |
| Api.LogoutThenNoUser | lib/api.ts:144-166 | after logout there is no current user and no bearer header |
| Api.LoginThenCurrentUser | lib/api.ts:114-136 | after a successful login the current user has the logged-in name and role |
| Api.EmptyNameLoginLooksSignedOut | lib/api.ts:119 | a login with an empty name and no access token succeeds, yet leaves no current user |
| Api.FallbackAtmsInvariant | lib/api.ts:235-284 | the sample network has 4 machines with distinct ids, each holding between 0 and its capacity with 7 days of withdrawals |
| Api.GetAllAtmsAsWrittenNeverFallsBack | lib/api.ts:230-233 | as written, a failed request reaches the caller as a failure and never as the sample network |
| Api.MalformedSuccessFallsBack | lib/api.ts:94-95 | a 2xx reply whose body is not JSON is a decode failure as written and the sample network as intended, with the token untouched either way |
| Api.GetAllAtms | lib/api.ts:230-286 | always succeeds: the backend's list when the request succeeds, otherwise the sample network, with the request's session effect kept |
| PushChannel.Initial | lib/api.ts:326-329 | a fresh channel has no socket and no attempts |
| PushChannel.Connect | lib/api.ts:331-335 | connecting opens a socket without touching the attempt count |
| PushChannel.OnOpen | lib/api.ts:337-340 | an opened socket resets the attempts to 0 |
| PushChannel.OnClose | lib/api.ts:351-354 | a retry is scheduled exactly while fewer than 5 attempts were made, after 1000 ms times the new count, which grows by one; at 5 nothing is scheduled and the count stays |
| PushChannel.Disconnect | lib/api.ts:377-382 | the socket is dropped and the count kept |
| PushChannel.Send | lib/api.ts:384-388 | a message goes out exactly when the socket is open, and it is the already-serialised text the caller passed |
| PushChannel.Deliver | lib/api.ts:342-349 | a parsed message is handed on; an unparsable one is dropped |
| PushChannel.FailedRunSchedule | lib/api.ts:366-375 | in a run of failed connections the i-th close retries after 1000·(attempts+i+1) ms while attempts+i < 5, and never after that |
| PushChannel.FreshChannelGivesUpAfterFive | lib/api.ts:327-375 | after an open, five retries follow at 1, 2, 3, 4 and 5 seconds, then none |
| PredictionForm.RiskBand | components/prediction-form.tsx:93-97 | high exactly below 20%, medium exactly in [20%, 40%), low exactly from 40% |
| PredictionForm.CashAfterClosedForm | components/prediction-form.tsx:86-89 | with a non-negative daily withdrawal w, day k's cash is max(0, C - k·w) |
| PredictionForm.CashAfterNonIncreasing | components/prediction-form.tsx:88-89 | with a non-negative withdrawal the forecast cash never rises from one day to the next |
| PredictionForm.LocalForecast | components/prediction-form.tsx:82-107 | exactly `days` rows; row i is day i+1, the clamped cash after i+1 days, its percentage and band, and the same adjusted withdrawal (mean × seasonal × event); cash and percentage never negative |
| PredictionForm.ForecastShape | components/prediction-form.tsx:86-100 | rows whose cash follows the loop, as the forecast's rows do, hold max(0, C - day·w) and never rise down the list |
| PredictionForm.PredictBody | lib/api.ts:219-227 | the posted body gives back the date and the day count under their own keys, and a member that is `undefined` is left out of it |
| PredictionForm.PredictRequestAsWritten | components/prediction-form.tsx:57-63 | as the form calls it, the body's only key is `current_date`, which holds the whole form object, and `days` is missing |
| PredictionForm.PredictRequest | lib/api.ts:219-227 | the intended call posts exactly `current_date` = today and `days` = the requested day count |
| PredictionForm.ResultsCount | components/prediction-form.tsx:268-274 | `predictions.length` fails exactly when the list is `undefined`, otherwise it is the row count |
| PredictionForm.CalculatePrediction | components/prediction-form.tsx:44-119 | as intended: no selection leaves the shown list and reports "Selection Required"; a backend answer shows its declared daily rows; otherwise an unknown id leaves the list; else the offline forecast of that machine is shown (only that machine needs a history and a capacity); the results card can always count the list |
| PredictionForm.CalculatePredictionAsWritten | components/prediction-form.tsx:57-65 | as written: a backend answer sets the list to its `predictions` member, so an answer of the declared shape leaves no list and the results card fails; every other path yields a countable list and agrees with the intended handler |
| RefillManagement.CanApprove | components/refill-management.tsx:184-195 | false for every non-pending request; for a pending one, true exactly for the branch manager, vault manager and head-office officer |
| RefillManagement.CanCreateRequest | components/refill-management.tsx:197-199 | true exactly for ATM operations staff and the branch manager |
| RefillManagement.PermissionsConsistent | components/refill-management.tsx:192-198 | only the branch manager may both create and approve; operations staff may create but not approve; "Unknown" and a signed-out user may do neither |
| RefillManagement.PermittedRolesAreLookedUp | components/refill-management.tsx:192-198 | every role with a permission is the label of some login name in the client's role table |
| RefillManagement.FilterParameter | components/refill-management.tsx:80 | "all" becomes no filter; any other value is passed on verbatim |
| RefillManagement.FilterQuery | components/refill-management.tsx:80-81 | "all" fetches the unfiltered path; any other non-empty value is sent as the status filter |
| RefillManagement.CreateRequestCall | components/refill-management.tsx:95-107 | no call exactly when the machine or amount is empty; otherwise a call with the form's values |
| RefillManagement.AfterCreate | components/refill-management.tsx:114-128 | a created request clears the form and refetches; a failure keeps the form and does not refetch |
| RefillManagement.ClearedFormMakesNoCall | components/refill-management.tsx:96-118 | submitting the cleared form again makes no call |
| RefillManagement.RejectionNoticeMisspelt | components/refill-management.tsx:138 | as written, a rejection is announced as "rejectd" |
| RefillManagement.ApprovalNotice | components/refill-management.tsx:136-139 | approval is announced as before; rejection as "rejected" |
| AtmManagement.FormCoordinates | components/atm-management.tsx:78-84 | coordinates are sent exactly when both latitude and longitude are non-empty, as their parsed values |
| AtmManagement.DatePart | components/atm-management.tsx:74-75 | the date part is a prefix of the ISO text holding no 'T', and it is either the whole text or stops right before the first 'T' |
| AtmManagement.NewAtmDraft | components/atm-management.tsx:69-85 | the new machine carries the form's parsed values, seven default withdrawals summing to 91000, refill and depletion stamps that are the two instants cut before their first 'T', low risk, online, and the coordinate rule |
| AtmManagement.HandleAdd | components/atm-management.tsx:66-107 | the draft is sent; a created machine is appended at the end with earlier entries untouched; a failure leaves list and form as they were |
| AtmManagement.ReplaceById | components/atm-management.tsx:128 | same length; entries with the edited id become the update, all others are unchanged |
| AtmManagement.RemoveById | components/atm-management.tsx:156 | no remaining entry has the id, every entry with another id remains, and exactly the entries with the id are gone |
| AtmManagement.RemoveByIdAppend | components/atm-management.tsx:156 | deleting from a concatenation deletes from each part, so the order of the rest is kept |
| AtmManagement.RemoveAbsentId | components/atm-management.tsx:156 | deleting an id nobody has changes nothing |
| AtmManagement.EditInvisibleToOthers | components/atm-management.tsx:128 | editing a machine and then deleting it leaves the same list as deleting it outright, so an edit touches no other machine |
| AtmManagement.UpdateOf | components/atm-management.tsx:114-125 | the update carries the form's location, parsed cash and capacity, and the coordinate rule |
| AtmManagement.HandleEdit | components/atm-management.tsx:109-150 | nothing happens without a machine being edited; the update is sent for its id; a failure leaves the list, and success replaces exactly the entries with that id |
| AtmManagement.HandleDelete | components/atm-management.tsx:152-173 | the delete is sent; a failure leaves the list; success leaves exactly the list with every entry of that id removed, shorter by the number of such entries |
| AtmManagement.EditForm | components/atm-management.tsx:175-188 | the edit form shows the machine's id and location, and empty coordinates when it has none |
| AtmManagement.EditFormRoundTrip | components/atm-management.tsx:114-125 | with parsers that invert the renderings, saving an unchanged edit form sends back the machine's own values |
| AtmManagement.RefillAmount | components/atm-management.tsx:196 | the amount tops the machine up to capacity and is between 0 and capacity for a well-formed machine |
| AtmManagement.HandleRefill | components/atm-management.tsx:190-216 | an unknown id makes no call and changes nothing; otherwise the top-up amount is requested, and a refilled machine replaces exactly the entries with that id |
| AtmManagement.RefillAsWrittenNeverApplies | components/atm-management.tsx:197 | as written, no refill sends a request or changes the list, while the corrected handler requests a top-up for every listed machine |
| AtmManagement.CashBarColour | components/atm-management.tsx:436-440 | red exactly when cash is below a fifth of capacity, amber exactly between a fifth and two fifths, emerald from two fifths |
| AtmManagement.PercentThresholds | components/atm-management.tsx:436-438 | the percentage is below 20 (40) exactly when five times the cash is below one (two) capacities |
| HistoricalData.InitialSelection | components/historical-data.tsx:45 | the first machine's id, or "" for an empty network |
| HistoricalData.Efficiency | components/historical-data.tsx:60 | the amount as a percentage of 30% of capacity, capped at 100: never above 100 or the uncapped load, equal to one of them, and not negative for a non-negative amount |
| HistoricalData.LoadPercent | components/historical-data.tsx:60 | the load times 30% of capacity is the amount times 100, so it is that amount's percentage of 30% of capacity |
| HistoricalData.EfficiencySaturates | components/historical-data.tsx:60 | the efficiency is 100 exactly when the amount reaches 30% of capacity; below that it is the amount's percentage of 30% of capacity |
| HistoricalData.WithdrawalRows | components/historical-data.tsx:52-62 | no rows without a selection; otherwise one row per withdrawal with the amount, transactions = floor(amount/150), the capped efficiency of that amount against the machine's capacity, and a weekday name exactly for the first seven |
| HistoricalData.DayWithdrawal | components/historical-data.tsx:75 | a missing or zero figure is replaced by 15000; any other figure is kept |
| HistoricalData.LevelAfterNonIncreasing | components/historical-data.tsx:75-76 | with non-negative withdrawals the reconstructed level never rises |
| HistoricalData.CashLevelSeries | components/historical-data.tsx:65-87 | no points without a selection; otherwise seven points, oldest first, each the clamped level after that many days, its date, its percentage, and a refill flag exactly when the level is below a fifth of capacity |
| HistoricalData.ShortLocation | components/historical-data.tsx:98 | a prefix of the location whose words are its first two; a one-word location is kept whole |
| HistoricalData.NetworkRowOf | components/historical-data.tsx:91-104 | id, risk and status copied, the short location, total = sum, average × 7 = total, utilisation the capped efficiency of the average against the capacity |
| HistoricalData.NetworkRows | components/historical-data.tsx:90-106 | one row per machine, in list order |
| HistoricalData.SelectedStats | components/historical-data.tsx:113-116 | without a selection 0, 0 and the extremes of [0]; otherwise sum, sum/7 and the JS max and min of the history |
| HistoricalData.RiskDistributionOf | components/historical-data.tsx:119-123 | the low, medium and high counts, which add up to the machine count |
| Dashboard.AggregatesOf | app/page.tsx:92-104 | total cash is the sum of the machines' cash, the high-risk count is at most the machine count, an empty list gives zeros, and the average times the count is the sum of the machine means |
| Dashboard.AggregatesAfterAdding | app/page.tsx:92-104 | adding a machine adds its cash to the total and counts it once more exactly when it is high risk |
| Dashboard.TotalCashNonNegative | app/page.tsx:93 | no machine holding negative cash means no negative total |
| Dashboard.AverageBetweenMachineMeans | app/page.tsx:95-99 | the network average lies between the smallest and the largest machine mean |
| Dashboard.OnlineCount | app/page.tsx:305 | the online count, which with the offline and maintenance counts adds up to the machine count |
| Dashboard.Restore | app/page.tsx:46-55 | a stored token restores its user and triggers a fetch; otherwise no user and no fetch |
| Dashboard.Fetch | app/page.tsx:58-82 | with the client's intended fallback the page is always connected and keeps its user; a 2xx list replaces the page's list, any failure shows the sample network; a 401 leaves the client without a token and nothing else touches the session |
| Dashboard.ApplyFetch | app/page.tsx:58-82 | a fetched list replaces the page's list and marks it connected; a failure keeps the cached list and marks it disconnected; the session is the client's after the call, the user is kept |
| Dashboard.FetchAsWritten | app/page.tsx:58-82 | with the client as written, a 2xx list replaces the page's list; any other reply keeps the cached list and marks the page disconnected; a 401 leaves the client without a token |
| Dashboard.UnauthorizedFetchKeepsPolling | app/page.tsx:58-91 | a 401 while polling signs the client out but leaves the page's user and list, so polling stays armed and sends no bearer header |
| Dashboard.AnalyticsMatchCards | app/page.tsx:92-104 | the analytics export reports the same total cash, high-risk count and online count as the dashboard's cards |
| Dashboard.HandleLogin | app/page.tsx:105-108 | the signed-in user is recorded and the network fetched: a 2xx list is shown, anything else the sample network; the page is connected; a 401 leaves no token; polling is armed unless the backend answers with an empty list |
| Dashboard.HandleLogout | app/page.tsx:111-119 | no token, no user, no list, no polling, zero aggregates |
| Dashboard.LogoutThenRestore | app/page.tsx:46-55 | after signing out, the next mount shows no user and fetches nothing |
| MlPrediction.SelectFile | components/ml-prediction.tsx:35-48 | no file, or a name whose lower-cased form does not end in ".csv", keeps the earlier choice; a CSV name replaces it |
| MlPrediction.LowerSuffixAccepted | components/ml-prediction.tsx:38 | a name whose last four characters lower-case to ".csv" is accepted, whatever the case |
| MlPrediction.LastLetterDecides | components/ml-prediction.tsx:38 | a name whose last character is not "v" or "V" is refused |
| MlPrediction.Train | components/ml-prediction.tsx:50-81 | no upload without a file; a successful upload marks the model trained and keeps the metadata; a failure keeps the earlier training state; the shown forecast is never touched; the model is trained afterwards only if it was before or this upload succeeded |
| MlPrediction.Predict | components/ml-prediction.tsx:83-112 | no call until the model is trained; afterwards the date and day count are sent, and a successful answer replaces the result |
| MlPrediction.NoPredictionBeforeTraining | components/ml-prediction.tsx:84 | choosing a file, or a failed upload, is not enough to request a forecast |
| MlPrediction.CanTrainModel | components/ml-prediction.tsx:114-116 | true exactly for the vault manager and the head-office officer |
| MlPrediction.TrainButtonEnabled | components/ml-prediction.tsx:221 | enabled exactly with a file chosen, nothing loading and a role that may train |
| MlPrediction.EnabledButtonUploads | components/ml-prediction.tsx:221 | pressing the enabled button always reaches the backend |
| LoginForm.DemoAccountsMatchRoleLookup | components/auth/login-form.tsx:25-30 | every demo account's label is the role the client's table gives its login name, and the accounts are exactly the table's names |
| LoginForm.DemoLogin | components/auth/login-form.tsx:67-70 | fills in the account's login name and the password "demo123" |
| LoginForm.HandleLogin | components/auth/login-form.tsx:32-65 | a blank field stops before the client is asked; otherwise `onLogin` receives a user exactly when the client's login succeeds |
| LoginForm.DemoLoginGivesShownRole | components/auth/login-form.tsx:25-70 | a demo account the backend accepts signs in with the role label the form shows |
| LoginForm.RefusedLoginNotifiesNobody | components/auth/login-form.tsx:46-61 | a refused login never reaches `onLogin` and leaves the session alone |
| Permissions.CapabilitiesOf | lib/api.ts:126-136 | per login name: operations staff create, branch manager creates and approves, vault manager and head-office officer approve and train, unknown names nothing |
| Permissions.CapabilityLattice | components/refill-management.tsx:192-198 | whoever may train may approve, nobody may do all three, and a login name has some capability exactly when the role table knows it |

## Left out

- Division by zero. The source divides by a capacity and by a history length; it never guards either and shows `NaN` or `Infinity`. The members that divide by these therefore require a positive capacity or a non-empty history:
  - `PredictionForm.LocalForecast`;
  - `PredictionForm.CalculatePrediction`, only for the selected machine on the offline path;
  - `Dashboard.AggregatesOf`;
  - `HistoricalData.WithdrawalRows`, `HistoricalData.CashLevelSeries` and `HistoricalData.NetworkRows`;
  - `AtmManagement.CashBarColour`;
  - `Export.ExportAtmReport`.

  The analytics summary is the exception: its `NaN` outputs on an empty network are modelled.
- Floating point. Amounts, ratios and percentages are exact integers and reals, not IEEE doubles. Rounding of `toFixed` and `toLocaleString` is left to the `Export.Host` functions.
- `parseInt` and `parseFloat` are parameters. Their `NaN` on malformed input is not modelled, and neither is what the backend does with it.
- `JSON.parse` and `JSON.stringify` are not modelled. An object cell carries its JSON text already rendered. `exportToJSON` is a pure `JSON.stringify` call and is left out for the same reason.
- The browser download, toasts, loading spinners, dialog open/close flags, the 30-second polling timer and the timer behind each reconnect are effects with no logic. Polling is modelled only as the condition that arms it (`Dashboard.Polling`).
- `localStorage` is folded into `Api.Session`. Saving the token and restoring it at construction are the same value.
- Role-table lookups of inherited object keys such as "constructor" are not modelled. Those keys give a non-string role in JavaScript; the model treats them as unknown names.
- Text.ToLower: lower-cases ASCII letters only. `toLowerCase` also maps other Unicode letters, such as 'É' to 'é', and a few characters to more than one. So a file name like "DATA.CSV" is modelled, but one whose suffix is written with non-ASCII look-alikes is not.
- PushChannel.Disconnect: closing the socket still fires its close handler in a browser, which starts the retry schedule again. The model does not model that event order and only drops the socket.
- The thin API wrappers are modelled through `Api.Request`, since each is one `request` call with a fixed path:
  - `createRefillRequest`, `approveRefillRequest`;
  - `generatePrediction`;
  - `getATMById`, `createATM`, `updateATM`, `deleteATM`;
  - the analytics calls.

  Their request bodies are not modelled.
- The backend's daily prediction rows carry other field names (`day_number`, `predicted_withdrawal`, `running_total`) than the form's rows. The model treats both as `PredictionForm.ForecastRow` and does not model how the results card renders the fields that are missing.
- Interleaving. Every handler and every fetch is modelled as one atomic step over the machine list it started with. In the source:
  - the add, edit and delete handlers of components/atm-management.tsx write back a list built from the `atmData` they captured before their `await` (lines 87-88, 127-130 and 155-157);
  - the dashboard re-polls every 30 seconds with no guard against overlapping fetches (app/page.tsx:84-90).

  So a poll that lands during a handler's `await` is overwritten by the handler's stale list, and overlapping fetches take effect in the order they complete. Neither interleaving is modelled.
- Export time stamps. The exporters call `new Date().toISOString()` once per row (lib/export-utils.ts:96, 116 and 140), so the rows of one file can carry different instants. The model gives every row the same `Export.Host` instant, `isoNow`.
- `getRiskColor`, `getStatusColor` and the rest of the markup of the pages are left out. They are styling lookups, apart from the two colour thresholds that are modelled.
- `components/prediction-chart.tsx` and `components/auth/RegisterForm.tsx` are not part of this model.

## Findings

| source | as written | input that shows it | evidently intended | confidence | as-written member | corrected member |
|---|---|---|---|---|---|---|
| lib/api.ts:230-286 | `getAllATMs` returns `this.request(...)` inside `try` without `await`, so a rejected request bypasses `catch` and the sample network is dead code | any failed request, e.g. the backend unreachable | fall back to the four sample machines when the request fails | high, not executed | Api.GetAllAtmsAsWrittenNeverFallsBack | Api.GetAllAtms |
| components/refill-management.tsx:138 | the notice appends "d" to the action word | a rejection: the notice reads "Refill request has been rejectd" | "rejected" | high, not executed | RefillManagement.RejectionNoticeMisspelt | RefillManagement.ApprovalNotice |
| components/atm-management.tsx:197 | `handleRefill` calls `atmApi.refillATM`, which the client in lib/api.ts does not define, so the call throws and every refill ends in "Refill Failed" | refilling any listed machine | send the top-up amount and put the refilled machine into the list | high, not executed | AtmManagement.RefillAsWrittenNeverApplies | AtmManagement.HandleRefill |
| lib/api.ts:219 | the prediction form calls `generatePrediction` with one object, while the client takes `(currentDate, days)`; the body posted is `{"current_date": <the form object>}` with no `days` | any prediction request | post today's date and the requested number of days | high, not executed | PredictionForm.PredictRequestAsWritten | PredictionForm.PredictRequest |
| components/prediction-form.tsx:65 | the form shows `response.predictions`, which the client's declared answer (lib/api.ts:43-54) does not have; its rows are `daily_predictions` | a 2xx answer of the declared shape: the list becomes `undefined` and `predictions.length` throws while rendering | show the answer's daily prediction rows | high, not executed | PredictionForm.CalculatePredictionAsWritten | PredictionForm.CalculatePrediction |

=== FILE: api.dfy ===
/** The data-access client: the stored bearer token and its life cycle, the
    fixed role table, the mapping of a response status to a result, and the
    built-in sample network. The network is abstracted to the reply the
    backend gives (or its absence); local storage is the token field. */
module Api {
  import opened Wrappers
  import opened AtmTypes

  const AtmOpsRole: string := "ATM Operations Staff"
  const BranchManagerRole: string := "Branch Operations Manager"
  const VaultManagerRole: string := "Vault Manager"
  const HeadOfficeRole: string := "Head Office Authorization Officer"
  const UnknownRole: string := "Unknown"

  /** The four known login names and the role each one stands for. */
  const RoleTable: map<string, string> :=
    map["atm_ops" := AtmOpsRole,
        "branch_mgr" := BranchManagerRole,
        "vault_mgr" := VaultManagerRole,
        "hoao" := HeadOfficeRole]

  /** `roleMap[key] || "Unknown"`. */
  function RoleOf(key: string): (role: string)
    ensures key == "atm_ops" ==> role == AtmOpsRole
    ensures key == "branch_mgr" ==> role == BranchManagerRole
    ensures key == "vault_mgr" ==> role == VaultManagerRole
    ensures key == "hoao" ==> role == HeadOfficeRole
    ensures role == UnknownRole <==> key !in {"atm_ops", "branch_mgr", "vault_mgr", "hoao"}
  {
    if key in RoleTable then RoleTable[key] else UnknownRole
  }

  /** The signed-in user as the client describes it. */
  datatype User = User(username: string, role: string, token: string)

  /** The client's only state: the bearer token, mirrored in local storage. */
  datatype Session = Session(token: Option<string>)

  /** The token as JavaScript tests it: present and non-empty. */
  predicate HasToken(s: Session)
  {
    s.token.Some? && s.token.value != ""
  }

  /** What a call to the backend yields: no response at all, a status code
      with a decoded body, or a status code whose body is not JSON, so that
      `response.json()` rejects if it is ever read. */
  datatype Reply<T> = NoResponse | Response(status: int, body: T) | MalformedBody(status: int)

  /** A response arrived, whatever its body. */
  predicate Answered<T>(reply: Reply<T>)
  {
    !reply.NoResponse?
  }

  /** `response.ok`. */
  predicate StatusOk(status: int)
  {
    200 <= status <= 299
  }

  /** The errors the client raises. */
  datatype ApiError =
    | NetworkFailure           // fetch itself rejected
    | AuthenticationRequired   // "Authentication required"
    | HttpError(status: int)   // "HTTP error! status: N"
    | InvalidCredentials       // "Invalid credentials"
    | TrainingFailed           // "Model training failed"
    | InvalidBody              // `response.json()` rejected

  /** A state change together with the result handed to the caller. */
  datatype Step<T> = Step(session: Session, result: Result<T, ApiError>)

  /** `login(username, password)`. The reply body is the `access_token`
      field, if any. A refused or missing response throws before the token
      is touched; on success the token is the access token when it is
      non-empty and the user name otherwise, and the role comes from the
      role table keyed by the user name. */
  function Login(s: Session, username: string, reply: Reply<Option<string>>): (r: Step<User>)
    ensures r.result.Failure? ==> r.session == s
    ensures reply.NoResponse? ==> r.result == Failure(NetworkFailure)
    ensures Answered(reply) && !StatusOk(reply.status) ==> r.result == Failure(InvalidCredentials)
    ensures reply.MalformedBody? && StatusOk(reply.status) ==> r.result == Failure(InvalidBody)
    ensures reply.Response? && StatusOk(reply.status) ==>
              r.result.Success?
              && r.session.token == Some(r.result.value.token)
              && r.result.value.username == username
              && r.result.value.role == RoleOf(username)
              && (if reply.body.Some? && reply.body.value != "" then r.result.value.token == reply.body.value
                  else r.result.value.token == username)
  {
    match reply
    case NoResponse => Step(s, Failure(NetworkFailure))
    case Response(status, accessToken) =>
      if !StatusOk(status) then Step(s, Failure(InvalidCredentials))
      else
        var token := if accessToken.Some? && accessToken.value != "" then accessToken.value else username;
        Step(Session(Some(token)), Success(User(username, RoleOf(username), token)))
    case MalformedBody(status) =>
      if !StatusOk(status) then Step(s, Failure(InvalidCredentials)) else Step(s, Failure(InvalidBody))
  }

  /** `logout()`: forgets the token. */
  function Logout(s: Session): (r: Session)
    ensures !HasToken(r)
  {
    Session(None)
  }

  /** `getCurrentUser()`: a user synthesised from the stored token, without
      asking the backend; none when the token is missing or empty. */
  function GetCurrentUser(s: Session): (u: Option<User>)
    ensures u.None? <==> !HasToken(s)
    ensures u.Some? ==> u.value.username == s.token.value && u.value.token == s.token.value
                        && u.value.role == RoleOf(s.token.value)
  {
    if HasToken(s) then
      var t := s.token.value;
      Some(User(t, RoleOf(t), t))
    else None
  }

  /** The `Authorization` header a request carries, if any. */
  function AuthHeader(s: Session): (h: Option<string>)
    ensures h.Some? <==> HasToken(s)
    ensures h.Some? ==> h.value == "Bearer " + s.token.value
  {
    if HasToken(s) then Some("Bearer " + s.token.value) else None
  }

  /** `request(endpoint)`: a 401 logs out and raises "Authentication
      required"; any other non-success status raises an error carrying it; a
      success returns the decoded body, and a success whose body is not JSON
      fails when it is decoded. The status is tested before the body is
      read. Only the 401 path touches the token. */
  function Request<T>(s: Session, reply: Reply<T>): (r: Step<T>)
    ensures reply.NoResponse? ==> r == Step(s, Failure(NetworkFailure))
    ensures Answered(reply) && reply.status == 401 ==> r == Step(Logout(s), Failure(AuthenticationRequired))
    ensures Answered(reply) && reply.status != 401 && !StatusOk(reply.status) ==>
              r == Step(s, Failure(HttpError(reply.status)))
    ensures reply.Response? && StatusOk(reply.status) ==> r == Step(s, Success(reply.body))
    ensures reply.MalformedBody? && StatusOk(reply.status) ==> r == Step(s, Failure(InvalidBody))
  {
    match reply
    case NoResponse => Step(s, Failure(NetworkFailure))
    case Response(status, body) =>
      if StatusOk(status) then Step(s, Success(body))
      else if status == 401 then Step(Logout(s), Failure(AuthenticationRequired))
      else Step(s, Failure(HttpError(status)))
    case MalformedBody(status) =>
      if StatusOk(status) then Step(s, Failure(InvalidBody))
      else if status == 401 then Step(Logout(s), Failure(AuthenticationRequired))
      else Step(s, Failure(HttpError(status)))
  }

  /** `trainModel(file)`: the upload bypasses `request`, so a refusal of any
      status, 401 included, raises "Model training failed" and never logs
      out. */
  function TrainModel<T>(s: Session, reply: Reply<T>): (r: Step<T>)
    ensures r.session == s
    ensures r.result.Success? <==> reply.Response? && StatusOk(reply.status)
    ensures Answered(reply) && !StatusOk(reply.status) ==> r.result == Failure(TrainingFailed)
    ensures reply.MalformedBody? && StatusOk(reply.status) ==> r.result == Failure(InvalidBody)
  {
    match reply
    case NoResponse => Step(s, Failure(NetworkFailure))
    case Response(status, body) =>
      if StatusOk(status) then Step(s, Success(body)) else Step(s, Failure(TrainingFailed))
    case MalformedBody(status) =>
      if StatusOk(status) then Step(s, Failure(InvalidBody)) else Step(s, Failure(TrainingFailed))
  }

  /** The endpoint `getRefillRequests(statusFilter)` calls: the filter is
      added as a query parameter only when it is a non-empty string. */
  function RefillRequestsEndpoint(statusFilter: Option<string>): (e: string)
    ensures statusFilter.None? || statusFilter.value == "" ==> e == "/refill-requests"
    ensures statusFilter.Some? && statusFilter.value != "" ==>
              e == "/refill-requests?status_filter=" + statusFilter.value
  {
    if statusFilter.Some? && statusFilter.value != "" then "/refill-requests?status_filter=" + statusFilter.value
    else "/refill-requests"
  }

  /** After a 401 from any call through `request`, the client reports no
      current user. */
  lemma UnauthorizedClearsUser<T>(s: Session, body: T)
    ensures GetCurrentUser(Request(s, Response(401, body)).session).None?
    ensures Request(s, Response(401, body)).result == Failure(AuthenticationRequired)
  {
  }

  /** Signing out and asking for the current user gives none. */
  lemma LogoutThenNoUser(s: Session)
    ensures GetCurrentUser(Logout(s)).None?
    ensures AuthHeader(Logout(s)).None?
  {
  }

  /** A successful login under a non-empty name with no access token makes
      `getCurrentUser` report the same user that login returned. With an
      access token the two disagree: the stored token becomes the username
      and the role is looked up by it. */
  lemma LoginThenCurrentUser(s: Session, username: string, status: int)
    requires StatusOk(status) && username != ""
    ensures var r := Login(s, username, Response(status, None));
            GetCurrentUser(r.session) == Some(r.result.value)
  {
  }

  /** A successful login with an empty name and no access token stores the
      empty string, which `getCurrentUser` treats as signed out. */
  lemma EmptyNameLoginLooksSignedOut(s: Session, status: int)
    requires StatusOk(status)
    ensures Login(s, "", Response(status, None)).result.Success?
    ensures GetCurrentUser(Login(s, "", Response(status, None)).session).None?
  {
  }

  // ---------------------------------------------------------------------
  // The built-in sample network
  // ---------------------------------------------------------------------

  /** The four sample machines `getAllATMs` was written to fall back to. */
  const FallbackAtms: seq<Atm> := [
    Atm("ATM001", "Downtown Financial District", 45000, 100000,
        [12000, 15000, 18000, 14000, 16000, 22000, 19000], "2024-01-28", "2024-02-02",
        Medium, Online, Some(Coordinates(40.7128, -74.006))),
    Atm("ATM002", "Westfield Shopping Center", 15000, 80000,
        [25000, 28000, 32000, 29000, 31000, 35000, 33000], "2024-01-26", "2024-01-31",
        High, Online, Some(Coordinates(40.7589, -73.9851))),
    Atm("ATM003", "State University Campus", 72000, 100000,
        [8000, 9000, 12000, 11000, 10000, 15000, 13000], "2024-01-29", "2024-02-05",
        Low, Online, Some(Coordinates(40.6892, -74.0445))),
    Atm("ATM004", "International Airport Terminal", 8000, 120000,
        [35000, 38000, 42000, 39000, 41000, 45000, 43000], "2024-01-25", "2024-01-30",
        High, Online, Some(Coordinates(40.6413, -73.7781)))
  ]

  /** The sample network has four machines with distinct ids, each holding
      between zero and its capacity and seven days of withdrawals. */
  lemma FallbackAtmsInvariant()
    ensures |FallbackAtms| == 4
    ensures forall i, j :: 0 <= i < j < |FallbackAtms| ==> FallbackAtms[i].id != FallbackAtms[j].id
    ensures forall i :: 0 <= i < |FallbackAtms| ==> WellFormed(FallbackAtms[i])
    ensures forall i :: 0 <= i < |FallbackAtms| ==> |FallbackAtms[i].dailyWithdrawals| == 7
  {
    assert FallbackAtms[0].id[5] == '1' && FallbackAtms[1].id[5] == '2';
    assert FallbackAtms[2].id[5] == '3' && FallbackAtms[3].id[5] == '4';
  }

  /** `getAllATMs` as written: `return this.request(...)` inside `try`
      without `await`, so a rejected request escapes the `catch` and the
      sample network is never returned. */
  function GetAllAtmsAsWritten(s: Session, reply: Reply<seq<Atm>>): (r: Step<seq<Atm>>)
    ensures r == Request(s, reply)
  {
    Request(s, reply)
  }

  /** Without a response the written code raises instead of falling back. */
  lemma GetAllAtmsAsWrittenNeverFallsBack(s: Session)
    ensures GetAllAtmsAsWritten(s, NoResponse).result == Failure(NetworkFailure)
    ensures GetAllAtmsAsWritten(s, NoResponse).result != Success(FallbackAtms)
  {
  }

  /** A success whose body is not JSON: the written code raises from the
      decode, the intended one shows the sample network; neither touches
      the token. */
  lemma MalformedSuccessFallsBack(s: Session, status: int)
    requires StatusOk(status)
    ensures GetAllAtmsAsWritten(s, MalformedBody(status)) == Step(s, Failure(InvalidBody))
    ensures GetAllAtms(s, MalformedBody(status)) == Step(s, Success(FallbackAtms))
  {
  }

  /** `getAllATMs` as intended: any failure of the request, after the
      implicit logout of a 401, yields the sample network. */
  function GetAllAtms(s: Session, reply: Reply<seq<Atm>>): (r: Step<seq<Atm>>)
    ensures r.result.Success?
    ensures r.session == Request(s, reply).session
    ensures Request(s, reply).result.Success? ==> r.result == Request(s, reply).result
    ensures Request(s, reply).result.Failure? ==> r.result == Success(FallbackAtms)
  {
    var step := Request(s, reply);
    if step.result.Failure? then Step(step.session, Success(FallbackAtms)) else step
  }
}

=== FILE: atm_management.dfy ===
/** The machine-management screen: the request each handler sends and the
    change it makes to the client's copy of the machine list once the
    backend answers. A backend answer is an `Option`: none when the call
    failed, in which case every handler leaves the list as it was. */
module AtmManagement {
  import opened Wrappers
  import opened Numeric
  import opened Text
  import opened AtmTypes

  /** The dialog's text fields. */
  datatype AtmForm = AtmForm(
    id: string,
    location: string,
    currentCash: string,
    capacity: string,
    lat: string,
    lng: string)

  /** `resetForm()`. */
  const EmptyForm: AtmForm := AtmForm("", "", "", "", "", "")

  /** The number parsers the form applies (`Number.parseInt`,
      `Number.parseFloat`), supplied by the host. */
  datatype Parsers = Parsers(parseInt: string -> int, parseFloat: string -> real)

  /** The withdrawal history every new machine starts with. */
  const DefaultWithdrawals: seq<int> := [10000, 12000, 11000, 13000, 14000, 16000, 15000]

  /** A machine as sent to `createATM`: everything but the id. */
  datatype AtmDraft = AtmDraft(
    location: string,
    currentCash: int,
    capacity: int,
    dailyWithdrawals: seq<int>,
    lastRefill: string,
    predictedDepletion: string,
    riskLevel: RiskLevel,
    status: AtmStatus,
    coordinates: Option<Coordinates>)

  /** The partial record sent to `updateATM`. */
  datatype AtmUpdate = AtmUpdate(location: string, currentCash: int, capacity: int,
                                 coordinates: Option<Coordinates>)

  /** The backend calls the handlers make. */
  datatype ApiCall =
    | CreateCall(draft: AtmDraft)
    | UpdateCall(id: string, update: AtmUpdate)
    | DeleteCall(id: string)
    | RefillCall(id: string, amount: int)

  /** What a handler leaves behind: the list and the call it made, if any. */
  datatype Handled = Handled(atms: seq<Atm>, call: Option<ApiCall>)

  /** Coordinates are sent only when both text fields are non-empty. */
  function FormCoordinates(form: AtmForm, p: Parsers): (c: Option<Coordinates>)
    ensures c.Some? <==> form.lat != "" && form.lng != ""
    ensures c.Some? ==> c.value == Coordinates(p.parseFloat(form.lat), p.parseFloat(form.lng))
  {
    if form.lat != "" && form.lng != "" then Some(Coordinates(p.parseFloat(form.lat), p.parseFloat(form.lng)))
    else None
  }

  /** `iso.split("T")[0]`: the date part of an ISO timestamp, that is the
      longest prefix without a 'T': the whole text when it has none,
      otherwise everything before the first 'T'. */
  function DatePart(iso: string): (d: string)
    ensures 'T' !in d
    ensures d <= iso
    ensures d == iso || (|d| < |iso| && iso[|d|] == 'T')
  {
    var parts := Split(iso, 'T');
    JoinSplit(iso, 'T');
    JoinTakePrefix(parts, "T", 1);
    assert parts[..1] == [parts[0]];
    assert |parts| > 1 ==> iso == parts[0] + "T" + Join(parts[1..], "T");
    parts[0]
  }

  /** The record `handleAddATM` sends: the form's text fields parsed, the
      default history, today's date as last refill and the date a week
      ahead as predicted depletion, low risk and online. */
  function NewAtmDraft(form: AtmForm, p: Parsers, nowIso: string, weekAheadIso: string): (d: AtmDraft)
    ensures d.location == form.location
    ensures d.currentCash == p.parseInt(form.currentCash) && d.capacity == p.parseInt(form.capacity)
    ensures |d.dailyWithdrawals| == 7 && Sum(d.dailyWithdrawals) == 91000
    ensures d.lastRefill <= nowIso && 'T' !in d.lastRefill
    ensures d.lastRefill == nowIso || (|d.lastRefill| < |nowIso| && nowIso[|d.lastRefill|] == 'T')
    ensures d.predictedDepletion <= weekAheadIso && 'T' !in d.predictedDepletion
    ensures d.predictedDepletion == weekAheadIso
            || (|d.predictedDepletion| < |weekAheadIso| && weekAheadIso[|d.predictedDepletion|] == 'T')
    ensures d.riskLevel == Low && d.status == Online
    ensures d.coordinates == FormCoordinates(form, p)
  {
    AtmDraft(form.location, p.parseInt(form.currentCash), p.parseInt(form.capacity), DefaultWithdrawals,
             DatePart(nowIso), DatePart(weekAheadIso), Low, Online, FormCoordinates(form, p))
  }

  /** `handleAddATM`: on success the created record is appended at the end
      and the form is reset; on failure list and form are kept. */
  function HandleAdd(atms: seq<Atm>, form: AtmForm, p: Parsers, nowIso: string, weekAheadIso: string,
                     created: Option<Atm>): (r: (Handled, AtmForm))
    ensures r.0.call == Some(CreateCall(NewAtmDraft(form, p, nowIso, weekAheadIso)))
    ensures created.Some? ==> |r.0.atms| == |atms| + 1 && r.0.atms[..|atms|] == atms
                              && r.0.atms[|atms|] == created.value && r.1 == EmptyForm
    ensures created.None? ==> r.0.atms == atms && r.1 == form
  {
    var call := Some(CreateCall(NewAtmDraft(form, p, nowIso, weekAheadIso)));
    if created.Some? then (Handled(atms + [created.value], call), EmptyForm)
    else (Handled(atms, call), form)
  }

  /** `atms.map((atm) => atm.id === id ? updated : atm)`. */
  function ReplaceById(atms: seq<Atm>, id: string, updated: Atm): (r: seq<Atm>)
    ensures |r| == |atms|
    ensures forall k :: 0 <= k < |atms| && atms[k].id != id ==> r[k] == atms[k]
    ensures forall k :: 0 <= k < |atms| && atms[k].id == id ==> r[k] == updated
  {
    if |atms| == 0 then []
    else [if atms[0].id == id then updated else atms[0]] + ReplaceById(atms[1..], id, updated)
  }

  /** `atms.filter((atm) => atm.id !== id)`. */
  function RemoveById(atms: seq<Atm>, id: string): (r: seq<Atm>)
    ensures forall k :: 0 <= k < |r| ==> r[k].id != id && r[k] in atms
    ensures forall k :: 0 <= k < |atms| && atms[k].id != id ==> atms[k] in r
    ensures |r| + Count(atms, (a: Atm) => a.id == id) == |atms|
  {
    if |atms| == 0 then []
    else if atms[0].id == id then RemoveById(atms[1..], id)
    else [atms[0]] + RemoveById(atms[1..], id)
  }

  /** Removal keeps the order of what stays: it distributes over
      concatenation. */
  lemma {:induction false} RemoveByIdAppend(a: seq<Atm>, b: seq<Atm>, id: string)
    ensures RemoveById(a + b, id) == RemoveById(a, id) + RemoveById(b, id)
  {
    if |a| > 0 {
      assert (a + b)[1..] == a[1..] + b;
      RemoveByIdAppend(a[1..], b, id);
    } else {
      assert a + b == b;
    }
  }

  /** Removing an id that no entry carries changes nothing. */
  lemma {:induction false} RemoveAbsentId(atms: seq<Atm>, id: string)
    requires forall k :: 0 <= k < |atms| ==> atms[k].id != id
    ensures RemoveById(atms, id) == atms
  {
    if |atms| > 0 {
      RemoveAbsentId(atms[1..], id);
      assert atms == [atms[0]] + atms[1..];
    }
  }

  /** An edit that keeps the machine's id leaves every other machine
      exactly where it was: deleting the id afterwards gives what deleting
      it before would have. */
  lemma {:induction false} EditInvisibleToOthers(atms: seq<Atm>, id: string, updated: Atm)
    requires updated.id == id
    ensures RemoveById(ReplaceById(atms, id, updated), id) == RemoveById(atms, id)
  {
    if |atms| > 0 {
      var r := ReplaceById(atms, id, updated);
      assert r[1..] == ReplaceById(atms[1..], id, updated);
      EditInvisibleToOthers(atms[1..], id, updated);
    }
  }

  /** The update `handleEditATM` sends. */
  function UpdateOf(form: AtmForm, p: Parsers): (u: AtmUpdate)
    ensures u.location == form.location && u.coordinates == FormCoordinates(form, p)
    ensures u.currentCash == p.parseInt(form.currentCash) && u.capacity == p.parseInt(form.capacity)
  {
    AtmUpdate(form.location, p.parseInt(form.currentCash), p.parseInt(form.capacity), FormCoordinates(form, p))
  }

  /** `handleEditATM`: without a machine under edit nothing happens; on
      success every entry carrying the edited id becomes the returned record
      and all others stay; on failure the list is kept. */
  function HandleEdit(atms: seq<Atm>, editing: Option<Atm>, form: AtmForm, p: Parsers,
                      updated: Option<Atm>): (h: Handled)
    ensures editing.None? ==> h == Handled(atms, None)
    ensures editing.Some? ==> h.call == Some(UpdateCall(editing.value.id, UpdateOf(form, p)))
    ensures editing.Some? && updated.None? ==> h.atms == atms
    ensures editing.Some? && updated.Some? ==>
              |h.atms| == |atms|
              && (forall k :: 0 <= k < |atms| && atms[k].id != editing.value.id ==> h.atms[k] == atms[k])
              && (forall k :: 0 <= k < |atms| && atms[k].id == editing.value.id ==> h.atms[k] == updated.value)
    ensures editing.Some? && updated.Some? ==> h.atms == ReplaceById(atms, editing.value.id, updated.value)
  {
    if editing.None? then Handled(atms, None)
    else
      var call := Some(UpdateCall(editing.value.id, UpdateOf(form, p)));
      if updated.Some? then Handled(ReplaceById(atms, editing.value.id, updated.value), call)
      else Handled(atms, call)
  }

  /** `handleDeleteATM(id)`: on success exactly the entries with that id
      go, the others staying in order; on failure the list is kept. */
  function HandleDelete(atms: seq<Atm>, id: string, succeeded: bool): (h: Handled)
    ensures h.call == Some(DeleteCall(id))
    ensures !succeeded ==> h.atms == atms
    ensures succeeded ==> h.atms == RemoveById(atms, id)
    ensures succeeded ==> forall k :: 0 <= k < |h.atms| ==> h.atms[k].id != id
    ensures succeeded ==> forall k :: 0 <= k < |atms| && atms[k].id != id ==> atms[k] in h.atms
    ensures succeeded ==> |h.atms| + Count(atms, (a: Atm) => a.id == id) == |atms|
  {
    if succeeded then Handled(RemoveById(atms, id), Some(DeleteCall(id))) else Handled(atms, Some(DeleteCall(id)))
  }

  /** `openEditDialog(atm)`: the form shows the machine's values; the
      coordinate fields are empty when it has none. */
  function EditForm(a: Atm, showInt: int -> string, showReal: real -> string): (form: AtmForm)
    ensures form.id == a.id && form.location == a.location
    ensures a.coordinates.None? ==> form.lat == "" && form.lng == ""
  {
    match a.coordinates
    case None => AtmForm(a.id, a.location, showInt(a.currentCash), showInt(a.capacity), "", "")
    case Some(c) => AtmForm(a.id, a.location, showInt(a.currentCash), showInt(a.capacity),
                            showReal(c.lat), showReal(c.lng))
  }

  /** Saving the edit form unchanged keeps the machine's coordinates when
      the number printer never yields "" and the parser reads back what it
      prints, and sends none when the machine had none. */
  lemma EditFormRoundTrip(a: Atm, showInt: int -> string, showReal: real -> string, p: Parsers)
    requires forall x :: showReal(x) != ""
    requires forall x :: p.parseFloat(showReal(x)) == x
    requires forall n :: p.parseInt(showInt(n)) == n
    ensures UpdateOf(EditForm(a, showInt, showReal), p)
              == AtmUpdate(a.location, a.currentCash, a.capacity, a.coordinates)
  {
  }

  /** `capacity - currentCash`: what fills the machine to capacity. */
  function RefillAmount(a: Atm): (amount: int)
    ensures WellFormed(a) ==> 0 <= amount <= a.capacity
    ensures a.currentCash + amount == a.capacity
  {
    a.capacity - a.currentCash
  }

  /** `handleRefill(id)` with the backend's answer as a parameter: an
      unknown id makes no call and changes nothing; otherwise the shortfall
      to capacity is requested and, on success, the returned record replaces
      every entry with that id. */
  function HandleRefill(atms: seq<Atm>, id: string, refilled: Option<Atm>): (h: Handled)
    ensures FindById(atms, id).None? ==> h == Handled(atms, None)
    ensures FindById(atms, id).Some? ==> h.call == Some(RefillCall(id, RefillAmount(FindById(atms, id).value)))
    ensures refilled.None? ==> h.atms == atms
    ensures FindById(atms, id).Some? && refilled.Some? ==>
              |h.atms| == |atms|
              && (forall k :: 0 <= k < |atms| && atms[k].id != id ==> h.atms[k] == atms[k])
              && (forall k :: 0 <= k < |atms| && atms[k].id == id ==> h.atms[k] == refilled.value)
  {
    match FindById(atms, id)
    case None => Handled(atms, None)
    case Some(a) =>
      var call := Some(RefillCall(id, RefillAmount(a)));
      if refilled.Some? then Handled(ReplaceById(atms, id, refilled.value), call) else Handled(atms, call)
  }

  /** `handleRefill` as written: the client has no `refillATM`, so the call
      throws before reaching the backend and the failure path is taken for
      every machine. No request is sent, and an unknown id also stops
      before any call. */
  function HandleRefillAsWritten(atms: seq<Atm>, id: string): Handled
  {
    Handled(atms, None)
  }

  /** As written, no refill ever reaches the backend or changes the list,
      while the corrected handler requests the top-up for every listed
      machine. */
  lemma RefillAsWrittenNeverApplies(atms: seq<Atm>, id: string)
    ensures HandleRefillAsWritten(atms, id).atms == atms
    ensures HandleRefillAsWritten(atms, id).call.None?
    ensures FindById(atms, id).Some? ==> HandleRefill(atms, id, None).call.Some?
  {
  }

  /** The cash bar's colour: the shared fill-level colour of the machine's
      percentage. */
  function CashBarColour(a: Atm): (colour: string)
    requires a.capacity > 0
    ensures colour == "bg-red-500" <==> a.currentCash * 5 < a.capacity
    ensures colour == "bg-amber-500" <==> a.capacity <= a.currentCash * 5 && a.currentCash * 5 < a.capacity * 2
    ensures colour == "bg-emerald-500" <==> a.currentCash * 5 >= a.capacity * 2
  {
    var pct := CashPercent(a.currentCash as real, a.capacity as real);
    PercentThresholds(a.currentCash as real, a.capacity as real);
    LevelColour(pct)
  }

  /** The bands in integer form: the percentage is below 20 iff five times
      the cash is below capacity, and below 40 iff five times the cash is
      below twice the capacity. */
  lemma PercentThresholds(cash: real, capacity: real)
    requires capacity > 0.0
    ensures CashPercent(cash, capacity) < 20.0 <==> cash * 5.0 < capacity
    ensures CashPercent(cash, capacity) < 40.0 <==> cash * 5.0 < capacity * 2.0
  {
    var q := cash / capacity;
    assert q * capacity == cash;
    assert CashPercent(cash, capacity) == q * 100.0;
    ScaleStrict(q, 0.2, capacity);
    ScaleStrict(q, 0.4, capacity);
    assert q * 100.0 < 20.0 <==> q < 0.2;
    assert q * 100.0 < 40.0 <==> q < 0.4;
    assert q < 0.2 <==> q * capacity < 0.2 * capacity;
    assert q < 0.2 <==> cash < 0.2 * capacity;
    assert q < 0.4 <==> cash < 0.4 * capacity;
  }

  /** Multiplying both sides by a positive factor keeps a strict order. */
  lemma ScaleStrict(x: real, y: real, c: real)
    requires c > 0.0
    ensures x < y <==> x * c < y * c
  {
    if x < y {
      assert (y - x) * c > 0.0;
    } else {
      assert (x - y) * c >= 0.0;
    }
  }
}

=== FILE: atm_types.dfy ===
/** The records the dashboard holds: a cash machine, a refill request and an
    entry of a request's approval log, plus the lookups every screen shares. */
module AtmTypes {
  import opened Wrappers
  import opened Numeric

  /** Urgency label assigned by the backend. */
  datatype RiskLevel = Low | Medium | High

  /** Operating status assigned by the backend. */
  datatype AtmStatus = Online | Offline | Maintenance

  /** Geographic position of a machine. */
  datatype Coordinates = Coordinates(lat: real, lng: real)

  /** One cash machine. `dailyWithdrawals` holds the last seven days in
      order; the type does not enforce the length. */
  datatype Atm = Atm(
    id: string,
    location: string,
    currentCash: int,
    capacity: int,
    dailyWithdrawals: seq<int>,
    lastRefill: string,
    predictedDepletion: string,
    riskLevel: RiskLevel,
    status: AtmStatus,
    coordinates: Option<Coordinates>)

  /** Life cycle of a refill request. */
  datatype RefillStatus = Pending | Approved | Rejected | Completed

  /** One event in a request's approval log. */
  datatype ApprovalRecord = ApprovalRecord(
    approver: string,
    role: string,
    action: string,
    timestamp: string,
    comment: Option<string>)

  /** A request to top up one machine. */
  datatype RefillRequest = RefillRequest(
    requestId: string,
    atmId: string,
    requestedAmount: int,
    requestor: string,
    status: RefillStatus,
    createdAt: string,
    updatedAt: string,
    comment: Option<string>,
    approvalHistory: seq<ApprovalRecord>)

  /** The text the backend and the screens use for a risk level. */
  function RiskName(r: RiskLevel): string
  {
    match r
    case Low => "low"
    case Medium => "medium"
    case High => "high"
  }

  /** The text the backend and the screens use for a status. */
  function StatusName(s: AtmStatus): string
  {
    match s
    case Online => "online"
    case Offline => "offline"
    case Maintenance => "maintenance"
  }

  /** The text the backend uses for a refill status. */
  function RefillStatusName(s: RefillStatus): string
  {
    match s
    case Pending => "pending"
    case Approved => "approved"
    case Rejected => "rejected"
    case Completed => "completed"
  }

  /** The machine invariant of the data model: positive capacity and cash
      between zero and capacity. */
  predicate WellFormed(a: Atm)
  {
    a.capacity > 0 && 0 <= a.currentCash <= a.capacity
  }

  /** `atms.find((a) => a.id === id)`: the first machine with that id. */
  function FindById(atms: seq<Atm>, id: string): (r: Option<Atm>)
    ensures r.None? <==> forall i :: 0 <= i < |atms| ==> atms[i].id != id
    ensures r.Some? ==> r.value in atms && r.value.id == id
    ensures r.Some? ==> exists i :: 0 <= i < |atms| && atms[i] == r.value
                          && forall j :: 0 <= j < i ==> atms[j].id != id
  {
    if |atms| == 0 then None
    else if atms[0].id == id then Some(atms[0])
    else
      var r := FindById(atms[1..], id);
      if r.Some? then
        ghost var i :| 0 <= i < |atms[1..]| && atms[1..][i] == r.value
                       && forall j :: 0 <= j < i ==> atms[1..][j].id != id;
        assert atms[i + 1] == r.value;
        r
      else r
  }

  /** `(current / capacity) * 100`: the fill level as a percentage. */
  function CashPercent(current: real, capacity: real): (p: real)
    requires capacity > 0.0
    ensures p * capacity == current * 100.0
    ensures 0.0 <= current <= capacity ==> 0.0 <= p <= 100.0
    ensures current < 0.0 ==> p < 0.0
  {
    var q := current / capacity;
    assert q * capacity == current;
    q * 100.0
  }

  /** The colour class of a fill level, shared by the dashboard's gauge and
      the machine table's cash bar: red below 20%, amber below 40%, emerald
      from 40% up. */
  function LevelColour(percentage: real): (colour: string)
    ensures colour == "bg-red-500" <==> percentage < 20.0
    ensures colour == "bg-amber-500" <==> 20.0 <= percentage < 40.0
    ensures colour == "bg-emerald-500" <==> percentage >= 40.0
  {
    if percentage < 20.0 then "bg-red-500"
    else if percentage < 40.0 then "bg-amber-500"
    else "bg-emerald-500"
  }

  // Per-machine projections and tests the screens fold over.
  function CashOf(a: Atm): int { a.currentCash }
  function CapacityOf(a: Atm): int { a.capacity }
  predicate IsHigh(a: Atm) { a.riskLevel == High }
  predicate IsMedium(a: Atm) { a.riskLevel == Medium }
  predicate IsLow(a: Atm) { a.riskLevel == Low }
  predicate IsOnline(a: Atm) { a.status == Online }
  predicate IsOffline(a: Atm) { a.status == Offline }
  predicate IsMaintenance(a: Atm) { a.status == Maintenance }

  /** `xs.reduce((sum, a) => sum + f(a), 0)`. */
  function SumOf(atms: seq<Atm>, f: Atm -> int): int
  {
    if |atms| == 0 then 0 else f(atms[0]) + SumOf(atms[1..], f)
  }

  /** `xs.reduce((sum, a) => sum + f(a), 0)` over reals. */
  function SumOfReal(atms: seq<Atm>, f: Atm -> real): real
  {
    if |atms| == 0 then 0.0 else f(atms[0]) + SumOfReal(atms[1..], f)
  }

  /** `dailyWithdrawals.reduce((a, b) => a + b, 0) / dailyWithdrawals.length`:
      the machine's mean daily withdrawal. */
  function MeanWithdrawal(a: Atm): (mean: real)
    requires |a.dailyWithdrawals| > 0
    ensures mean * |a.dailyWithdrawals| as real == Sum(a.dailyWithdrawals) as real
  {
    Sum(a.dailyWithdrawals) as real / |a.dailyWithdrawals| as real
  }
}

=== FILE: csv.dfy ===
/** Delimited-text encoding of records, in the style of section 2 of RFC 4180:
    a field holding a comma or a double quote is wrapped in double quotes
    and every embedded double quote is doubled (rule 7). Two deviations of
    the dashboard's encoder are kept: lines end with "\n", not CRLF, and a
    field holding a line break is not quoted.

    The module also holds a reader for one record (`ReadRecord`) that follows
    rules 5 to 7 of the same section; it is the partner against which the
    encoder is proved lossless. */
module Csv {
  import opened Text

  /** A cell value as the encoder sees it at run time. */
  datatype Cell =
    | Str(s: string)          // a string
    | Num(n: real)            // a finite number
    | NumInf(negative: bool)  // Infinity or -Infinity
    | Bool(b: bool)           // a boolean
    | Json(text: string)      // a non-null object or array, as JSON.stringify renders it
    | Null                    // null
    | Undefined               // undefined, also a missing key

  /** One key/value pair of a record, in insertion order. */
  datatype Field = Field(key: string, value: Cell)

  /** A flat record: the keys in `Object.keys` order with their values. */
  type Record = seq<Field>

  /** `Object.keys(r)`. */
  function Keys(r: Record): (ks: seq<string>)
    ensures |ks| == |r|
    ensures forall i :: 0 <= i < |r| ==> ks[i] == r[i].key
  {
    if |r| == 0 then [] else [r[0].key] + Keys(r[1..])
  }

  /** The record with the given keys and values, pair by pair. */
  function Zip(keys: seq<string>, values: seq<Cell>): (r: Record)
    requires |keys| == |values|
    ensures Keys(r) == keys
    ensures forall i :: 0 <= i < |r| ==> r[i].value == values[i]
  {
    if |keys| == 0 then []
    else
      var rest := Zip(keys[1..], values[1..]);
      assert Keys([Field(keys[0], values[0])] + rest) == [keys[0]] + Keys(rest);
      [Field(keys[0], values[0])] + rest
  }

  /** `r[key]`: the value stored under `key`, `Undefined` when absent. */
  function Get(r: Record, key: string): (c: Cell)
    ensures (forall i :: 0 <= i < |r| ==> r[i].key != key) ==> c == Undefined
    ensures |r| > 0 && r[0].key == key ==> c == r[0].value
  {
    if |r| == 0 then Undefined
    else if r[0].key == key then r[0].value
    else Get(r[1..], key)
  }

  /** The value stored at position `i` is the one found under its key when
      no earlier field has that key. */
  lemma {:induction false} GetFound(r: Record, i: nat)
    requires i < |r|
    requires forall j :: 0 <= j < i ==> r[j].key != r[i].key
    ensures Get(r, r[i].key) == r[i].value
  {
    if i > 0 {
      GetFound(r[1..], i - 1);
    }
  }

  /** In a record built from distinct keys, each key finds its own value. */
  lemma GetZip(keys: seq<string>, values: seq<Cell>, i: nat)
    requires |keys| == |values| && i < |keys|
    requires keys[i] !in keys[..i]
    ensures Get(Zip(keys, values), keys[i]) == values[i]
  {
    var r := Zip(keys, values);
    assert forall j :: 0 <= j < |r| ==> r[j].key == Keys(r)[j];
    forall j | 0 <= j < i
      ensures r[j].key != r[i].key
    {
      assert keys[..i][j] == keys[j];
    }
    GetFound(r, i);
  }

  /** JavaScript's truthiness of a value, used by `a || b`. */
  predicate Truthy(c: Cell)
  {
    match c
    case Str(s) => s != ""
    case Num(n) => n != 0.0
    case NumInf(_) => true
    case Bool(b) => b
    case Json(_) => true
    case Null => false
    case Undefined => false
  }

  /** `a || b` on values. */
  function Or(a: Cell, b: Cell): (c: Cell)
    ensures Truthy(a) ==> c == a
    ensures !Truthy(a) ==> c == b
  {
    if Truthy(a) then a else b
  }

  /** `String(value)`: the text of a value, with `show` standing for the
      host's rendering of a finite number. `Array.join` renders `null` and
      `undefined` as the empty string. */
  function CellText(c: Cell, show: real -> string): string
  {
    match c
    case Str(s) => s
    case Num(n) => show(n)
    case NumInf(neg) => if neg then "-Infinity" else "Infinity"
    case Bool(b) => if b then "true" else "false"
    case Json(t) => t
    case Null => ""
    case Undefined => ""
  }

  /** The two characters that force quoting. */
  predicate NeedsQuoting(s: string)
  {
    ',' in s || '"' in s
  }

  /** `s.replace(/"/g, '""')`. */
  function DoubleQuotes(s: string): (t: string)
    ensures |t| >= |s|
    ensures '"' !in s ==> t == s
  {
    if |s| == 0 then ""
    else if s[0] == '"' then "\"\"" + DoubleQuotes(s[1..])
    else [s[0]] + DoubleQuotes(s[1..])
  }

  /** A field wrapped in double quotes with its quotes doubled. */
  function Quote(s: string): (q: string)
    ensures |q| >= 2 && q[0] == '"' && q[|q| - 1] == '"'
  {
    "\"" + DoubleQuotes(s) + "\""
  }

  /** The encoding of one cell. Objects and arrays are always quoted; a
      string is quoted exactly when it holds a comma or a double quote;
      every other value is emitted as its text. */
  function EncodeCell(c: Cell, show: real -> string): string
  {
    match c
    case Json(t) => Quote(t)
    case Str(s) => if NeedsQuoting(s) then Quote(s) else s
    case _ => CellText(c, show)
  }

  /** The values of a record in header order (`headers.map((h) => row[h])`). */
  function RowCells(row: Record, headers: seq<string>): (cells: seq<Cell>)
    ensures |cells| == |headers|
    ensures forall i :: 0 <= i < |headers| ==> cells[i] == Get(row, headers[i])
  {
    if |headers| == 0 then [] else [Get(row, headers[0])] + RowCells(row, headers[1..])
  }

  /** Every cell encoded. */
  function EncodeAll(cells: seq<Cell>, show: real -> string): (es: seq<string>)
    ensures |es| == |cells|
    ensures forall i :: 0 <= i < |cells| ==> es[i] == EncodeCell(cells[i], show)
  {
    if |cells| == 0 then [] else [EncodeCell(cells[0], show)] + EncodeAll(cells[1..], show)
  }

  /** Every cell's text. */
  function TextAll(cells: seq<Cell>, show: real -> string): (ts: seq<string>)
    ensures |ts| == |cells|
    ensures forall i :: 0 <= i < |cells| ==> ts[i] == CellText(cells[i], show)
  {
    if |cells| == 0 then [] else [CellText(cells[0], show)] + TextAll(cells[1..], show)
  }

  /** One data line: the row's cells in header order, encoded and joined by ",". */
  function EncodeRow(row: Record, headers: seq<string>, show: real -> string): string
  {
    Join(EncodeAll(RowCells(row, headers), show), ",")
  }

  /** The lines of the document before they are joined: the header line
      (the first record's keys joined by ",", not escaped) and one line per
      record. */
  function Lines(data: seq<Record>, show: real -> string): (lines: seq<string>)
    requires |data| > 0
    ensures |lines| == |data| + 1
    ensures lines[0] == Join(Keys(data[0]), ",")
    ensures forall i :: 0 <= i < |data| ==> lines[i + 1] == EncodeRow(data[i], Keys(data[0]), show)
  {
    var headers := Keys(data[0]);
    [Join(headers, ",")] + seq(|data|, i requires 0 <= i < |data| => EncodeRow(data[i], headers, show))
  }

  /** The whole document: the header line, a line break, then the data
      lines separated by line breaks (no line break after the last one). */
  function Document(data: seq<Record>, show: real -> string): (doc: string)
    requires |data| > 0
    ensures doc == Join(Keys(data[0]), ",") + "\n" + Join(Lines(data, show)[1..], "\n")
    ensures Join(Keys(data[0]), ",") + "\n" <= doc
  {
    Join(Lines(data, show), "\n")
  }

  /** When no line holds a line break, splitting the document at its line
      breaks gives back exactly the header line and the data lines. */
  lemma DocumentSplitsIntoLines(data: seq<Record>, show: real -> string)
    requires |data| > 0
    requires forall i :: 0 <= i < |Lines(data, show)| ==> '\n' !in Lines(data, show)[i]
    ensures Split(Document(data, show), '\n') == Lines(data, show)
  {
    SplitJoin(Lines(data, show), '\n');
  }

  // ---------------------------------------------------------------------
  // The reading side: one record per RFC 4180 rules 5 to 7.
  // ---------------------------------------------------------------------

  /** Drops everything up to the next ",", the unread rest of a record after
      a closing quote. */
  function SkipToComma(s: string): (r: string)
    ensures |r| <= |s|
    ensures r == "" || r[0] == ','
    ensures s == "" || s[0] == ',' ==> r == s
  {
    if |s| == 0 || s[0] == ',' then s else SkipToComma(s[1..])
  }

  /** Reads an unquoted field: everything up to the next ",". */
  function ReadBare(s: string): (r: (string, string))
    ensures |r.1| <= |s|
    ensures r.1 == "" || r.1[0] == ','
  {
    if |s| == 0 then ("", "")
    else if s[0] == ',' then ("", s)
    else
      var r := ReadBare(s[1..]);
      ([s[0]] + r.0, r.1)
  }

  /** Reads the body of a quoted field (the opening quote already consumed):
      `""` stands for one quote, a lone quote closes the field. */
  function ReadQuoted(s: string): (r: (string, string))
    ensures |r.1| <= |s|
    ensures r.1 == "" || r.1[0] == ','
  {
    if |s| == 0 then ("", "")
    else if s[0] == '"' then
      if |s| > 1 && s[1] == '"' then
        var r := ReadQuoted(s[2..]);
        ("\"" + r.0, r.1)
      else ("", SkipToComma(s[1..]))
    else
      var r := ReadQuoted(s[1..]);
      ([s[0]] + r.0, r.1)
  }

  /** Reads one field; the unread rest is empty or starts with ",". */
  function ReadField(s: string): (r: (string, string))
    ensures |r.1| <= |s|
    ensures r.1 == "" || r.1[0] == ','
  {
    if |s| > 0 && s[0] == '"' then ReadQuoted(s[1..]) else ReadBare(s)
  }

  /** Reads all fields of one line. */
  function ReadRecord(s: string): (fields: seq<string>)
    ensures |fields| > 0
    decreases |s|
  {
    var r := ReadField(s);
    if r.1 == "" then [r.0] else [r.0] + ReadRecord(r.1[1..])
  }

  /** A cell the reader can recover: a finite number's text must hold no
      comma or quote, as JavaScript's never does. */
  predicate Recoverable(c: Cell, show: real -> string)
  {
    c.Num? ==> !NeedsQuoting(show(c.n))
  }

  lemma {:induction false} ReadQuotedDoubled(t: string, rest: string)
    requires rest == "" || rest[0] == ','
    ensures ReadQuoted(DoubleQuotes(t) + "\"" + rest) == (t, rest)
  {
    var s := DoubleQuotes(t) + "\"" + rest;
    if |t| == 0 {
      assert s == "\"" + rest;
      assert s[1..] == rest;
    } else if t[0] == '"' {
      ReadQuotedDoubled(t[1..], rest);
      assert s == "\"\"" + (DoubleQuotes(t[1..]) + "\"" + rest);
      assert s[2..] == DoubleQuotes(t[1..]) + "\"" + rest;
      assert t == "\"" + t[1..];
    } else {
      ReadQuotedDoubled(t[1..], rest);
      assert s == [t[0]] + (DoubleQuotes(t[1..]) + "\"" + rest);
      assert s[1..] == DoubleQuotes(t[1..]) + "\"" + rest;
      assert t == [t[0]] + t[1..];
    }
  }

  lemma {:induction false} ReadBarePlain(t: string, rest: string)
    requires ',' !in t
    requires rest == "" || rest[0] == ','
    ensures ReadBare(t + rest) == (t, rest)
  {
    if |t| == 0 {
      assert t + rest == rest;
    } else {
      ReadBarePlain(t[1..], rest);
      assert (t + rest)[1..] == t[1..] + rest;
      assert t == [t[0]] + t[1..];
    }
  }

  /** A quoted field reads back as the text that was quoted. */
  lemma ReadQuotedField(t: string, rest: string)
    requires rest == "" || rest[0] == ','
    ensures ReadField(Quote(t) + rest) == (t, rest)
  {
    var s := Quote(t) + rest;
    assert s == "\"" + (DoubleQuotes(t) + "\"" + rest);
    assert s[1..] == DoubleQuotes(t) + "\"" + rest;
    ReadQuotedDoubled(t, rest);
  }

  /** A field emitted as is reads back unchanged when it holds neither a
      comma nor a quote. */
  lemma ReadPlainField(t: string, rest: string)
    requires !NeedsQuoting(t)
    requires rest == "" || rest[0] == ','
    ensures ReadField(t + rest) == (t, rest)
  {
    ReadBarePlain(t, rest);
    if |t| > 0 {
      assert (t + rest)[0] == t[0];
      assert t[0] in t;
    } else {
      assert t + rest == rest;
    }
  }

  /** Reading an encoded cell followed by the rest of a line gives back the
      cell's text and stops at the next separator. */
  lemma ReadEncodedCell(c: Cell, show: real -> string, rest: string)
    requires Recoverable(c, show)
    requires rest == "" || rest[0] == ','
    ensures ReadField(EncodeCell(c, show) + rest) == (CellText(c, show), rest)
  {
    match c
    case Json(t) => ReadQuotedField(t, rest);
    case Str(s) =>
      if NeedsQuoting(s) {
        ReadQuotedField(s, rest);
      } else {
        ReadPlainField(s, rest);
      }
    case Num(n) => ReadPlainField(show(n), rest);
    case NumInf(neg) =>
      ReadPlainField(if neg then "-Infinity" else "Infinity", rest);
    case Bool(b) =>
      ReadPlainField(if b then "true" else "false", rest);
    case Null => ReadPlainField("", rest);
    case Undefined => ReadPlainField("", rest);
  }

  /** Encoding a non-empty list of cells and joining with "," is lossless:
      the reader returns exactly one field per cell, holding that cell's
      text, whatever commas, quotes or line breaks the values contain. */
  lemma {:induction false} RecordRoundTrip(cells: seq<Cell>, show: real -> string)
    requires |cells| > 0
    requires forall i :: 0 <= i < |cells| ==> Recoverable(cells[i], show)
    ensures ReadRecord(Join(EncodeAll(cells, show), ",")) == TextAll(cells, show)
  {
    var es := EncodeAll(cells, show);
    if |cells| == 1 {
      assert Join(es, ",") == es[0];
      ReadEncodedCell(cells[0], show, "");
      assert es[0] + "" == es[0];
    } else {
      var tail := Join(es[1..], ",");
      assert es[1..] == EncodeAll(cells[1..], show);
      assert Join(es, ",") == es[0] + ("," + tail);
      ReadEncodedCell(cells[0], show, "," + tail);
      assert ("," + tail)[1..] == tail;
      RecordRoundTrip(cells[1..], show);
      assert TextAll(cells, show) == [CellText(cells[0], show)] + TextAll(cells[1..], show);
    }
  }

  /** A data line of the document read back yields exactly one field per
      header, the i-th holding the text of the record's value for header i. */
  lemma RowRoundTrip(row: Record, headers: seq<string>, show: real -> string)
    requires |headers| > 0
    requires forall i :: 0 <= i < |headers| ==> Recoverable(Get(row, headers[i]), show)
    ensures |ReadRecord(EncodeRow(row, headers, show))| == |headers|
    ensures forall i :: 0 <= i < |headers| ==>
              ReadRecord(EncodeRow(row, headers, show))[i] == CellText(Get(row, headers[i]), show)
  {
    var cells := RowCells(row, headers);
    RecordRoundTrip(cells, show);
  }

  /** The candidate-property form for one string cell: a string with a comma
      or a quote comes out wrapped in quotes, and stripping them and undoing
      the doubling gives the string back; any other string comes out as is,
      line breaks included. */
  lemma StringCellEncoding(s: string, show: real -> string)
    ensures NeedsQuoting(s) ==> EncodeCell(Str(s), show) == "\"" + DoubleQuotes(s) + "\""
    ensures NeedsQuoting(s) ==> ReadField(EncodeCell(Str(s), show)) == (s, "")
    ensures !NeedsQuoting(s) ==> EncodeCell(Str(s), show) == s
  {
    ReadEncodedCell(Str(s), show, "");
    assert EncodeCell(Str(s), show) + "" == EncodeCell(Str(s), show);
  }

  /** An object or array is always quoted, whatever its JSON text holds, and
      reads back as that text. */
  lemma JsonCellEncoding(text: string, show: real -> string)
    ensures EncodeCell(Json(text), show) == "\"" + DoubleQuotes(text) + "\""
    ensures ReadField(EncodeCell(Json(text), show)) == (text, "")
  {
    ReadEncodedCell(Json(text), show, "");
    assert EncodeCell(Json(text), show) + "" == EncodeCell(Json(text), show);
  }
}

=== FILE: dashboard.dfy ===
/** The dashboard page: the headline figures it recomputes whenever the
    machine list changes, the session it restores on mount, the refresh it
    applies, and signing out. */
module Dashboard {
  import opened Wrappers
  import opened Numeric
  import opened AtmTypes
  import Api
  import Csv
  import Export

  /** `connectionStatus`. */
  datatype Connection = Connected | Disconnected

  /** The page's state that the model follows. */
  datatype PageState = PageState(
    session: Api.Session,
    currentUser: Option<Api.User>,
    atms: seq<Atm>,
    connection: Connection)

  /** The three figures of the aggregate effect. */
  datatype Aggregates = Aggregates(totalCash: int, highRiskAtms: nat, avgDailyWithdrawal: real)

  /** The machine list the page can average: every machine has a history. */
  predicate HasHistories(atms: seq<Atm>)
  {
    forall k :: 0 <= k < |atms| ==> |atms[k].dailyWithdrawals| > 0
  }

  /** The aggregate effect: the cash held across the network, the machines
      at high risk, and the mean over machines of each machine's mean daily
      withdrawal, divided by `atms.length || 1` so that an empty list gives
      zero. */
  function AggregatesOf(atms: seq<Atm>): (g: Aggregates)
    requires HasHistories(atms)
    ensures g.totalCash == SumOf(atms, CashOf)
    ensures g.highRiskAtms == Count(atms, IsHigh) && g.highRiskAtms <= |atms|
    ensures |atms| == 0 ==> g == Aggregates(0, 0, 0.0)
    ensures |atms| > 0 ==> g.avgDailyWithdrawal * |atms| as real == SumOfMeans(atms)
  {
    CountAtMostLength(atms, IsHigh);
    var divisor := if |atms| == 0 then 1 else |atms|;
    Aggregates(SumOf(atms, CashOf), Count(atms, IsHigh), SumOfMeans(atms) / divisor as real)
  }

  /** The sum of the machines' mean withdrawals. */
  function SumOfMeans(atms: seq<Atm>): real
    requires HasHistories(atms)
  {
    if |atms| == 0 then 0.0 else MeanWithdrawal(atms[0]) + SumOfMeans(atms[1..])
  }

  lemma {:induction false} SumOfAppend(atms: seq<Atm>, extra: seq<Atm>, f: Atm -> int)
    ensures SumOf(atms + extra, f) == SumOf(atms, f) + SumOf(extra, f)
  {
    if |atms| == 0 {
      assert atms + extra == extra;
    } else {
      assert (atms + extra)[1..] == atms[1..] + extra;
      SumOfAppend(atms[1..], extra, f);
    }
  }

  /** Adding a machine to the list adds its cash to the total and counts it
      once more as high risk exactly when it is. */
  lemma AggregatesAfterAdding(atms: seq<Atm>, a: Atm)
    requires HasHistories(atms) && |a.dailyWithdrawals| > 0
    ensures HasHistories(atms + [a])
    ensures AggregatesOf(atms + [a]).totalCash == AggregatesOf(atms).totalCash + a.currentCash
    ensures AggregatesOf(atms + [a]).highRiskAtms
              == AggregatesOf(atms).highRiskAtms + (if a.riskLevel == High then 1 else 0)
  {
    SumOfAppend(atms, [a], CashOf);
    CountAppend(atms, [a], IsHigh);
    assert [a][1..] == [];
  }

  /** A network in which no machine holds negative cash holds no negative
      total. */
  lemma {:induction false} TotalCashNonNegative(atms: seq<Atm>)
    requires forall k :: 0 <= k < |atms| ==> atms[k].currentCash >= 0
    ensures SumOf(atms, CashOf) >= 0
  {
    if |atms| > 0 {
      TotalCashNonNegative(atms[1..]);
    }
  }

  lemma {:induction false} SumOfMeansBounds(atms: seq<Atm>, lo: real, hi: real)
    requires HasHistories(atms)
    requires forall k :: 0 <= k < |atms| ==> lo <= MeanWithdrawal(atms[k]) <= hi
    ensures |atms| as real * lo <= SumOfMeans(atms) <= |atms| as real * hi
  {
    if |atms| > 0 {
      SumOfMeansBounds(atms[1..], lo, hi);
      assert |atms| as real * lo == (|atms| - 1) as real * lo + lo;
      assert |atms| as real * hi == (|atms| - 1) as real * hi + hi;
    }
  }

  /** The network average lies between the smallest and the largest of the
      machines' own averages. */
  lemma AverageBetweenMachineMeans(atms: seq<Atm>, lo: real, hi: real)
    requires HasHistories(atms) && |atms| > 0
    requires forall k :: 0 <= k < |atms| ==> lo <= MeanWithdrawal(atms[k]) <= hi
    ensures lo <= AggregatesOf(atms).avgDailyWithdrawal <= hi
  {
    SumOfMeansBounds(atms, lo, hi);
    var n := |atms| as real;
    var avg := AggregatesOf(atms).avgDailyWithdrawal;
    assert avg * n == SumOfMeans(atms);
  }

  /** The "Online ATMs" card: machines whose status is online. */
  function OnlineCount(atms: seq<Atm>): (n: nat)
    ensures n == Count(atms, IsOnline) && n <= |atms|
    ensures n + Count(atms, IsOffline) + Count(atms, IsMaintenance) == |atms|
  {
    CountAtMostLength(atms, IsOnline);
    CountPartition3(atms, IsOnline, IsOffline, IsMaintenance);
    Count(atms, IsOnline)
  }

  /** The analytics download reports the network the cards show: the same
      total cash, high-risk count and online count. */
  lemma AnalyticsMatchCards(atms: seq<Atm>, host: Export.Host)
    requires HasHistories(atms)
    ensures Export.AnalyticsLines(atms, host)[1].value == Csv.Str("$" + host.localeInt(AggregatesOf(atms).totalCash))
    ensures Export.AnalyticsLines(atms, host)[4].value == Csv.Num(AggregatesOf(atms).highRiskAtms as real)
    ensures Export.AnalyticsLines(atms, host)[7].value == Csv.Num(OnlineCount(atms) as real)
  {
  }

  /** The mount effect: a stored session restores its user and triggers a
      fetch; without one the page stays on the login form. */
  function Restore(s: Api.Session): (r: (PageState, bool))
    ensures r.0.currentUser == Api.GetCurrentUser(s)
    ensures r.1 <==> Api.HasToken(s)
    ensures r.0.atms == [] && r.0.session == s
  {
    var user := Api.GetCurrentUser(s);
    (PageState(s, user, [], Connected), user.Some?)
  }

  /** The page's reaction to what `getAllATMs` produced: its session is
      kept (a 401 has already logged the client out); a list replaces the
      page's list and marks it connected; a failure keeps the cached list
      and marks it disconnected. The signed-in user is never touched. */
  function ApplyFetch(state: PageState, fetched: Api.Step<seq<Atm>>): (r: PageState)
    ensures r.session == fetched.session && r.currentUser == state.currentUser
    ensures fetched.result.Success? ==> r.atms == fetched.result.value && r.connection == Connected
    ensures fetched.result.Failure? ==> r.atms == state.atms && r.connection == Disconnected
  {
    if fetched.result.Success? then state.(session := fetched.session, atms := fetched.result.value, connection := Connected)
    else state.(session := fetched.session, connection := Disconnected)
  }

  /** `fetchATMData()` with the client's `getAllATMs` as intended: the
      backend's list when it answers, otherwise the sample network; a 401
      still logs the client out, yet the page keeps its user. */
  function Fetch(state: PageState, reply: Api.Reply<seq<Atm>>): (r: PageState)
    ensures r.connection == Connected && r.currentUser == state.currentUser
    ensures reply.Response? && Api.StatusOk(reply.status) ==> r.atms == reply.body && r.session == state.session
    ensures !(reply.Response? && Api.StatusOk(reply.status)) ==> r.atms == Api.FallbackAtms
    ensures Api.Answered(reply) && reply.status == 401 ==> !Api.HasToken(r.session)
    ensures !(Api.Answered(reply) && reply.status == 401) ==> r.session == state.session
  {
    ApplyFetch(state, Api.GetAllAtms(state.session, reply))
  }

  /** `fetchATMData()` with `getAllATMs` as written: every failed request
      reaches the page's `catch`, which keeps the cached list and marks the
      page disconnected; a 401 also logs the client out. */
  function FetchAsWritten(state: PageState, reply: Api.Reply<seq<Atm>>): (r: PageState)
    ensures r.currentUser == state.currentUser
    ensures reply.Response? && Api.StatusOk(reply.status) ==>
              r.atms == reply.body && r.connection == Connected && r.session == state.session
    ensures !(reply.Response? && Api.StatusOk(reply.status)) ==> r.atms == state.atms && r.connection == Disconnected
    ensures Api.Answered(reply) && reply.status == 401 ==> !Api.HasToken(r.session)
    ensures !(Api.Answered(reply) && reply.status == 401) ==> r.session == state.session
  {
    ApplyFetch(state, Api.GetAllAtmsAsWritten(state.session, reply))
  }

  /** The polling effect is armed while a user is signed in and the list is
      non-empty. */
  predicate Polling(state: PageState)
  {
    state.currentUser.Some? && |state.atms| > 0
  }

  /** A 401 during polling signs the client out but not the page: the user
      is still shown and polling stays armed, while every further request
      goes out without a bearer header. */
  lemma UnauthorizedFetchKeepsPolling(state: PageState, body: seq<Atm>)
    requires Polling(state)
    ensures Polling(Fetch(state, Api.Response(401, body)))
    ensures Polling(FetchAsWritten(state, Api.Response(401, body)))
    ensures Api.AuthHeader(Fetch(state, Api.Response(401, body)).session).None?
    ensures Api.AuthHeader(FetchAsWritten(state, Api.Response(401, body)).session).None?
  {
  }

  /** `handleLogin(user)`: records the user, then fetches the network, with
      `reply` the backend's answer to that fetch. The page ends up connected
      and showing the signed-in user, and polling is armed unless the
      backend answers with an empty list. */
  function HandleLogin(state: PageState, user: Api.User, reply: Api.Reply<seq<Atm>>): (r: PageState)
    ensures r.currentUser == Some(user) && r.connection == Connected
    ensures reply.Response? && Api.StatusOk(reply.status) ==> r.atms == reply.body
    ensures !(reply.Response? && Api.StatusOk(reply.status)) ==> r.atms == Api.FallbackAtms
    ensures Api.Answered(reply) && reply.status == 401 ==> !Api.HasToken(r.session)
    ensures !(Api.Answered(reply) && reply.status == 401) ==> r.session == state.session
    ensures Polling(r) <==> !(reply.Response? && Api.StatusOk(reply.status) && |reply.body| == 0)
  {
    Fetch(state.(currentUser := Some(user)), reply)
  }

  /** `handleLogout()`: forgets the token, the user and the list. */
  function HandleLogout(state: PageState): (r: PageState)
    ensures Api.GetCurrentUser(r.session).None? && Api.AuthHeader(r.session).None?
    ensures r.currentUser.None? && r.atms == []
    ensures !Polling(r)
    ensures AggregatesOf(r.atms) == Aggregates(0, 0, 0.0)
  {
    state.(session := Api.Logout(state.session), currentUser := None, atms := [])
  }

  /** Signing out and restoring the session on the next mount shows the
      login form and fetches nothing. */
  lemma LogoutThenRestore(state: PageState)
    ensures Restore(HandleLogout(state).session).0.currentUser.None?
    ensures !Restore(HandleLogout(state).session).1
  {
  }
}

=== FILE: export.dfy ===
/** The report exporter of the dashboard: plain and spreadsheet-flavoured
    delimited-text downloads, the four canned report shapes, and timestamped
    file names. The clock, the locale and number formatting are supplied by
    a `Host`; the download itself is returned as a value. */
module Export {
  import opened Wrappers
  import opened Numeric
  import opened Text
  import opened Csv
  import opened AtmTypes

  /** What the exporter takes from the browser it runs in. */
  datatype Host = Host(
    show: real -> string,          // String(n) for a finite number
    fixed2: real -> string,        // n.toFixed(2) for a finite number
    localeInt: int -> string,      // n.toLocaleString()
    localeDate: string -> string,  // new Date(s).toLocaleDateString()
    localeNow: string,             // new Date().toLocaleString()
    isoNow: string)                // new Date().toISOString()

  /** A file handed to the browser for download. */
  datatype Download = Download(content: string, filename: string, mimeType: string)

  /** The byte-order mark that makes a common spreadsheet application read
      the file as UTF-8. */
  const Bom: string := "﻿"

  const NoDataError: string := "No data to export"
  const NoPredictionDataError: string := "No prediction data to export"
  const NoRefillDataError: string := "No refill request data to export"
  const NotANumberError: string := "toFixed is not a function"

  /** `exportToCSV`: refuses an empty list, otherwise the document as a
      `.csv` download. */
  function ExportToCsv(data: seq<Record>, filename: string, show: real -> string): (r: Result<Download, string>)
    ensures r.Failure? <==> |data| == 0
    ensures r.Failure? ==> r.error == NoDataError
    ensures r.Success? ==> r.value.filename == filename + ".csv" && r.value.mimeType == "text/csv"
    ensures r.Success? ==> r.value.content == Document(data, show)
  {
    if |data| == 0 then Failure(NoDataError)
    else Success(Download(Document(data, show), filename + ".csv", "text/csv"))
  }

  /** `exportToExcel`: the same document behind a byte-order mark. */
  function ExportToExcel(data: seq<Record>, filename: string, show: real -> string): (r: Result<Download, string>)
    ensures r.Failure? <==> |data| == 0
    ensures r.Failure? ==> r.error == NoDataError
    ensures r.Success? ==> r.value.filename == filename + ".csv" && r.value.mimeType == "text/csv"
    ensures r.Success? ==> |r.value.content| > 0 && r.value.content[0] == '﻿'
    ensures r.Success? ==> r.value.content == Bom + Document(data, show)
  {
    if |data| == 0 then Failure(NoDataError)
    else Success(Download(Bom + Document(data, show), filename + ".csv", "text/csv"))
  }

  /** The spreadsheet variant is the byte-order mark followed by exactly the
      plain variant's text, under the same file name. */
  lemma ExcelIsBomPlusCsv(data: seq<Record>, filename: string, show: real -> string)
    ensures ExportToExcel(data, filename, show).Success? == ExportToCsv(data, filename, show).Success?
    ensures ExportToCsv(data, filename, show).Success? ==>
              ExportToExcel(data, filename, show).value.content == Bom + ExportToCsv(data, filename, show).value.content
              && ExportToExcel(data, filename, show).value.filename == ExportToCsv(data, filename, show).value.filename
  {
  }

  /** A spreadsheet download of records that all start from the columns
      `columns` opens with the byte-order mark and the column names. */
  lemma SpreadsheetHeader(data: seq<Record>, columns: seq<string>, show: real -> string)
    requires |data| > 0 && Keys(data[0]) == columns
    ensures Bom + Join(columns, ",") + "\n" <= Bom + Document(data, show)
  {
    var header := Join(columns, ",") + "\n";
    var doc := Document(data, show);
    assert doc[..|header|] == header;
    assert (Bom + doc)[..|Bom + header|] == Bom + header;
  }

  /** `generateFilename`: the ISO time with ":" and "." turned into "-" and
      its last five characters (milliseconds and zone) dropped. */
  function Timestamp(iso: string): (ts: string)
    ensures ':' !in ts && '.' !in ts
    ensures |ts| <= |iso|
    ensures |iso| >= 5 ==> |ts| == |iso| - 5
    ensures forall i :: 0 <= i < |ts| ==> ts[i] == (if iso[i] == ':' || iso[i] == '.' then '-' else iso[i])
  {
    var replaced := ReplaceAll(iso, {':', '.'}, '-');
    var ts := DropLast(replaced, 5);
    assert forall i :: 0 <= i < |ts| ==> ts[i] == replaced[i];
    ts
  }

  /** `generateFilename(prefix, extension)` at the instant `isoNow`. */
  function GenerateFilename(prefix: string, extension: string, isoNow: string): (name: string)
    ensures name == prefix + "_" + Timestamp(isoNow) + "." + extension
  {
    prefix + "_" + Timestamp(isoNow) + "." + extension
  }

  /** For a standard 24-character ISO instant `YYYY-MM-DDTHH:MM:SS.sssZ` the
      timestamp is its first 19 characters with the two colons replaced. */
  lemma TimestampOfIsoInstant(iso: string)
    requires |iso| == 24
    requires iso[13] == ':' && iso[16] == ':' && iso[19] == '.'
    requires forall i :: 0 <= i < 19 && i != 13 && i != 16 ==> iso[i] != ':' && iso[i] != '.'
    ensures |Timestamp(iso)| == 19
    ensures Timestamp(iso)[13] == '-' && Timestamp(iso)[16] == '-'
    ensures forall i :: 0 <= i < 19 && i != 13 && i != 16 ==> Timestamp(iso)[i] == iso[i]
  {
  }

  /** A generated name passed on as the base name of an export gets ".csv"
      appended a second time. */
  lemma GeneratedNameGetsSecondExtension(data: seq<Record>, prefix: string, host: Host)
    requires |data| > 0
    ensures ExportToExcel(data, GenerateFilename(prefix, "csv", host.isoNow), host.show).Success?
    ensures EndsWith(ExportToExcel(data, GenerateFilename(prefix, "csv", host.isoNow), host.show).value.filename, ".csv.csv")
  {
    var name := GenerateFilename(prefix, "csv", host.isoNow);
    var file := name + ".csv";
    assert file == prefix + "_" + Timestamp(host.isoNow) + ".csv.csv";
    assert file[|file| - 8..] == ".csv.csv";
  }

  // ---------------------------------------------------------------------
  // Machine report
  // ---------------------------------------------------------------------

  /** One line of the machine report, column by column. */
  datatype AtmReportLine = AtmReportLine(
    atmId: string,
    location: string,
    currentCash: int,
    capacity: int,
    cashPercentage: string,
    riskLevel: string,
    status: string,
    lastRefill: string,
    predictedDepletion: string,
    weeklyTotal: int,
    dailyAverage: int,
    peakDay: ExtInt,
    lowDay: ExtInt,
    coordinates: string,
    exportDate: string)

  /** The column names of the machine report, in order. */
  const AtmReportColumns: seq<string> :=
    ["ATM_ID", "Location", "Current_Cash", "Capacity", "Cash_Percentage", "Risk_Level", "Status",
     "Last_Refill", "Predicted_Depletion", "Weekly_Total_Withdrawals", "Daily_Average_Withdrawal",
     "Peak_Day_Withdrawal", "Low_Day_Withdrawal", "Coordinates", "Export_Date"]

  /** A number that may be one of the infinities, as a cell. */
  function ExtCell(x: ExtInt): (c: Cell)
    ensures x.Finite? <==> c.Num?
    ensures x.Finite? ==> c.n == x.n as real
  {
    match x
    case Finite(n) => Num(n as real)
    case NegInfinity => NumInf(true)
    case PosInfinity => NumInf(false)
  }

  /** The record handed to the encoder for one machine-report line. */
  function AtmReportRecord(l: AtmReportLine): (r: Record)
    ensures Keys(r) == AtmReportColumns
  {
    Zip(AtmReportColumns, AtmReportCells(l))
  }

  /** The cells of a machine-report line, in column order. */
  function AtmReportCells(l: AtmReportLine): (cells: seq<Cell>)
    ensures |cells| == |AtmReportColumns|
  {
        [ Str(l.atmId), Str(l.location), Num(l.currentCash as real), Num(l.capacity as real),
          Str(l.cashPercentage), Str(l.riskLevel), Str(l.status), Str(l.lastRefill),
          Str(l.predictedDepletion), Num(l.weeklyTotal as real), Num(l.dailyAverage as real),
          ExtCell(l.peakDay), ExtCell(l.lowDay), Str(l.coordinates), Str(l.exportDate) ]
  }


  /** The coordinate column: "lat, lng", or "N/A" without coordinates. */
  function CoordinatesText(c: Option<Coordinates>, host: Host): (t: string)
    ensures c.None? <==> t == "N/A"
    ensures c.Some? ==> t == host.show(c.value.lat) + ", " + host.show(c.value.lng)
    ensures c.Some? ==> NeedsQuoting(t)
  {
    match c
    case Some(p) =>
      var t := host.show(p.lat) + ", " + host.show(p.lng);
      assert t[|host.show(p.lat)|] == ',';
      assert ',' !in "N/A";
      t
    case None => "N/A"
  }

  /** The machine-report line of one machine. The weekly total is the sum of
      the withdrawals; the daily average is that sum over seven, rounded,
      whatever the list length; peak and low are the largest and smallest
      withdrawal, or minus and plus infinity for an empty list; the
      coordinates read "N/A" exactly when the machine has none. */
  function AtmReportLineOf(a: Atm, host: Host): (l: AtmReportLine)
    requires a.capacity > 0
    ensures l.atmId == a.id && l.location == a.location
    ensures l.currentCash == a.currentCash && l.capacity == a.capacity
    ensures l.cashPercentage == FillText(a, host)
    ensures l.riskLevel == RiskName(a.riskLevel) && l.status == StatusName(a.status)
    ensures l.lastRefill == a.lastRefill && l.predictedDepletion == a.predictedDepletion
    ensures l.weeklyTotal == Sum(a.dailyWithdrawals)
    ensures Sum(a.dailyWithdrawals) as real / 7.0 - 0.5 < l.dailyAverage as real <= Sum(a.dailyWithdrawals) as real / 7.0 + 0.5
    ensures |a.dailyWithdrawals| == 0 <==> l.peakDay == NegInfinity
    ensures |a.dailyWithdrawals| == 0 <==> l.lowDay == PosInfinity
    ensures l.peakDay.Finite? ==>
              (l.peakDay.n in a.dailyWithdrawals
               && forall i :: 0 <= i < |a.dailyWithdrawals| ==> a.dailyWithdrawals[i] <= l.peakDay.n)
    ensures l.lowDay.Finite? ==>
              (l.lowDay.n in a.dailyWithdrawals
               && forall i :: 0 <= i < |a.dailyWithdrawals| ==> l.lowDay.n <= a.dailyWithdrawals[i])
    ensures l.peakDay == JsMax(a.dailyWithdrawals) && l.lowDay == JsMin(a.dailyWithdrawals)
    ensures l.coordinates == CoordinatesText(a.coordinates, host)
    ensures a.coordinates.None? <==> l.coordinates == "N/A"
    ensures a.coordinates.Some? ==> NeedsQuoting(l.coordinates)
    ensures l.exportDate == host.isoNow
  {
    var total := Sum(a.dailyWithdrawals);
    AtmReportLine(
      a.id, a.location, a.currentCash, a.capacity, FillText(a, host),
      RiskName(a.riskLevel), StatusName(a.status), a.lastRefill, a.predictedDepletion,
      total, RoundedWeekAverage(total), JsMax(a.dailyWithdrawals), JsMin(a.dailyWithdrawals),
      CoordinatesText(a.coordinates, host), host.isoNow)
  }

  /** `Math.round(total / 7)`. */
  function RoundedWeekAverage(total: int): (average: int)
    ensures total as real / 7.0 - 0.5 < average as real <= total as real / 7.0 + 0.5
  {
    JsRound(total as real / 7.0)
  }

  /** `((currentCash / capacity) * 100).toFixed(2) + "%"`: the fill
      percentage to two decimals, then a percent sign. */
  function FillText(a: Atm, host: Host): (t: string)
    requires a.capacity > 0
    ensures exists p: real :: p * a.capacity as real == a.currentCash as real * 100.0 && t == host.fixed2(p) + "%"
  {
    host.fixed2(CashPercent(a.currentCash as real, a.capacity as real)) + "%"
  }

  /** The records of the machine report, one per machine. */
  function AtmReportRecords(atms: seq<Atm>, host: Host): (rows: seq<Record>)
    requires forall i :: 0 <= i < |atms| ==> atms[i].capacity > 0
    ensures |rows| == |atms|
    ensures forall i :: 0 <= i < |atms| ==> rows[i] == AtmReportRecord(AtmReportLineOf(atms[i], host))
    ensures forall i :: 0 <= i < |atms| ==> Keys(rows[i]) == AtmReportColumns
  {
    seq(|atms|, i requires 0 <= i < |atms| => AtmReportRecord(AtmReportLineOf(atms[i], host)))
  }

  /** `exportATMReport`: one line per machine, spreadsheet variant; a
      non-empty report has the fifteen column names as its header line. */
  function ExportAtmReport(atms: seq<Atm>, filename: string, host: Host): (r: Result<Download, string>)
    requires forall i :: 0 <= i < |atms| ==> atms[i].capacity > 0
    ensures r.Failure? <==> |atms| == 0
    ensures r.Failure? ==> r.error == NoDataError
    ensures r.Success? ==> r.value.filename == filename + ".csv"
    ensures r.Success? ==> r.value.content == Bom + Document(AtmReportRecords(atms, host), host.show)
    ensures r.Success? ==> Bom + Join(AtmReportColumns, ",") + "\n" <= r.value.content
  {
    var rows := AtmReportRecords(atms, host);
    if |atms| == 0 then ExportToExcel(rows, filename, host.show)
    else
      SpreadsheetHeader(rows, AtmReportColumns, host.show);
      ExportToExcel(rows, filename, host.show)
  }

  /** A host whose number texts hold no comma or quote, as JavaScript's
      never do. */
  ghost predicate PlainNumbers(host: Host)
  {
    forall n: real :: !NeedsQuoting(host.show(n))
  }

  /** Under such a host every cell reads back. */
  lemma PlainNumbersRecoverable(host: Host, c: Cell)
    requires PlainNumbers(host)
    ensures Recoverable(c, host.show)
  {
    if c.Num? {
      assert !NeedsQuoting(host.show(c.n));
    }
  }

  /** Each field of a machine-report line is found under its own column
      name in the record handed to the encoder. */
  lemma AtmReportRecordGet(l: AtmReportLine)
    ensures Keys(AtmReportRecord(l)) == AtmReportColumns
    ensures Get(AtmReportRecord(l), "ATM_ID") == Str(l.atmId)
    ensures Get(AtmReportRecord(l), "Location") == Str(l.location)
    ensures Get(AtmReportRecord(l), "Current_Cash") == Num(l.currentCash as real)
    ensures Get(AtmReportRecord(l), "Capacity") == Num(l.capacity as real)
    ensures Get(AtmReportRecord(l), "Cash_Percentage") == Str(l.cashPercentage)
    ensures Get(AtmReportRecord(l), "Risk_Level") == Str(l.riskLevel)
    ensures Get(AtmReportRecord(l), "Status") == Str(l.status)
    ensures Get(AtmReportRecord(l), "Last_Refill") == Str(l.lastRefill)
    ensures Get(AtmReportRecord(l), "Predicted_Depletion") == Str(l.predictedDepletion)
    ensures Get(AtmReportRecord(l), "Weekly_Total_Withdrawals") == Num(l.weeklyTotal as real)
    ensures Get(AtmReportRecord(l), "Daily_Average_Withdrawal") == Num(l.dailyAverage as real)
    ensures Get(AtmReportRecord(l), "Peak_Day_Withdrawal") == ExtCell(l.peakDay)
    ensures Get(AtmReportRecord(l), "Low_Day_Withdrawal") == ExtCell(l.lowDay)
    ensures Get(AtmReportRecord(l), "Coordinates") == Str(l.coordinates)
    ensures Get(AtmReportRecord(l), "Export_Date") == Str(l.exportDate)
  {
    AtmReportRecordGetPart1(l);
    AtmReportRecordGetPart2(l);
    AtmReportRecordGetPart3(l);
    AtmReportRecordGetPart4(l);
    AtmReportRecordGetPart5(l);
  }

  /** Columns 0 to 2 of `AtmReportRecordGet`. */
  lemma AtmReportRecordGetPart1(l: AtmReportLine)
    ensures Get(AtmReportRecord(l), "ATM_ID") == Str(l.atmId)
    ensures Get(AtmReportRecord(l), "Location") == Str(l.location)
    ensures Get(AtmReportRecord(l), "Current_Cash") == Num(l.currentCash as real)
  {
    var cells := AtmReportCells(l);
    AtmReportColumnsDistinct();
    GetZip(AtmReportColumns, cells, 0);
    GetZip(AtmReportColumns, cells, 1);
    GetZip(AtmReportColumns, cells, 2);
    assert AtmReportColumns[0] == "ATM_ID";
    assert Get(AtmReportRecord(l), AtmReportColumns[0]) == cells[0];
    assert AtmReportColumns[1] == "Location";
    assert Get(AtmReportRecord(l), AtmReportColumns[1]) == cells[1];
    assert AtmReportColumns[2] == "Current_Cash";
    assert Get(AtmReportRecord(l), AtmReportColumns[2]) == cells[2];
  }

  /** Columns 3 to 5 of `AtmReportRecordGet`. */
  lemma AtmReportRecordGetPart2(l: AtmReportLine)
    ensures Get(AtmReportRecord(l), "Capacity") == Num(l.capacity as real)
    ensures Get(AtmReportRecord(l), "Cash_Percentage") == Str(l.cashPercentage)
    ensures Get(AtmReportRecord(l), "Risk_Level") == Str(l.riskLevel)
  {
    var cells := AtmReportCells(l);
    AtmReportColumnsDistinct();
    GetZip(AtmReportColumns, cells, 3);
    GetZip(AtmReportColumns, cells, 4);
    GetZip(AtmReportColumns, cells, 5);
    assert AtmReportColumns[3] == "Capacity";
    assert Get(AtmReportRecord(l), AtmReportColumns[3]) == cells[3];
    assert AtmReportColumns[4] == "Cash_Percentage";
    assert Get(AtmReportRecord(l), AtmReportColumns[4]) == cells[4];
    assert AtmReportColumns[5] == "Risk_Level";
    assert Get(AtmReportRecord(l), AtmReportColumns[5]) == cells[5];
  }

  /** Columns 6 to 8 of `AtmReportRecordGet`. */
  lemma AtmReportRecordGetPart3(l: AtmReportLine)
    ensures Get(AtmReportRecord(l), "Status") == Str(l.status)
    ensures Get(AtmReportRecord(l), "Last_Refill") == Str(l.lastRefill)
    ensures Get(AtmReportRecord(l), "Predicted_Depletion") == Str(l.predictedDepletion)
  {
    var cells := AtmReportCells(l);
    AtmReportColumnsDistinct();
    GetZip(AtmReportColumns, cells, 6);
    GetZip(AtmReportColumns, cells, 7);
    GetZip(AtmReportColumns, cells, 8);
    assert AtmReportColumns[6] == "Status";
    assert Get(AtmReportRecord(l), AtmReportColumns[6]) == cells[6];
    assert AtmReportColumns[7] == "Last_Refill";
    assert Get(AtmReportRecord(l), AtmReportColumns[7]) == cells[7];
    assert AtmReportColumns[8] == "Predicted_Depletion";
    assert Get(AtmReportRecord(l), AtmReportColumns[8]) == cells[8];
  }

  /** Columns 9 to 11 of `AtmReportRecordGet`. */
  lemma AtmReportRecordGetPart4(l: AtmReportLine)
    ensures Get(AtmReportRecord(l), "Weekly_Total_Withdrawals") == Num(l.weeklyTotal as real)
    ensures Get(AtmReportRecord(l), "Daily_Average_Withdrawal") == Num(l.dailyAverage as real)
    ensures Get(AtmReportRecord(l), "Peak_Day_Withdrawal") == ExtCell(l.peakDay)
  {
    var cells := AtmReportCells(l);
    AtmReportColumnsDistinct();
    GetZip(AtmReportColumns, cells, 9);
    GetZip(AtmReportColumns, cells, 10);
    GetZip(AtmReportColumns, cells, 11);
    assert AtmReportColumns[9] == "Weekly_Total_Withdrawals";
    assert Get(AtmReportRecord(l), AtmReportColumns[9]) == cells[9];
    assert AtmReportColumns[10] == "Daily_Average_Withdrawal";
    assert Get(AtmReportRecord(l), AtmReportColumns[10]) == cells[10];
    assert AtmReportColumns[11] == "Peak_Day_Withdrawal";
    assert Get(AtmReportRecord(l), AtmReportColumns[11]) == cells[11];
  }

  /** Columns 12 to 14 of `AtmReportRecordGet`. */
  lemma AtmReportRecordGetPart5(l: AtmReportLine)
    ensures Get(AtmReportRecord(l), "Low_Day_Withdrawal") == ExtCell(l.lowDay)
    ensures Get(AtmReportRecord(l), "Coordinates") == Str(l.coordinates)
    ensures Get(AtmReportRecord(l), "Export_Date") == Str(l.exportDate)
  {
    var cells := AtmReportCells(l);
    AtmReportColumnsDistinct();
    GetZip(AtmReportColumns, cells, 12);
    GetZip(AtmReportColumns, cells, 13);
    GetZip(AtmReportColumns, cells, 14);
    assert AtmReportColumns[12] == "Low_Day_Withdrawal";
    assert Get(AtmReportRecord(l), AtmReportColumns[12]) == cells[12];
    assert AtmReportColumns[13] == "Coordinates";
    assert Get(AtmReportRecord(l), AtmReportColumns[13]) == cells[13];
    assert AtmReportColumns[14] == "Export_Date";
    assert Get(AtmReportRecord(l), AtmReportColumns[14]) == cells[14];
  }

  /** No column name of the report repeats an earlier one. */
  lemma AtmReportColumnsDistinct()
    ensures forall i :: 0 <= i < |AtmReportColumns| ==> AtmReportColumns[i] !in AtmReportColumns[..i]
  {
    AtmReportColumnsFreshA();
    AtmReportColumnsFreshB();
    AtmReportColumnsFreshC();
  }

  /** Columns 0 to 4 each differ from the ones before them. */
  lemma AtmReportColumnsFreshA()
    ensures forall i :: 0 <= i < 5 ==> AtmReportColumns[i] !in AtmReportColumns[..i]
  {
    assert AtmReportColumns[0] !in AtmReportColumns[..0];
    assert AtmReportColumns[1] !in AtmReportColumns[..1];
    assert AtmReportColumns[2] !in AtmReportColumns[..2];
    assert AtmReportColumns[3] !in AtmReportColumns[..3];
    assert AtmReportColumns[4] !in AtmReportColumns[..4];
  }

  /** Columns 5 to 9 each differ from the ones before them. */
  lemma AtmReportColumnsFreshB()
    ensures forall i :: 5 <= i < 10 ==> AtmReportColumns[i] !in AtmReportColumns[..i]
  {
    assert AtmReportColumns[5] !in AtmReportColumns[..5];
    assert AtmReportColumns[6] !in AtmReportColumns[..6];
    assert AtmReportColumns[7] !in AtmReportColumns[..7];
    assert AtmReportColumns[8] !in AtmReportColumns[..8];
    assert AtmReportColumns[9] !in AtmReportColumns[..9];
  }

  /** Columns 10 to 14 each differ from the ones before them. */
  lemma AtmReportColumnsFreshC()
    ensures forall i :: 10 <= i < 15 ==> AtmReportColumns[i] !in AtmReportColumns[..i]
  {
    assert AtmReportColumns[10] !in AtmReportColumns[..10];
    assert AtmReportColumns[11] !in AtmReportColumns[..11];
    assert AtmReportColumns[12] !in AtmReportColumns[..12];
    assert AtmReportColumns[13] !in AtmReportColumns[..13];
    assert AtmReportColumns[14] !in AtmReportColumns[..14];
  }
  /** Reading back the encoded record of a machine-report line yields the
      fifteen columns, starting with the machine's id and location, whatever
      commas or quotes they hold. */
  lemma AtmReportRecordReadsBack(l: AtmReportLine, host: Host)
    requires PlainNumbers(host)
    ensures var fields := ReadRecord(EncodeRow(AtmReportRecord(l), AtmReportColumns, host.show));
            |fields| == 15 && fields[0] == l.atmId && fields[1] == l.location
  {
    var row := AtmReportRecord(l);
    forall k | 0 <= k < |AtmReportColumns|
      ensures Recoverable(Get(row, AtmReportColumns[k]), host.show)
    {
      PlainNumbersRecoverable(host, Get(row, AtmReportColumns[k]));
    }
    RowRoundTrip(row, AtmReportColumns, host.show);
    AtmReportRecordGet(l);
  }

  /** The line of machine `i` in the machine report reads back as fifteen
      fields, the first two being that machine's id and location. */
  lemma AtmReportLineReadsBack(atms: seq<Atm>, host: Host, i: nat)
    requires forall k :: 0 <= k < |atms| ==> atms[k].capacity > 0
    requires i < |atms| && PlainNumbers(host)
    ensures var fields := ReadRecord(Lines(AtmReportRecords(atms, host), host.show)[i + 1]);
            |fields| == 15 && fields[0] == atms[i].id && fields[1] == atms[i].location
  {
    var rows := AtmReportRecords(atms, host);
    var l := AtmReportLineOf(atms[i], host);
    assert Keys(rows[0]) == AtmReportColumns;
    assert rows[i] == AtmReportRecord(l);
    AtmReportRecordReadsBack(l, host);
  }

  // ---------------------------------------------------------------------
  // Prediction report
  // ---------------------------------------------------------------------

  /** One line of the prediction report. Its inputs are untyped records, so
      most columns are values passed through. */
  datatype PredictionLine = PredictionLine(
    dayNumber: Cell,
    date: Cell,
    predictedCash: Cell,
    cashPercentage: string,
    riskLevel: Cell,
    dailyWithdrawal: Cell,
    runningTotal: Cell,
    exportDate: string)

  /** The column names of the prediction report, in order. */
  const PredictionColumns: seq<string> :=
    ["Day_Number", "Date", "Predicted_Cash", "Cash_Percentage", "Risk_Level", "Daily_Withdrawal",
     "Running_Total", "Export_Date"]

  /** The record handed to the encoder for one prediction line. */
  function PredictionRecord(l: PredictionLine): (r: Record)
    ensures Keys(r) == PredictionColumns
  {
    Zip(PredictionColumns, PredictionCells(l))
  }

  /** The cells of a prediction line, in column order. */
  function PredictionCells(l: PredictionLine): (cells: seq<Cell>)
    ensures |cells| == |PredictionColumns|
  {
    [ l.dayNumber, l.date, l.predictedCash, Str(l.cashPercentage), l.riskLevel, l.dailyWithdrawal,
      l.runningTotal, Str(l.exportDate) ]
  }

  /** Each field of a prediction line is found under its own column name
      in the record handed to the encoder. */
  lemma PredictionRecordGet(l: PredictionLine)
    ensures Get(PredictionRecord(l), "Day_Number") == l.dayNumber
    ensures Get(PredictionRecord(l), "Date") == l.date
    ensures Get(PredictionRecord(l), "Predicted_Cash") == l.predictedCash
    ensures Get(PredictionRecord(l), "Cash_Percentage") == Str(l.cashPercentage)
    ensures Get(PredictionRecord(l), "Risk_Level") == l.riskLevel
    ensures Get(PredictionRecord(l), "Daily_Withdrawal") == l.dailyWithdrawal
    ensures Get(PredictionRecord(l), "Running_Total") == l.runningTotal
    ensures Get(PredictionRecord(l), "Export_Date") == Str(l.exportDate)
  {
    PredictionRecordGetPart1(l);
    PredictionRecordGetPart2(l);
  }

  /** Columns 0 to 3 of `PredictionRecordGet`. */
  lemma PredictionRecordGetPart1(l: PredictionLine)
    ensures Get(PredictionRecord(l), "Day_Number") == l.dayNumber
    ensures Get(PredictionRecord(l), "Date") == l.date
    ensures Get(PredictionRecord(l), "Predicted_Cash") == l.predictedCash
    ensures Get(PredictionRecord(l), "Cash_Percentage") == Str(l.cashPercentage)
  {
    var cells := PredictionCells(l);
    PredictionColumnsDistinct();
    GetZip(PredictionColumns, cells, 0);
    GetZip(PredictionColumns, cells, 1);
    GetZip(PredictionColumns, cells, 2);
    GetZip(PredictionColumns, cells, 3);
    assert PredictionColumns[0] == "Day_Number";
    assert Get(PredictionRecord(l), PredictionColumns[0]) == cells[0];
    assert PredictionColumns[1] == "Date";
    assert Get(PredictionRecord(l), PredictionColumns[1]) == cells[1];
    assert PredictionColumns[2] == "Predicted_Cash";
    assert Get(PredictionRecord(l), PredictionColumns[2]) == cells[2];
    assert PredictionColumns[3] == "Cash_Percentage";
    assert Get(PredictionRecord(l), PredictionColumns[3]) == cells[3];
  }

  /** Columns 4 to 7 of `PredictionRecordGet`. */
  lemma PredictionRecordGetPart2(l: PredictionLine)
    ensures Get(PredictionRecord(l), "Risk_Level") == l.riskLevel
    ensures Get(PredictionRecord(l), "Daily_Withdrawal") == l.dailyWithdrawal
    ensures Get(PredictionRecord(l), "Running_Total") == l.runningTotal
    ensures Get(PredictionRecord(l), "Export_Date") == Str(l.exportDate)
  {
    var cells := PredictionCells(l);
    PredictionColumnsDistinct();
    GetZip(PredictionColumns, cells, 4);
    GetZip(PredictionColumns, cells, 5);
    GetZip(PredictionColumns, cells, 6);
    GetZip(PredictionColumns, cells, 7);
    assert PredictionColumns[4] == "Risk_Level";
    assert Get(PredictionRecord(l), PredictionColumns[4]) == cells[4];
    assert PredictionColumns[5] == "Daily_Withdrawal";
    assert Get(PredictionRecord(l), PredictionColumns[5]) == cells[5];
    assert PredictionColumns[6] == "Running_Total";
    assert Get(PredictionRecord(l), PredictionColumns[6]) == cells[6];
    assert PredictionColumns[7] == "Export_Date";
    assert Get(PredictionRecord(l), PredictionColumns[7]) == cells[7];
  }

  /** No column name of the report repeats an earlier one. */
  lemma PredictionColumnsDistinct()
    ensures forall i :: 0 <= i < |PredictionColumns| ==> PredictionColumns[i] !in PredictionColumns[..i]
  {
    PredictionColumnsFreshA();
    PredictionColumnsFreshB();
  }

  /** Columns 0 to 3 each differ from the ones before them. */
  lemma PredictionColumnsFreshA()
    ensures forall i :: 0 <= i < 4 ==> PredictionColumns[i] !in PredictionColumns[..i]
  {
    assert PredictionColumns[0] !in PredictionColumns[..0];
    assert PredictionColumns[1] !in PredictionColumns[..1];
    assert PredictionColumns[2] !in PredictionColumns[..2];
    assert PredictionColumns[3] !in PredictionColumns[..3];
  }

  /** Columns 4 to 7 each differ from the ones before them. */
  lemma PredictionColumnsFreshB()
    ensures forall i :: 4 <= i < 8 ==> PredictionColumns[i] !in PredictionColumns[..i]
  {
    assert PredictionColumns[4] !in PredictionColumns[..4];
    assert PredictionColumns[5] !in PredictionColumns[..5];
    assert PredictionColumns[6] !in PredictionColumns[..6];
    assert PredictionColumns[7] !in PredictionColumns[..7];
  }
  /** `pred.cashPercentage?.toFixed(2) + "%"`: a missing value gives
      "undefined%"; a value that is not a number has no `toFixed`. */
  function PercentText(c: Cell, host: Host): (r: Result<string, string>)
    ensures c.Null? || c.Undefined? ==> r == Success("undefined%")
    ensures c.Num? ==> r == Success(host.fixed2(c.n) + "%")
    ensures r.Failure? <==> c.Str? || c.Bool? || c.Json?
    ensures r.Success? ==> EndsWith(r.value, "%") && r.value != "N/A"
  {
    var r: Result<string, string> :=
      match c
      case Num(n) => Success(host.fixed2(n) + "%")
      case NumInf(neg) => Success((if neg then "-Infinity" else "Infinity") + "%")
      case Null => Success("undefined%")
      case Undefined => Success("undefined%")
      case _ => Failure(NotANumberError);
    if r.Success? then
      assert r.value[|r.value| - 1] == '%';
      assert "N/A"[2] != '%';
      r
    else r
  }

  /** The percentage column of a prediction can be rendered: it is a
      number or missing. */
  predicate PercentOk(pred: Record, host: Host)
  {
    PercentText(Get(pred, "cashPercentage"), host).Success?
  }

  /** The prediction-report line for the prediction at `index`. The day
      falls back to the position when `day` is missing or zero; a missing or
      zero `predictedCash` falls through to `predicted_withdrawal`; the
      percentage column always ends in "%" and is never "N/A", a missing
      percentage reading "undefined%". */
  function PredictionLineOf(pred: Record, index: nat, host: Host): (l: PredictionLine)
    requires PercentOk(pred, host)
    ensures EndsWith(l.cashPercentage, "%") && l.cashPercentage != "N/A"
    ensures Get(pred, "cashPercentage") in {Null, Undefined} ==> l.cashPercentage == "undefined%"
    ensures !Truthy(Get(pred, "day")) ==> l.dayNumber == Num((index + 1) as real)
    ensures Truthy(Get(pred, "day")) ==> l.dayNumber == Get(pred, "day")
    ensures !Truthy(Get(pred, "predictedCash")) ==> l.predictedCash == Get(pred, "predicted_withdrawal")
    ensures Truthy(Get(pred, "predictedCash")) ==> l.predictedCash == Get(pred, "predictedCash")
    ensures !Truthy(Get(pred, "riskLevel")) ==> l.riskLevel == Str("N/A")
    ensures Truthy(Get(pred, "riskLevel")) ==> l.riskLevel == Get(pred, "riskLevel")
    ensures !Truthy(Get(pred, "dailyWithdrawal")) ==> l.dailyWithdrawal == Get(pred, "predicted_withdrawal")
    ensures Truthy(Get(pred, "dailyWithdrawal")) ==> l.dailyWithdrawal == Get(pred, "dailyWithdrawal")
    ensures !Truthy(Get(pred, "running_total")) ==> l.runningTotal == Str("N/A")
    ensures Truthy(Get(pred, "running_total")) ==> l.runningTotal == Get(pred, "running_total")
    ensures l.date == Get(pred, "date")
    ensures l.cashPercentage == PercentText(Get(pred, "cashPercentage"), host).value
    ensures l.exportDate == host.isoNow
  {
    PredictionLine(
      Or(Get(pred, "day"), Num((index + 1) as real)),
      Get(pred, "date"),
      Or(Get(pred, "predictedCash"), Get(pred, "predicted_withdrawal")),
      PercentText(Get(pred, "cashPercentage"), host).value,
      Or(Get(pred, "riskLevel"), Str("N/A")),
      Or(Get(pred, "dailyWithdrawal"), Get(pred, "predicted_withdrawal")),
      Or(Get(pred, "running_total"), Str("N/A")),
      host.isoNow)
  }

  /** `predictions.map(...)`: every line, or the `toFixed` error as soon as
      one prediction's percentage is neither a number nor missing. */
  function PredictionLines(preds: seq<Record>, host: Host): (r: Result<seq<PredictionLine>, string>)
    ensures r.Failure? <==> exists i :: 0 <= i < |preds| && !PercentOk(preds[i], host)
    ensures r.Failure? ==> r.error == NotANumberError
    ensures r.Success? ==> |r.value| == |preds| && forall i :: 0 <= i < |preds| ==> PercentOk(preds[i], host)
    ensures r.Success? ==> forall i :: 0 <= i < |preds| ==> r.value[i] == PredictionLineOf(preds[i], i, host)
  {
    if forall i :: 0 <= i < |preds| ==> PercentOk(preds[i], host) then
      Success(seq(|preds|, i requires 0 <= i < |preds| => PredictionLineOf(preds[i], i, host)))
    else
      Failure(NotANumberError)
  }

  /** The records of the prediction report, one per prediction. */
  function PredictionRecords(preds: seq<Record>, host: Host): (rows: seq<Record>)
    requires forall i :: 0 <= i < |preds| ==> PercentOk(preds[i], host)
    ensures |rows| == |preds|
    ensures forall i :: 0 <= i < |preds| ==> rows[i] == PredictionRecord(PredictionLineOf(preds[i], i, host))
  {
    seq(|preds|, i requires 0 <= i < |preds| => PredictionRecord(PredictionLineOf(preds[i], i, host)))
  }

  /** `exportPredictions`: refuses an empty list with its own message and
      fails on a percentage that is neither a number nor missing; otherwise
      the spreadsheet variant with one line per prediction under the eight
      column names. */
  function ExportPredictions(preds: seq<Record>, filename: string, host: Host): (r: Result<Download, string>)
    ensures |preds| == 0 ==> r == Failure(NoPredictionDataError)
    ensures r.Failure? <==> |preds| == 0 || exists i :: 0 <= i < |preds| && !PercentOk(preds[i], host)
    ensures |preds| > 0 && r.Failure? ==> r.error == NotANumberError
    ensures r.Success? ==> r.value.filename == filename + ".csv"
    ensures r.Success? ==> r.value.content == Bom + Document(PredictionRecords(preds, host), host.show)
    ensures r.Success? ==> Bom + Join(PredictionColumns, ",") + "\n" <= r.value.content
  {
    if |preds| == 0 then Failure(NoPredictionDataError)
    else
      var lines :- PredictionLines(preds, host);
      var rows := seq(|lines|, i requires 0 <= i < |lines| => PredictionRecord(lines[i]));
      assert rows == PredictionRecords(preds, host);
      SpreadsheetHeader(rows, PredictionColumns, host.show);
      ExportToExcel(rows, filename, host.show)
  }

  // ---------------------------------------------------------------------
  // Refill-request report
  // ---------------------------------------------------------------------

  /** One line of the refill-request report. */
  datatype RefillLine = RefillLine(
    requestId: string,
    atmId: string,
    requestedAmount: int,
    requestor: string,
    status: string,
    createdDate: string,
    updatedDate: string,
    comment: string,
    approvalCount: nat,
    latestApprover: string,
    latestAction: string,
    exportDate: string)

  /** The column names of the refill-request report, in order. */
  const RefillColumns: seq<string> :=
    ["Request_ID", "ATM_ID", "Requested_Amount", "Requestor", "Status", "Created_Date", "Updated_Date",
     "Comment", "Approval_Count", "Latest_Approver", "Latest_Action", "Export_Date"]

  /** The record handed to the encoder for one refill-request line. */
  function RefillRecord(l: RefillLine): (r: Record)
    ensures Keys(r) == RefillColumns
  {
    Zip(RefillColumns, RefillCells(l))
  }

  /** The cells of a refill-request line, in column order. */
  function RefillCells(l: RefillLine): (cells: seq<Cell>)
    ensures |cells| == |RefillColumns|
  {
    [ Str(l.requestId), Str(l.atmId), Num(l.requestedAmount as real), Str(l.requestor), Str(l.status),
      Str(l.createdDate), Str(l.updatedDate), Str(l.comment), Num(l.approvalCount as real),
      Str(l.latestApprover), Str(l.latestAction), Str(l.exportDate) ]
  }

  /** Each field of a refill-request line is found under its own column
      name in the record handed to the encoder. */
  lemma RefillRecordGet(l: RefillLine)
    ensures Get(RefillRecord(l), "Request_ID") == Str(l.requestId)
    ensures Get(RefillRecord(l), "ATM_ID") == Str(l.atmId)
    ensures Get(RefillRecord(l), "Requested_Amount") == Num(l.requestedAmount as real)
    ensures Get(RefillRecord(l), "Requestor") == Str(l.requestor)
    ensures Get(RefillRecord(l), "Status") == Str(l.status)
    ensures Get(RefillRecord(l), "Created_Date") == Str(l.createdDate)
    ensures Get(RefillRecord(l), "Updated_Date") == Str(l.updatedDate)
    ensures Get(RefillRecord(l), "Comment") == Str(l.comment)
    ensures Get(RefillRecord(l), "Approval_Count") == Num(l.approvalCount as real)
    ensures Get(RefillRecord(l), "Latest_Approver") == Str(l.latestApprover)
    ensures Get(RefillRecord(l), "Latest_Action") == Str(l.latestAction)
    ensures Get(RefillRecord(l), "Export_Date") == Str(l.exportDate)
  {
    RefillRecordGetPart1(l);
    RefillRecordGetPart2(l);
    RefillRecordGetPart3(l);
    RefillRecordGetPart4(l);
  }

  /** Columns 0 to 2 of `RefillRecordGet`. */
  lemma RefillRecordGetPart1(l: RefillLine)
    ensures Get(RefillRecord(l), "Request_ID") == Str(l.requestId)
    ensures Get(RefillRecord(l), "ATM_ID") == Str(l.atmId)
    ensures Get(RefillRecord(l), "Requested_Amount") == Num(l.requestedAmount as real)
  {
    var cells := RefillCells(l);
    RefillColumnsDistinct();
    GetZip(RefillColumns, cells, 0);
    GetZip(RefillColumns, cells, 1);
    GetZip(RefillColumns, cells, 2);
    assert RefillColumns[0] == "Request_ID";
    assert Get(RefillRecord(l), RefillColumns[0]) == cells[0];
    assert RefillColumns[1] == "ATM_ID";
    assert Get(RefillRecord(l), RefillColumns[1]) == cells[1];
    assert RefillColumns[2] == "Requested_Amount";
    assert Get(RefillRecord(l), RefillColumns[2]) == cells[2];
  }

  /** Columns 3 to 5 of `RefillRecordGet`. */
  lemma RefillRecordGetPart2(l: RefillLine)
    ensures Get(RefillRecord(l), "Requestor") == Str(l.requestor)
    ensures Get(RefillRecord(l), "Status") == Str(l.status)
    ensures Get(RefillRecord(l), "Created_Date") == Str(l.createdDate)
  {
    var cells := RefillCells(l);
    RefillColumnsDistinct();
    GetZip(RefillColumns, cells, 3);
    GetZip(RefillColumns, cells, 4);
    GetZip(RefillColumns, cells, 5);
    assert RefillColumns[3] == "Requestor";
    assert Get(RefillRecord(l), RefillColumns[3]) == cells[3];
    assert RefillColumns[4] == "Status";
    assert Get(RefillRecord(l), RefillColumns[4]) == cells[4];
    assert RefillColumns[5] == "Created_Date";
    assert Get(RefillRecord(l), RefillColumns[5]) == cells[5];
  }

  /** Columns 6 to 8 of `RefillRecordGet`. */
  lemma RefillRecordGetPart3(l: RefillLine)
    ensures Get(RefillRecord(l), "Updated_Date") == Str(l.updatedDate)
    ensures Get(RefillRecord(l), "Comment") == Str(l.comment)
    ensures Get(RefillRecord(l), "Approval_Count") == Num(l.approvalCount as real)
  {
    var cells := RefillCells(l);
    RefillColumnsDistinct();
    GetZip(RefillColumns, cells, 6);
    GetZip(RefillColumns, cells, 7);
    GetZip(RefillColumns, cells, 8);
    assert RefillColumns[6] == "Updated_Date";
    assert Get(RefillRecord(l), RefillColumns[6]) == cells[6];
    assert RefillColumns[7] == "Comment";
    assert Get(RefillRecord(l), RefillColumns[7]) == cells[7];
    assert RefillColumns[8] == "Approval_Count";
    assert Get(RefillRecord(l), RefillColumns[8]) == cells[8];
  }

  /** Columns 9 to 11 of `RefillRecordGet`. */
  lemma RefillRecordGetPart4(l: RefillLine)
    ensures Get(RefillRecord(l), "Latest_Approver") == Str(l.latestApprover)
    ensures Get(RefillRecord(l), "Latest_Action") == Str(l.latestAction)
    ensures Get(RefillRecord(l), "Export_Date") == Str(l.exportDate)
  {
    var cells := RefillCells(l);
    RefillColumnsDistinct();
    GetZip(RefillColumns, cells, 9);
    GetZip(RefillColumns, cells, 10);
    GetZip(RefillColumns, cells, 11);
    assert RefillColumns[9] == "Latest_Approver";
    assert Get(RefillRecord(l), RefillColumns[9]) == cells[9];
    assert RefillColumns[10] == "Latest_Action";
    assert Get(RefillRecord(l), RefillColumns[10]) == cells[10];
    assert RefillColumns[11] == "Export_Date";
    assert Get(RefillRecord(l), RefillColumns[11]) == cells[11];
  }

  /** No column name of the report repeats an earlier one. */
  lemma RefillColumnsDistinct()
    ensures forall i :: 0 <= i < |RefillColumns| ==> RefillColumns[i] !in RefillColumns[..i]
  {
    RefillColumnsFreshA();
    RefillColumnsFreshB();
    RefillColumnsFreshC();
  }

  /** Columns 0 to 3 each differ from the ones before them. */
  lemma RefillColumnsFreshA()
    ensures forall i :: 0 <= i < 4 ==> RefillColumns[i] !in RefillColumns[..i]
  {
    assert RefillColumns[0] !in RefillColumns[..0];
    assert RefillColumns[1] !in RefillColumns[..1];
    assert RefillColumns[2] !in RefillColumns[..2];
    assert RefillColumns[3] !in RefillColumns[..3];
  }

  /** Columns 4 to 7 each differ from the ones before them. */
  lemma RefillColumnsFreshB()
    ensures forall i :: 4 <= i < 8 ==> RefillColumns[i] !in RefillColumns[..i]
  {
    assert RefillColumns[4] !in RefillColumns[..4];
    assert RefillColumns[5] !in RefillColumns[..5];
    assert RefillColumns[6] !in RefillColumns[..6];
    assert RefillColumns[7] !in RefillColumns[..7];
  }

  /** Columns 8 to 11 each differ from the ones before them. */
  lemma RefillColumnsFreshC()
    ensures forall i :: 8 <= i < 12 ==> RefillColumns[i] !in RefillColumns[..i]
  {
    assert RefillColumns[8] !in RefillColumns[..8];
    assert RefillColumns[9] !in RefillColumns[..9];
    assert RefillColumns[10] !in RefillColumns[..10];
    assert RefillColumns[11] !in RefillColumns[..11];
  }
  /** `value || "N/A"` on an optional string. */
  function OrNA(s: Option<string>): (t: string)
    ensures s.Some? && s.value != "" ==> t == s.value
    ensures s.None? || s.value == "" ==> t == "N/A"
  {
    if s.Some? && s.value != "" then s.value else "N/A"
  }

  /** The refill-request line of one request. The approval columns summarise
      the log: its length, and the approver and action of its last event,
      "N/A" when the log is empty or the field is blank; a missing or blank
      comment reads "N/A". */
  function RefillLineOf(q: RefillRequest, host: Host): (l: RefillLine)
    ensures l.requestId == q.requestId && l.atmId == q.atmId && l.requestedAmount == q.requestedAmount
    ensures l.requestor == q.requestor && l.status == RefillStatusName(q.status)
    ensures l.createdDate == host.localeDate(q.createdAt) && l.updatedDate == host.localeDate(q.updatedAt)
    ensures l.exportDate == host.isoNow
    ensures l.approvalCount == |q.approvalHistory|
    ensures |q.approvalHistory| == 0 ==> l.latestApprover == "N/A" && l.latestAction == "N/A"
    ensures |q.approvalHistory| > 0 ==>
              l.latestApprover == OrNA(Some(q.approvalHistory[|q.approvalHistory| - 1].approver))
              && l.latestAction == OrNA(Some(q.approvalHistory[|q.approvalHistory| - 1].action))
    ensures l.comment == OrNA(q.comment)
  {
    var h := q.approvalHistory;
    RefillLine(
      q.requestId, q.atmId, q.requestedAmount, q.requestor, RefillStatusName(q.status),
      host.localeDate(q.createdAt), host.localeDate(q.updatedAt),
      OrNA(q.comment),
      |h|,
      if |h| == 0 then "N/A" else OrNA(Some(h[|h| - 1].approver)),
      if |h| == 0 then "N/A" else OrNA(Some(h[|h| - 1].action)),
      host.isoNow)
  }

  /** The records of the refill-request report, one per request. */
  function RefillRecords(reqs: seq<RefillRequest>, host: Host): (rows: seq<Record>)
    ensures |rows| == |reqs|
    ensures forall i :: 0 <= i < |reqs| ==> rows[i] == RefillRecord(RefillLineOf(reqs[i], host))
  {
    seq(|reqs|, i requires 0 <= i < |reqs| => RefillRecord(RefillLineOf(reqs[i], host)))
  }

  /** `exportRefillRequests`: refuses an empty list with its own message,
      otherwise the spreadsheet variant with one line per request under the
      twelve column names. */
  function ExportRefillRequests(reqs: seq<RefillRequest>, filename: string, host: Host): (r: Result<Download, string>)
    ensures r.Failure? <==> |reqs| == 0
    ensures r.Failure? ==> r.error == NoRefillDataError
    ensures r.Success? ==> r.value.filename == filename + ".csv"
    ensures r.Success? ==> r.value.content == Bom + Document(RefillRecords(reqs, host), host.show)
    ensures r.Success? ==> Bom + Join(RefillColumns, ",") + "\n" <= r.value.content
  {
    if |reqs| == 0 then Failure(NoRefillDataError)
    else
      var rows := RefillRecords(reqs, host);
      SpreadsheetHeader(rows, RefillColumns, host.show);
      ExportToExcel(rows, filename, host.show)
  }

  // ---------------------------------------------------------------------
  // Analytics report
  // ---------------------------------------------------------------------

  /** One line of the analytics summary. */
  datatype SummaryLine = SummaryLine(metric: string, value: Cell, category: string)

  /** The column names of the analytics summary. */
  const SummaryColumns: seq<string> := ["Metric", "Value", "Category"]

  /** The record handed to the encoder for one summary line. */
  function SummaryRecord(l: SummaryLine): (r: Record)
    ensures Keys(r) == SummaryColumns
  {
    Zip(SummaryColumns, [Str(l.metric), l.value, Str(l.category)])
  }

  function WeeklyAverage(a: Atm): real { Sum(a.dailyWithdrawals) as real / 7.0 }

  /** The average-withdrawal figure: the mean over machines of each
      machine's weekly total over seven, rounded. */
  function MeanWeeklyAverage(atms: seq<Atm>): (average: int)
    requires |atms| > 0
    ensures var mean := SumOfReal(atms, WeeklyAverage) / |atms| as real;
            mean - 0.5 < average as real <= mean + 0.5
  {
    JsRound(SumOfReal(atms, WeeklyAverage) / |atms| as real)
  }

  /** `a / b * 100` for a non-zero divisor: `a` as a percentage of `b`. */
  function RatioPercent(a: int, b: int): real
    requires b != 0
  {
    a as real / b as real * 100.0
  }

  /** `(a / b * 100).toFixed(2)` for integers, with the IEEE results of a
      zero divisor written out. */
  function RatioPercentText(a: int, b: int, host: Host): (t: string)
    ensures b == 0 && a == 0 ==> t == "NaN"
    ensures b == 0 && a > 0 ==> t == "Infinity"
    ensures b == 0 && a < 0 ==> t == "-Infinity"
    ensures b != 0 ==> t == host.fixed2(RatioPercent(a, b))
  {
    if b == 0 then (if a == 0 then "NaN" else if a > 0 then "Infinity" else "-Infinity")
    else host.fixed2(RatioPercent(a, b))
  }

  /** The metric names of the analytics summary, in order. */
  const AnalyticsMetrics: seq<string> :=
    ["Total ATMs", "Total Cash Available", "Total Network Capacity", "Network Utilization",
     "High Risk ATMs", "Medium Risk ATMs", "Low Risk ATMs", "Online ATMs", "Offline ATMs",
     "Maintenance ATMs", "Average Daily Withdrawal", "Report Generated"]

  /** The category of each analytics metric, in the same order. */
  const AnalyticsCategories: seq<string> :=
    ["Network Overview", "Financial", "Financial", "Financial", "Risk Assessment", "Risk Assessment",
     "Risk Assessment", "Status", "Status", "Status", "Performance", "Metadata"]

  /** The twelve summary lines of `exportAnalyticsReport`: the machine
      count; total cash and total capacity as "$" and the locale text of the
      sums; the utilisation ratio; the three risk counts and the three
      status counts, each partitioning the network; the mean of the weekly
      averages; and the generation time. */
  function AnalyticsLines(atms: seq<Atm>, host: Host): (lines: seq<SummaryLine>)
    ensures |lines| == 12
    ensures forall i :: 0 <= i < 12 ==> lines[i].metric == AnalyticsMetrics[i] && lines[i].category == AnalyticsCategories[i]
    ensures lines[0].value == Num(|atms| as real)
    ensures lines[4].value == Num(Count(atms, IsHigh) as real)
    ensures lines[5].value == Num(Count(atms, IsMedium) as real)
    ensures lines[6].value == Num(Count(atms, IsLow) as real)
    ensures lines[7].value == Num(Count(atms, IsOnline) as real)
    ensures lines[8].value == Num(Count(atms, IsOffline) as real)
    ensures lines[9].value == Num(Count(atms, IsMaintenance) as real)
    ensures lines[4].value.n + lines[5].value.n + lines[6].value.n == |atms| as real
    ensures lines[7].value.n + lines[8].value.n + lines[9].value.n == |atms| as real
    ensures lines[11].value == Str(host.localeNow)
    ensures lines[1].value == Str("$" + host.localeInt(SumOf(atms, CashOf)))
    ensures lines[2].value == Str("$" + host.localeInt(SumOf(atms, CapacityOf)))
    ensures lines[3].value == Str(RatioPercentText(SumOf(atms, CashOf), SumOf(atms, CapacityOf), host) + "%")
    ensures |atms| == 0 ==> lines[3].value == Str("NaN%") && lines[10].value == Str("$NaN")
    ensures |atms| > 0 ==> lines[10].value == Str("$" + host.localeInt(MeanWeeklyAverage(atms)))
  {
    var values := AnalyticsValues(atms, host);
    CountPartition3(atms, IsHigh, IsMedium, IsLow);
    CountPartition3(atms, IsOnline, IsOffline, IsMaintenance);
    seq(12, i requires 0 <= i < 12 => SummaryLine(AnalyticsMetrics[i], values[i], AnalyticsCategories[i]))
  }

  /** The value column of the analytics summary, in metric order. */
  function AnalyticsValues(atms: seq<Atm>, host: Host): (values: seq<Cell>)
    ensures |values| == 12
    ensures values[1] == Str("$" + host.localeInt(SumOf(atms, CashOf)))
    ensures values[2] == Str("$" + host.localeInt(SumOf(atms, CapacityOf)))
    ensures values[3] == Str(RatioPercentText(SumOf(atms, CashOf), SumOf(atms, CapacityOf), host) + "%")
    ensures |atms| == 0 ==> values[3] == Str("NaN%") && values[10] == Str("$NaN")
    ensures |atms| > 0 ==> values[10] == Str("$" + host.localeInt(MeanWeeklyAverage(atms)))
  {
    var totalCash := SumOf(atms, CashOf);
    var totalCapacity := SumOf(atms, CapacityOf);
    var average :=
      if |atms| == 0 then "$NaN"
      else "$" + host.localeInt(MeanWeeklyAverage(atms));
    assert |atms| == 0 ==> totalCash == 0 && totalCapacity == 0;
    assert |atms| == 0 ==> RatioPercentText(totalCash, totalCapacity, host) + "%" == "NaN%";
    [ Num(|atms| as real),
      Str("$" + host.localeInt(totalCash)),
      Str("$" + host.localeInt(totalCapacity)),
      Str(RatioPercentText(totalCash, totalCapacity, host) + "%"),
      Num(Count(atms, IsHigh) as real),
      Num(Count(atms, IsMedium) as real),
      Num(Count(atms, IsLow) as real),
      Num(Count(atms, IsOnline) as real),
      Num(Count(atms, IsOffline) as real),
      Num(Count(atms, IsMaintenance) as real),
      Str(average),
      Str(host.localeNow) ]
  }

  /** The records of the analytics summary, one per summary line. */
  function SummaryRecords(atms: seq<Atm>, host: Host): (rows: seq<Record>)
    ensures |rows| == 12
    ensures forall i :: 0 <= i < 12 ==> rows[i] == SummaryRecord(AnalyticsLines(atms, host)[i])
  {
    var lines := AnalyticsLines(atms, host);
    seq(12, i requires 0 <= i < 12 => SummaryRecord(lines[i]))
  }

  /** `exportAnalyticsReport`: never refused, not even for an empty network,
      because the summary always has twelve lines; the download is the
      spreadsheet variant of those twelve records under the three column
      names. */
  function ExportAnalyticsReport(atms: seq<Atm>, filename: string, host: Host): (r: Result<Download, string>)
    ensures r.Success?
    ensures r.value.filename == filename + ".csv"
    ensures r.value.content == Bom + Document(SummaryRecords(atms, host), host.show)
    ensures Bom + Join(SummaryColumns, ",") + "\n" <= r.value.content
  {
    var rows := SummaryRecords(atms, host);
    SpreadsheetHeader(rows, SummaryColumns, host.show);
    ExportToExcel(rows, filename, host.show)
  }
}

=== FILE: forecast.dfy ===
/** The prediction form's offline fallback: when the backend cannot produce a
    forecast, the form projects the selected machine's cash forward day by
    day at its average withdrawal scaled by a seasonal and an event factor,
    never below zero, and labels each day by the fill level. */
module PredictionForm {
  import opened Wrappers
  import opened Numeric
  import opened AtmTypes
  import Csv

  /** One projected day. */
  datatype ForecastRow = ForecastRow(
    day: int,
    date: string,
    predictedCash: real,
    cashPercentage: real,
    riskLevel: RiskLevel,
    dailyWithdrawal: real)

  /** Risk bands of the fallback: below 20% high, below 40% medium. */
  function RiskBand(percentage: real): (r: RiskLevel)
    ensures r == High <==> percentage < 20.0
    ensures r == Medium <==> 20.0 <= percentage < 40.0
    ensures r == Low <==> percentage >= 40.0
  {
    if percentage < 20.0 then High
    else if percentage < 40.0 then Medium
    else Low
  }

  /** `avgDailyWithdrawal * seasonal * event`. */
  function AdjustedWithdrawal(a: Atm, seasonal: real, event: real): real
    requires |a.dailyWithdrawals| > 0
  {
    MeanWithdrawal(a) * seasonal * event
  }

  /** Reference definition: the cash left after `k` days of the loop's
      update `Math.max(0, cash - w)`. */
  function CashAfter(cash: real, w: real, k: nat): real
  {
    if k == 0 then cash else MaxReal(0.0, CashAfter(cash, w, k - 1) - w)
  }

  /** Closed form: for a non-negative daily withdrawal, the cash after `k`
      days (k >= 1) is the starting cash less k withdrawals, floored at 0. */
  lemma {:induction false} CashAfterClosedForm(cash: real, w: real, k: nat)
    requires w >= 0.0 && k >= 1
    ensures CashAfter(cash, w, k) == MaxReal(0.0, cash - k as real * w)
  {
    var before := (k - 1) as real * w;
    assert k as real * w == before + w;
    if k > 1 {
      CashAfterClosedForm(cash, w, k - 1);
      if cash - before <= 0.0 {
        assert CashAfter(cash, w, k - 1) == 0.0;
      } else {
        assert CashAfter(cash, w, k - 1) == cash - before;
      }
    }
  }

  /** The projection never rises when withdrawals are non-negative. */
  lemma CashAfterNonIncreasing(cash: real, w: real, k: nat)
    requires w >= 0.0 && k >= 1
    ensures CashAfter(cash, w, k + 1) <= CashAfter(cash, w, k)
  {
  }

  /** The days the fallback lists: `for (i = 1; i <= days; i++)`. */
  function DayCount(days: int): (n: nat)
    ensures days >= 0 ==> n == days
    ensures days < 0 ==> n == 0
  {
    if days >= 0 then days else 0
  }

  /** The expected row for day `i` of the projection of `a`. */
  predicate IsForecastRow(row: ForecastRow, a: Atm, w: real, i: nat, dateOf: int -> string)
    requires a.capacity > 0
  {
    var cash := CashAfter(a.currentCash as real, w, i);
    && row.day == i
    && row.date == dateOf(i)
    && row.predictedCash == cash
    && row.cashPercentage == CashPercent(cash, a.capacity as real)
    && row.riskLevel == RiskBand(row.cashPercentage)
    && row.dailyWithdrawal == w
  }

  /** The local forecast loop. `dateOf(i)` is the host's rendering of today
      plus `i` days. */
  method LocalForecast(a: Atm, days: int, seasonal: real, event: real, dateOf: int -> string)
    returns (rows: seq<ForecastRow>)
    requires |a.dailyWithdrawals| > 0 && a.capacity > 0
    ensures |rows| == DayCount(days)
    ensures forall i :: 0 <= i < |rows| ==>
              IsForecastRow(rows[i], a, AdjustedWithdrawal(a, seasonal, event), i + 1, dateOf)
    ensures forall i :: 0 <= i < |rows| ==> rows[i].predictedCash >= 0.0
    ensures forall i :: 0 <= i < |rows| ==> rows[i].cashPercentage >= 0.0
  {
    var w := AdjustedWithdrawal(a, seasonal, event);
    rows := [];
    var cash := a.currentCash as real;
    var i := 1;
    while i <= days
      invariant 1 <= i && |rows| == i - 1
      invariant days >= 0 ==> i <= days + 1
      invariant days < 0 ==> i == 1
      invariant cash == CashAfter(a.currentCash as real, w, i - 1)
      invariant forall j :: 0 <= j < |rows| ==> IsForecastRow(rows[j], a, w, j + 1, dateOf)
      invariant forall j :: 0 <= j < |rows| ==> rows[j].predictedCash >= 0.0
      invariant forall j :: 0 <= j < |rows| ==> rows[j].cashPercentage >= 0.0
      decreases days - i
    {
      cash := MaxReal(0.0, cash - w);
      var percentage := CashPercent(cash, a.capacity as real);
      rows := rows + [ForecastRow(i, dateOf(i), cash, percentage, RiskBand(percentage), w)];
      i := i + 1;
    }
  }

  /** Rows whose cash follows the projection, as the rows of
      `LocalForecast` do (`IsForecastRow`): with a non-negative withdrawal,
      day `i` holds the starting cash less `i` withdrawals, floored at zero,
      and no day holds more cash than the day before. */
  lemma ForecastShape(rows: seq<ForecastRow>, a: Atm, w: real)
    requires w >= 0.0
    requires forall i :: 0 <= i < |rows| ==> rows[i].predictedCash == CashAfter(a.currentCash as real, w, i + 1)
    ensures forall i :: 0 <= i < |rows| ==>
              rows[i].predictedCash == MaxReal(0.0, a.currentCash as real - (i + 1) as real * w)
    ensures forall i :: 0 <= i < |rows| - 1 ==> rows[i + 1].predictedCash <= rows[i].predictedCash
  {
    forall i | 0 <= i < |rows|
      ensures rows[i].predictedCash == MaxReal(0.0, a.currentCash as real - (i + 1) as real * w)
    {
      CashAfterClosedForm(a.currentCash as real, w, i + 1);
    }
    forall i | 0 <= i < |rows| - 1
      ensures rows[i + 1].predictedCash <= rows[i].predictedCash
    {
      CashAfterNonIncreasing(a.currentCash as real, w, i + 1);
    }
  }


  /** The body `generatePrediction(currentDate, days)` posts: the object
      `{ current_date, days }` after `JSON.stringify`, which leaves out a
      member whose value is `undefined`. */
  function PredictBody(currentDate: Csv.Cell, days: Csv.Cell): (body: Csv.Record)
    ensures Csv.Get(body, "current_date") == currentDate
    ensures Csv.Get(body, "days") == days
    ensures forall i :: 0 <= i < |body| ==> body[i].value != Csv.Undefined
  {
    (if currentDate == Csv.Undefined then [] else [Csv.Field("current_date", currentDate)])
    + (if days == Csv.Undefined then [] else [Csv.Field("days", days)])
  }

  /** The request as the form makes it: the whole form object is passed as
      the client's first parameter, `currentDate`, and the second, `days`,
      stays `undefined`. The backend receives an object where it expects a
      date, and no day count at all. */
  function PredictRequestAsWritten(form: Csv.Cell): (body: Csv.Record)
    requires form.Json?
    ensures Csv.Keys(body) == ["current_date"]
    ensures Csv.Get(body, "current_date") == form
    ensures Csv.Get(body, "days") == Csv.Undefined
  {
    PredictBody(form, Csv.Undefined)
  }

  /** The request the client's signature asks for: today's date and the
      number of days from the form. */
  function PredictRequest(today: string, days: int): (body: Csv.Record)
    ensures Csv.Keys(body) == ["current_date", "days"]
    ensures Csv.Get(body, "current_date") == Csv.Str(today)
    ensures Csv.Get(body, "days") == Csv.Num(days as real)
  {
    PredictBody(Csv.Str(today), Csv.Num(days as real))
  }

  /** A 2xx answer of the prediction endpoint. `dailyPredictions` is the row
      list of the client's declared response type; `predictions` is the
      member the form reads, which that declared type does not have
      (`None`: `undefined`). */
  datatype PredictionAnswer = PredictionAnswer(
    dailyPredictions: seq<ForecastRow>,
    predictions: Option<seq<ForecastRow>>)

  /** The results card reads `predictions.length`, which throws a TypeError
      when the list is `undefined`. */
  function ResultsCount(predictions: Option<seq<ForecastRow>>): (r: Result<nat, string>)
    ensures r.Failure? <==> predictions.None?
    ensures r.Success? ==> r.value == |predictions.value|
  {
    match predictions
    case None => Failure("TypeError")
    case Some(rows) => Success(|rows|)
  }

  /** Why the form produced no forecast, or where the forecast came from. */
  datatype Outcome =
    | SelectionRequired            // no machine chosen: toast, nothing changes
    | UnknownMachine               // fallback found no machine with that id
    | FromBackend                  // "Prediction Generated"
    | OfflinePrediction            // "Offline Prediction"

  /** `calculatePrediction` as intended: no selection stops at once; the
      rows of a backend answer are shown; otherwise the local forecast of the
      selected machine replaces the list, and an unknown id leaves the list
      as it was. */
  method CalculatePrediction(atms: seq<Atm>, selected: string, backend: Option<PredictionAnswer>,
                             days: int, seasonal: real, event: real, dateOf: int -> string,
                             shown: seq<ForecastRow>)
    returns (predictions: seq<ForecastRow>, outcome: Outcome)
    requires selected != "" && backend.None? && FindById(atms, selected).Some? ==>
               |FindById(atms, selected).value.dailyWithdrawals| > 0 && FindById(atms, selected).value.capacity > 0
    ensures selected == "" ==> outcome == SelectionRequired && predictions == shown
    ensures selected != "" && backend.Some? ==> outcome == FromBackend && predictions == backend.value.dailyPredictions
    ensures ResultsCount(Some(predictions)) == Success(|predictions|)
    ensures selected != "" && backend.None? && FindById(atms, selected).None? ==>
              outcome == UnknownMachine && predictions == shown
    ensures selected != "" && backend.None? && FindById(atms, selected).Some? ==>
              outcome == OfflinePrediction
              && |predictions| == DayCount(days)
              && var a := FindById(atms, selected).value;
                 forall i :: 0 <= i < |predictions| ==>
                   IsForecastRow(predictions[i], a, AdjustedWithdrawal(a, seasonal, event), i + 1, dateOf)
  {
    if selected == "" {
      return shown, SelectionRequired;
    }
    if backend.Some? {
      return backend.value.dailyPredictions, FromBackend;
    }
    var found := FindById(atms, selected);
    if found.None? {
      return shown, UnknownMachine;
    }
    predictions := LocalForecast(found.value, days, seasonal, event, dateOf);
    outcome := OfflinePrediction;
  }

  /** `calculatePrediction` as written: a 2xx answer sets the list to
      `response.predictions`, a member the declared answer lacks, so an
      answer of that shape leaves no list and the results card throws. The
      other paths agree with `CalculatePrediction`. */
  method CalculatePredictionAsWritten(atms: seq<Atm>, selected: string, backend: Option<PredictionAnswer>,
                                      days: int, seasonal: real, event: real, dateOf: int -> string,
                                      shown: seq<ForecastRow>)
    returns (predictions: Option<seq<ForecastRow>>, outcome: Outcome)
    requires selected != "" && backend.None? && FindById(atms, selected).Some? ==>
               |FindById(atms, selected).value.dailyWithdrawals| > 0 && FindById(atms, selected).value.capacity > 0
    ensures selected != "" && backend.Some? ==> outcome == FromBackend && predictions == backend.value.predictions
    ensures selected != "" && backend.Some? && backend.value.predictions.None? ==>
              ResultsCount(predictions).Failure?
    ensures !(selected != "" && backend.Some?) ==> predictions.Some? && ResultsCount(predictions).Success?
    ensures selected == "" ==> outcome == SelectionRequired && predictions == Some(shown)
    ensures selected != "" && backend.None? && FindById(atms, selected).None? ==>
              outcome == UnknownMachine && predictions == Some(shown)
    ensures selected != "" && backend.None? && FindById(atms, selected).Some? ==>
              outcome == OfflinePrediction
              && |predictions.value| == DayCount(days)
              && var a := FindById(atms, selected).value;
                 forall i :: 0 <= i < |predictions.value| ==>
                   IsForecastRow(predictions.value[i], a, AdjustedWithdrawal(a, seasonal, event), i + 1, dateOf)
  {
    if selected != "" && backend.Some? {
      return backend.value.predictions, FromBackend;
    }
    var rows;
    rows, outcome := CalculatePrediction(atms, selected, backend, days, seasonal, event, dateOf, shown);
    predictions := Some(rows);
  }
}

=== FILE: historical_data.dfy ===
/** The historical-analysis screen: the chart series it derives from the
    selected machine (withdrawals per weekday, a reconstructed cash level),
    the per-machine network table, the headline statistics and the risk
    distribution. Dates are host-rendered strings. */
module HistoricalData {
  import opened Wrappers
  import opened Numeric
  import opened Text
  import opened AtmTypes

  /** `useState(atmData[0]?.id || "")`: the first machine, if any. */
  function InitialSelection(atms: seq<Atm>): (id: string)
    ensures |atms| == 0 ==> id == ""
    ensures |atms| > 0 ==> id == atms[0].id
  {
    if |atms| > 0 then atms[0].id else ""
  }

  const DayNames: seq<string> := ["Mon", "Tue", "Wed", "Thu", "Fri", "Sat", "Sun"]

  /** The average amount one transaction is assumed to move. */
  const AmountPerTransaction: int := 150

  /** One bar of the withdrawal chart; `day` is `undefined` past the
      seventh entry. */
  datatype WithdrawalRow = WithdrawalRow(day: Option<string>, withdrawals: int, transactions: int, efficiency: real)

  /** `x / (capacity * 0.3) * 100`: `x` as a percentage of the 30% of its
      capacity a machine is expected to pay out in a day. */
  function LoadPercent(x: real, capacity: int): (p: real)
    requires capacity > 0
    ensures p * (capacity as real * 0.3) == x * 100.0
    ensures x >= 0.0 ==> p >= 0.0
  {
    x / (capacity as real * 0.3) * 100.0
  }

  /** `Math.min(100, x / (capacity * 0.3) * 100)`: the load, capped at 100. */
  function Efficiency(x: real, capacity: int): (e: real)
    requires capacity > 0
    ensures e <= 100.0 && e <= LoadPercent(x, capacity)
    ensures e == 100.0 || e == LoadPercent(x, capacity)
    ensures x >= 0.0 ==> e >= 0.0
  {
    MinReal(100.0, LoadPercent(x, capacity))
  }

  /** The cap is reached exactly when `x` is at least 30% of the capacity;
      below it the figure is the load itself. */
  lemma EfficiencySaturates(x: real, capacity: int)
    requires capacity > 0
    ensures Efficiency(x, capacity) == 100.0 <==> x >= capacity as real * 0.3
    ensures x < capacity as real * 0.3 ==> Efficiency(x, capacity) * (capacity as real * 0.3) == x * 100.0
  {
    var base := capacity as real * 0.3;
    var p := LoadPercent(x, capacity);
    assert p * base == x * 100.0;
    if x >= base {
      assert x * 100.0 >= base * 100.0;
      assert p * base >= 100.0 * base;
      assert p >= 100.0;
    } else {
      assert p * base < 100.0 * base;
      assert p < 100.0;
    }
  }

  /** `generateWithdrawalData()`: one row per recorded withdrawal, none when
      no machine is selected. */
  function WithdrawalRows(selected: Option<Atm>): (rows: seq<WithdrawalRow>)
    requires selected.Some? ==> selected.value.capacity > 0
    ensures selected.None? ==> rows == []
    ensures selected.Some? ==> |rows| == |selected.value.dailyWithdrawals|
    ensures selected.Some? ==> forall k :: 0 <= k < |rows| ==>
              var amount := selected.value.dailyWithdrawals[k];
              && rows[k].withdrawals == amount
              && rows[k].transactions * AmountPerTransaction <= amount
              && amount < (rows[k].transactions + 1) * AmountPerTransaction
              && rows[k].efficiency == Efficiency(amount as real, selected.value.capacity)
              && (rows[k].day.Some? <==> k < 7)
              && (k < 7 ==> rows[k].day.value == DayNames[k])
  {
    match selected
    case None => []
    case Some(a) =>
      seq(|a.dailyWithdrawals|, k requires 0 <= k < |a.dailyWithdrawals| =>
        var amount := a.dailyWithdrawals[k];
        WithdrawalRow(if k < 7 then Some(DayNames[k]) else None, amount,
                      amount / AmountPerTransaction, Efficiency(amount as real, a.capacity)))
  }

  /** The withdrawal assumed when a day's figure is missing or zero
      (`dailyWithdrawals[k] || 15000`). */
  const AssumedWithdrawal: int := 15000

  function DayWithdrawal(w: seq<int>, k: nat): (amount: int)
    ensures amount != 0
    ensures k < |w| && w[k] != 0 ==> amount == w[k]
    ensures k >= |w| || w[k] == 0 ==> amount == AssumedWithdrawal
  {
    if k < |w| && w[k] != 0 then w[k] else AssumedWithdrawal
  }

  /** Reference definition: the reconstructed cash level after the first
      `k` days, starting full and never going below zero. */
  function LevelAfter(capacity: int, w: seq<int>, k: nat): int
  {
    if k == 0 then capacity
    else
      var prev := LevelAfter(capacity, w, k - 1);
      var next := prev - DayWithdrawal(w, k - 1);
      if next > 0 then next else 0
  }

  /** With no negative withdrawals, the reconstructed level never rises. */
  lemma LevelAfterNonIncreasing(capacity: int, w: seq<int>, k: nat)
    requires forall i :: 0 <= i < |w| ==> w[i] >= 0
    requires k >= 1 || capacity >= 0
    ensures LevelAfter(capacity, w, k + 1) <= LevelAfter(capacity, w, k)
  {
  }

  /** One point of the cash-level chart. */
  datatype CashPoint = CashPoint(date: string, cashLevel: int, percentage: real, refillNeeded: bool)

  /** `generateCashLevelData()`: seven points, oldest first, none when no
      machine is selected. `dateOf(i)` is the host's rendering of today
      minus `i` days. */
  method CashLevelSeries(selected: Option<Atm>, dateOf: int -> string) returns (points: seq<CashPoint>)
    requires selected.Some? ==> selected.value.capacity > 0
    ensures selected.None? ==> points == []
    ensures selected.Some? ==> |points| == 7
    ensures selected.Some? ==> forall k :: 0 <= k < |points| ==>
              var a := selected.value;
              && points[k].cashLevel == LevelAfter(a.capacity, a.dailyWithdrawals, k + 1)
              && points[k].cashLevel >= 0
              && points[k].date == dateOf(6 - k)
              && points[k].percentage == CashPercent(points[k].cashLevel as real, a.capacity as real)
              && (points[k].refillNeeded <==> points[k].cashLevel * 5 < a.capacity)
  {
    if selected.None? {
      return [];
    }
    var a := selected.value;
    points := [];
    var cash := a.capacity;
    var i := 6;
    while i >= 0
      invariant -1 <= i <= 6 && |points| == 6 - i
      invariant cash == LevelAfter(a.capacity, a.dailyWithdrawals, 6 - i)
      invariant forall k :: 0 <= k < |points| ==>
                  && points[k].cashLevel == LevelAfter(a.capacity, a.dailyWithdrawals, k + 1)
                  && points[k].cashLevel >= 0
                  && points[k].date == dateOf(6 - k)
                  && points[k].percentage == CashPercent(points[k].cashLevel as real, a.capacity as real)
                  && (points[k].refillNeeded <==> points[k].cashLevel * 5 < a.capacity)
    {
      var withdrawal := DayWithdrawal(a.dailyWithdrawals, 6 - i);
      cash := if cash - withdrawal > 0 then cash - withdrawal else 0;
      var refill := (cash as real) < (a.capacity as real) * 0.2;
      points := points + [CashPoint(dateOf(i), cash, CashPercent(cash as real, a.capacity as real), refill)];
      i := i - 1;
    }
  }

  /** `location.split(" ").slice(0, 2).join(" ")`: a prefix of the
      location whose words are the location's first two. */
  function ShortLocation(location: string): (short: string)
    ensures short <= location
    ensures var words := Split(location, ' ');
            Split(short, ' ') == words[..if |words| < 2 then |words| else 2]
    ensures ' ' !in location ==> short == location
  {
    var parts := Split(location, ' ');
    var n := if |parts| < 2 then |parts| else 2;
    JoinSplit(location, ' ');
    JoinTakePrefix(parts, " ", n);
    SplitWithoutSeparator(location, ' ');
    assert ' ' !in location ==> parts[..n] == parts;
    SplitJoin(parts[..n], ' ');
    Join(parts[..n], " ")
  }

  /** One row of the network table. */
  datatype NetworkRow = NetworkRow(
    id: string,
    location: string,
    totalWithdrawals: int,
    avgDaily: real,
    utilization: real,
    riskLevel: RiskLevel,
    status: AtmStatus)

  /** The network-table row of one machine. */
  function NetworkRowOf(a: Atm): (row: NetworkRow)
    requires a.capacity > 0
    ensures row.id == a.id && row.riskLevel == a.riskLevel && row.status == a.status
    ensures row.location == ShortLocation(a.location)
    ensures row.totalWithdrawals == Sum(a.dailyWithdrawals)
    ensures row.avgDaily * 7.0 == row.totalWithdrawals as real
    ensures row.utilization == Efficiency(row.avgDaily, a.capacity)
    ensures row.totalWithdrawals >= 0 ==> row.utilization >= 0.0
  {
    var total := Sum(a.dailyWithdrawals);
    var avg := total as real / 7.0;
    NetworkRow(a.id, ShortLocation(a.location), total, avg, Efficiency(avg, a.capacity), a.riskLevel, a.status)
  }

  /** `generateNetworkData()`: one row per machine, in list order. */
  function NetworkRows(atms: seq<Atm>): (rows: seq<NetworkRow>)
    requires forall k :: 0 <= k < |atms| ==> atms[k].capacity > 0
    ensures |rows| == |atms|
    ensures forall k :: 0 <= k < |atms| ==> rows[k] == NetworkRowOf(atms[k])
  {
    seq(|atms|, k requires 0 <= k < |atms| => NetworkRowOf(atms[k]))
  }

  /** The headline figures of the selected machine. */
  datatype Stats = Stats(totalWithdrawals: int, avgDaily: real, maxWithdrawal: ExtInt, minWithdrawal: ExtInt)

  /** With no selection the figures fall back to `0` and `[0]`; an empty
      history gives the infinities of `Math.max()` and `Math.min()`. */
  function SelectedStats(selected: Option<Atm>): (s: Stats)
    ensures selected.None? ==> s == Stats(0, 0.0, Finite(0), Finite(0))
    ensures selected.Some? ==> s.totalWithdrawals == Sum(selected.value.dailyWithdrawals)
                               && s.avgDaily * 7.0 == s.totalWithdrawals as real
                               && s.maxWithdrawal == JsMax(selected.value.dailyWithdrawals)
                               && s.minWithdrawal == JsMin(selected.value.dailyWithdrawals)
  {
    var w := if selected.Some? then selected.value.dailyWithdrawals else [0];
    var total := if selected.Some? then Sum(selected.value.dailyWithdrawals) else 0;
    Stats(total, total as real / 7.0, JsMax(w), JsMin(w))
  }

  /** The risk pie: machines of low, medium and high risk. */
  datatype RiskDistribution = RiskDistribution(low: nat, medium: nat, high: nat)

  function RiskDistributionOf(atms: seq<Atm>): (d: RiskDistribution)
    ensures d.low == Count(atms, IsLow) && d.medium == Count(atms, IsMedium) && d.high == Count(atms, IsHigh)
    ensures d.low + d.medium + d.high == |atms|
  {
    CountPartition3(atms, IsLow, IsMedium, IsHigh);
    RiskDistribution(Count(atms, IsLow), Count(atms, IsMedium), Count(atms, IsHigh))
  }

  /** With nothing selected, both series are empty and the weekly total is
      zero. */
  method NoSelectionIsEmpty(dateOf: int -> string) returns (w: seq<WithdrawalRow>, c: seq<CashPoint>, total: int)
    ensures w == [] && c == [] && total == 0
  {
    w := WithdrawalRows(None);
    c := CashLevelSeries(None, dateOf);
    total := SelectedStats(None).totalWithdrawals;
  }
}

=== FILE: login_form.dfy ===
/** The sign-in form: the blank-field guard, the demo shortcut and the
    table of demo accounts it offers. */
module LoginForm {
  import opened Wrappers
  import Api

  /** One offered demo account: the login name, the role label shown, and
      a description. */
  datatype DemoAccount = DemoAccount(value: string, roleLabel: string, description: string)

  const DemoAccounts: seq<DemoAccount> := [
    DemoAccount("atm_ops", "ATM Operations Staff", "Manage daily ATM operations"),
    DemoAccount("branch_mgr", "Branch Operations Manager", "Oversee branch operations"),
    DemoAccount("vault_mgr", "Vault Manager", "Manage cash vault operations"),
    DemoAccount("hoao", "Head Office Authorization Officer", "Authorize high-value transactions")
  ]

  /** The password every demo account uses. */
  const DemoPassword: string := "demo123"

  /** The form's two fields. */
  datatype Fields = Fields(username: string, password: string)

  /** The demo table agrees with the client's role lookup: every account's
      label is the role its login name maps to, and the accounts are exactly
      the names the lookup knows. */
  lemma DemoAccountsMatchRoleLookup()
    ensures forall i :: 0 <= i < |DemoAccounts| ==> Api.RoleOf(DemoAccounts[i].value) == DemoAccounts[i].roleLabel
    ensures forall i :: 0 <= i < |DemoAccounts| ==> DemoAccounts[i].value in Api.RoleTable
    ensures forall key :: key in Api.RoleTable ==> exists i :: 0 <= i < |DemoAccounts| && DemoAccounts[i].value == key
  {
    forall key | key in Api.RoleTable
      ensures exists i :: 0 <= i < |DemoAccounts| && DemoAccounts[i].value == key
    {
      if key == "atm_ops" {
        assert DemoAccounts[0].value == key;
      } else if key == "branch_mgr" {
        assert DemoAccounts[1].value == key;
      } else if key == "vault_mgr" {
        assert DemoAccounts[2].value == key;
      } else {
        assert DemoAccounts[3].value == key;
      }
    }
  }

  /** `handleDemoLogin(role)`: fills in the login name and the demo
      password. */
  function DemoLogin(f: Fields, role: string): (r: Fields)
    ensures r.username == role && r.password == DemoPassword
  {
    Fields(role, DemoPassword)
  }

  /** What signing in leaves behind: the client's session, the user handed
      to `onLogin` if any, and whether the client was asked at all. */
  datatype Submitted = Submitted(session: Api.Session, onLogin: Option<Api.User>, called: bool)

  /** `handleLogin`: a blank field stops before the client is asked;
      otherwise the client's `login` runs and `onLogin` receives its user
      only when it resolves. */
  function HandleLogin(f: Fields, s: Api.Session, reply: Api.Reply<Option<string>>): (r: Submitted)
    ensures f.username == "" || f.password == "" ==> r == Submitted(s, None, false)
    ensures f.username != "" && f.password != "" ==>
              r.called && r.session == Api.Login(s, f.username, reply).session
    ensures r.onLogin.Some? <==> r.called && Api.Login(s, f.username, reply).result.Success?
    ensures r.onLogin.Some? ==> r.onLogin.value == Api.Login(s, f.username, reply).result.value
  {
    if f.username == "" || f.password == "" then Submitted(s, None, false)
    else
      var step := Api.Login(s, f.username, reply);
      Submitted(step.session, if step.result.Success? then Some(step.result.value) else None, true)
  }

  /** Signing in through a demo account that the backend accepts hands
      `onLogin` a user whose role is the label the table shows. */
  lemma DemoLoginGivesShownRole(i: nat, f: Fields, s: Api.Session, status: int, token: Option<string>)
    requires i < |DemoAccounts| && Api.StatusOk(status)
    ensures var r := HandleLogin(DemoLogin(f, DemoAccounts[i].value), s, Api.Response(status, token));
            r.onLogin.Some? && r.onLogin.value.role == DemoAccounts[i].roleLabel
  {
    DemoAccountsMatchRoleLookup();
  }

  /** A refused login never reaches `onLogin`. */
  lemma RefusedLoginNotifiesNobody(f: Fields, s: Api.Session, status: int, token: Option<string>)
    requires !Api.StatusOk(status)
    ensures HandleLogin(f, s, Api.Response(status, token)).onLogin.None?
    ensures HandleLogin(f, s, Api.Response(status, token)).session == s
  {
  }
}

=== FILE: ml_prediction.dfy ===
/** The model-training screen: choosing the training file, training the
    model, asking it for a forecast, and who may train. The backend's
    answers are parameters: none when the call failed, otherwise the text
    of the returned document. */
module MlPrediction {
  import opened Wrappers
  import opened Text
  import Api

  /** The screen's state. `selectedFile` is the chosen file's name. */
  datatype MlState = MlState(
    modelTrained: bool,
    metadata: Option<string>,
    selectedFile: Option<string>,
    loading: bool,
    results: Option<string>)

  const InitialState: MlState := MlState(false, None, None, false, None)

  /** The training file must be a CSV file, whatever the case of its
      extension. */
  predicate IsCsvName(name: string)
  {
    EndsWith(ToLower(name), ".csv")
  }

  /** `handleFileSelect`: no file changes nothing; a file whose lower-cased
      name does not end in ".csv" is refused and the earlier choice kept. */
  function SelectFile(s: MlState, file: Option<string>): (r: MlState)
    ensures file.None? ==> r == s
    ensures file.Some? && !IsCsvName(file.value) ==> r == s
    ensures file.Some? && IsCsvName(file.value) ==> r == s.(selectedFile := file)
    ensures r.selectedFile.Some? && r.selectedFile != s.selectedFile ==> IsCsvName(r.selectedFile.value)
  {
    if file.Some? && IsCsvName(file.value) then s.(selectedFile := file) else s
  }

  /** A name whose last four characters lower-case to ".csv" is accepted. */
  lemma LowerSuffixAccepted(name: string)
    requires |name| >= 4
    requires name[|name| - 4] == '.' && LowerChar(name[|name| - 3]) == 'c'
    requires LowerChar(name[|name| - 2]) == 's' && LowerChar(name[|name| - 1]) == 'v'
    ensures IsCsvName(name)
  {
    var lower := ToLower(name);
    var tail := lower[|lower| - 4..];
    assert tail[0] == '.' && tail[1] == 'c' && tail[2] == 's' && tail[3] == 'v';
    assert tail == ".csv";
  }

  /** Upper-case extensions are accepted. */
  lemma UpperCaseCsvAccepted()
    ensures IsCsvName("DATA.CSV")
  {
    LowerSuffixAccepted("DATA.CSV");
  }

  /** A name whose last character is not a "v" of either case is refused. */
  lemma LastLetterDecides(name: string)
    requires |name| > 0 && name[|name| - 1] != 'v' && name[|name| - 1] != 'V'
    ensures !IsCsvName(name)
  {
    var lower := ToLower(name);
    assert lower[|lower| - 1] == LowerChar(name[|name| - 1]) != 'v';
    assert |lower| < 4 || lower[|lower| - 4..][3] != ".csv"[3];
  }

  /** A name that merely contains ".csv" is refused. */
  lemma InnerCsvRefused()
    ensures !IsCsvName("data.csv.txt")
  {
    LastLetterDecides("data.csv.txt");
  }

  /** `handleModelTraining` with the upload's answer: without a file no call
      is made; a successful upload marks the model trained and keeps the
      returned metadata; a failure leaves the model as it was. Loading is
      off again once the handler finishes, and the shown forecast is never
      touched. */
  function Train(s: MlState, reply: Option<string>): (r: (MlState, bool))
    ensures s.selectedFile.None? ==> r == (s, false)
    ensures s.selectedFile.Some? ==> r.1 && !r.0.loading && r.0.selectedFile == s.selectedFile
    ensures r.0.results == s.results
    ensures s.selectedFile.Some? && reply.Some? ==> r.0.modelTrained && r.0.metadata == reply
    ensures reply.None? ==> r.0.modelTrained == s.modelTrained && r.0.metadata == s.metadata
    ensures r.0.modelTrained ==> s.modelTrained || (r.1 && reply.Some?)
  {
    if s.selectedFile.None? then (s, false)
    else if reply.Some? then (s.(modelTrained := true, metadata := reply, loading := false), true)
    else (s.(loading := false), true)
  }

  /** The call `handlePrediction` makes: the chosen date and day count. */
  datatype PredictionCall = PredictionCall(currentDate: string, days: int)

  /** `handlePrediction`: refused without a call unless the model is
      trained; a successful answer becomes the shown result, and a failure
      keeps the earlier one. */
  function Predict(s: MlState, currentDate: string, days: int, reply: Option<string>): (r: (MlState, Option<PredictionCall>))
    ensures !s.modelTrained ==> r == (s, None)
    ensures s.modelTrained ==> r.1 == Some(PredictionCall(currentDate, days))
    ensures s.modelTrained && reply.Some? ==> r.0 == s.(results := reply)
    ensures reply.None? ==> r.0 == s
  {
    if !s.modelTrained then (s, None)
    else if reply.Some? then (s.(results := reply), Some(PredictionCall(currentDate, days)))
    else (s, Some(PredictionCall(currentDate, days)))
  }

  /** No forecast can be requested before a training upload has
      succeeded. */
  lemma NoPredictionBeforeTraining(file: Option<string>, date: string, days: int, reply: Option<string>)
    ensures Predict(SelectFile(InitialState, file), date, days, reply).1.None?
    ensures Predict(Train(SelectFile(InitialState, file), None).0, date, days, reply).1.None?
  {
  }

  /** `canTrainModel()`: vault managers and head-office officers. */
  function CanTrainModel(role: Option<string>): (ok: bool)
    ensures ok <==> role == Some(Api.VaultManagerRole) || role == Some(Api.HeadOfficeRole)
  {
    role == Some(Api.VaultManagerRole) || role == Some(Api.HeadOfficeRole)
  }

  /** The train button is enabled iff a file is chosen, nothing is loading
      and the role may train. */
  function TrainButtonEnabled(s: MlState, role: Option<string>): (enabled: bool)
    ensures enabled <==> s.selectedFile.Some? && !s.loading && CanTrainModel(role)
  {
    !(s.selectedFile.None? || s.loading || !CanTrainModel(role))
  }

  /** Pressing an enabled train button always reaches the backend; the
      handler itself does not check the role. */
  lemma EnabledButtonUploads(s: MlState, role: Option<string>, reply: Option<string>)
    requires TrainButtonEnabled(s, role)
    ensures Train(s, reply).1
  {
  }
}

=== FILE: numeric.dfy ===
/** Folds over number sequences with the meaning JavaScript gives them:
    `reduce((a, b) => a + b, 0)`, `filter(p).length`, `Math.max(...xs)`,
    `Math.min(...xs)` and `Math.round`. Money is an unbounded `int`,
    ratios are exact `real`s. */
module Numeric {

  /** `xs.reduce((a, b) => a + b, 0)` over integers. */
  function Sum(xs: seq<int>): int
  {
    if |xs| == 0 then 0 else xs[0] + Sum(xs[1..])
  }

  /** `xs.reduce((a, b) => a + b, 0)` over exact reals. */
  function SumReal(xs: seq<real>): real
  {
    if |xs| == 0 then 0.0 else xs[0] + SumReal(xs[1..])
  }

  /** `xs.filter(p).length`. */
  function Count<T>(xs: seq<T>, p: T -> bool): nat
  {
    if |xs| == 0 then 0 else (if p(xs[0]) then 1 else 0) + Count(xs[1..], p)
  }

  /** An integer extended with the two infinities, which `Math.max()` and
      `Math.min()` return for an empty argument list. */
  datatype ExtInt = Finite(n: int) | NegInfinity | PosInfinity

  /** The largest element of a non-empty sequence. */
  function MaxElem(xs: seq<int>): (m: int)
    requires |xs| > 0
    ensures m in xs
    ensures forall i :: 0 <= i < |xs| ==> xs[i] <= m
  {
    if |xs| == 1 then xs[0]
    else
      var rest := MaxElem(xs[1..]);
      if xs[0] >= rest then xs[0] else rest
  }

  /** The smallest element of a non-empty sequence. */
  function MinElem(xs: seq<int>): (m: int)
    requires |xs| > 0
    ensures m in xs
    ensures forall i :: 0 <= i < |xs| ==> m <= xs[i]
  {
    if |xs| == 1 then xs[0]
    else
      var rest := MinElem(xs[1..]);
      if xs[0] <= rest then xs[0] else rest
  }

  /** `Math.max(...xs)`: minus infinity for an empty list. */
  function JsMax(xs: seq<int>): (m: ExtInt)
    ensures |xs| == 0 <==> m == NegInfinity
    ensures m.Finite? ==> m.n in xs && forall i :: 0 <= i < |xs| ==> xs[i] <= m.n
  {
    if |xs| == 0 then NegInfinity else Finite(MaxElem(xs))
  }

  /** `Math.min(...xs)`: plus infinity for an empty list. */
  function JsMin(xs: seq<int>): (m: ExtInt)
    ensures |xs| == 0 <==> m == PosInfinity
    ensures m.Finite? ==> m.n in xs && forall i :: 0 <= i < |xs| ==> m.n <= xs[i]
  {
    if |xs| == 0 then PosInfinity else Finite(MinElem(xs))
  }

  /** `Math.round(x)`: the nearest integer, halves rounded towards plus infinity. */
  function JsRound(x: real): (r: int)
    ensures x - 0.5 < r as real <= x + 0.5
  {
    (x + 0.5).Floor
  }

  /** `Math.min(a, b)` on reals. */
  function MinReal(a: real, b: real): (r: real)
    ensures r <= a && r <= b && (r == a || r == b)
  {
    if a <= b then a else b
  }

  /** `Math.max(a, b)` on reals. */
  function MaxReal(a: real, b: real): (r: real)
    ensures r >= a && r >= b && (r == a || r == b)
  {
    if a >= b then a else b
  }

  lemma {:induction false} SumAppend(a: seq<int>, b: seq<int>)
    ensures Sum(a + b) == Sum(a) + Sum(b)
  {
    if |a| == 0 {
      assert a + b == b;
    } else {
      assert (a + b)[1..] == a[1..] + b;
      SumAppend(a[1..], b);
    }
  }

  lemma {:induction false} SumNonNegative(xs: seq<int>)
    requires forall i :: 0 <= i < |xs| ==> xs[i] >= 0
    ensures Sum(xs) >= 0
  {
    if |xs| > 0 {
      SumNonNegative(xs[1..]);
    }
  }

  lemma {:induction false} SumRealAppend(a: seq<real>, b: seq<real>)
    ensures SumReal(a + b) == SumReal(a) + SumReal(b)
  {
    if |a| == 0 {
      assert a + b == b;
    } else {
      assert (a + b)[1..] == a[1..] + b;
      SumRealAppend(a[1..], b);
    }
  }

  lemma {:induction false} CountAppend<T>(a: seq<T>, b: seq<T>, p: T -> bool)
    ensures Count(a + b, p) == Count(a, p) + Count(b, p)
  {
    if |a| == 0 {
      assert a + b == b;
    } else {
      assert (a + b)[1..] == a[1..] + b;
      CountAppend(a[1..], b, p);
    }
  }

  /** Counting with three predicates of which exactly one holds of every
      element partitions the sequence. */
  lemma {:induction false} CountPartition3<T>(xs: seq<T>, p: T -> bool, q: T -> bool, r: T -> bool)
    requires forall x :: (p(x) && !q(x) && !r(x)) || (!p(x) && q(x) && !r(x)) || (!p(x) && !q(x) && r(x))
    ensures Count(xs, p) + Count(xs, q) + Count(xs, r) == |xs|
  {
    if |xs| > 0 {
      CountPartition3(xs[1..], p, q, r);
    }
  }

  lemma {:induction false} CountAtMostLength<T>(xs: seq<T>, p: T -> bool)
    ensures Count(xs, p) <= |xs|
  {
    if |xs| > 0 {
      CountAtMostLength(xs[1..], p);
    }
  }
}

=== FILE: permissions.dfy ===
/** What each login name may do across the screens, read through the
    client's role lookup: raise refill requests, approve pending ones, and
    train the forecasting model. */
module Permissions {
  import opened Wrappers
  import opened AtmTypes
  import Api
  import RefillManagement
  import MlPrediction

  /** The three capabilities of a signed-in user. */
  datatype Capabilities = Capabilities(create: bool, approve: bool, train: bool)

  /** The capabilities of the user the client synthesises for a login name;
      `pending` is any pending request. */
  function CapabilitiesOf(username: string, pending: RefillRequest): (c: Capabilities)
    requires pending.status == Pending
    ensures username == "atm_ops" ==> c == Capabilities(true, false, false)
    ensures username == "branch_mgr" ==> c == Capabilities(true, true, false)
    ensures username == "vault_mgr" ==> c == Capabilities(false, true, true)
    ensures username == "hoao" ==> c == Capabilities(false, true, true)
    ensures username !in Api.RoleTable ==> c == Capabilities(false, false, false)
  {
    var role := Some(Api.RoleOf(username));
    Capabilities(RefillManagement.CanCreateRequest(role), RefillManagement.CanApprove(role, pending),
                 MlPrediction.CanTrainModel(role))
  }

  /** Everyone who may train the model may also approve refills, nobody may
      do all three, and every known login name may do something. */
  lemma CapabilityLattice(username: string, pending: RefillRequest)
    requires pending.status == Pending
    ensures var c := CapabilitiesOf(username, pending);
            (c.train ==> c.approve) && !(c.create && c.approve && c.train)
            && (username in Api.RoleTable <==> (c.create || c.approve || c.train))
  {
  }
}

=== FILE: refill_management.dfy ===
/** The refill-request screen: who may raise and who may approve a request,
    the guard on the creation form, and the mapping of the status filter to
    the query the client sends. `role` is `currentUser?.role`: none when no
    user is signed in. */
module RefillManagement {
  import opened Wrappers
  import opened AtmTypes
  import Api

  /** The roles that may approve. */
  const ApprovalRoles: seq<string> := [Api.BranchManagerRole, Api.VaultManagerRole, Api.HeadOfficeRole]

  /** `canApprove(request)`: only a pending request, and only by one of the
      three approving roles. */
  function CanApprove(role: Option<string>, request: RefillRequest): (ok: bool)
    ensures request.status != Pending ==> !ok
    ensures request.status == Pending ==>
              (ok <==> role == Some(Api.BranchManagerRole) || role == Some(Api.VaultManagerRole)
                       || role == Some(Api.HeadOfficeRole))
  {
    request.status == Pending && role.Some? && role.value in ApprovalRoles
  }

  /** `canCreateRequest()`: operations staff and branch managers. */
  function CanCreateRequest(role: Option<string>): (ok: bool)
    ensures ok <==> role == Some(Api.AtmOpsRole) || role == Some(Api.BranchManagerRole)
  {
    role == Some(Api.AtmOpsRole) || role == Some(Api.BranchManagerRole)
  }

  /** The two permissions overlap in the branch manager alone: operations
      staff raise requests they can never approve, and a role the lookup does
      not know can do neither. */
  lemma PermissionsConsistent(role: Option<string>, request: RefillRequest)
    requires request.status == Pending
    ensures CanCreateRequest(role) && CanApprove(role, request) <==> role == Some(Api.BranchManagerRole)
    ensures role == Some(Api.AtmOpsRole) ==> CanCreateRequest(role) && !CanApprove(role, request)
    ensures role == Some(Api.UnknownRole) ==> !CanCreateRequest(role) && !CanApprove(role, request)
    ensures role.None? ==> !CanCreateRequest(role) && !CanApprove(role, request)
  {
  }

  /** Every role that may create or approve is one the role lookup hands
      out for some login name. */
  lemma PermittedRolesAreLookedUp(role: Option<string>, request: RefillRequest)
    requires CanCreateRequest(role) || CanApprove(role, request)
    ensures exists key :: key in Api.RoleTable && Api.RoleOf(key) == role.value
  {
    if role.value == Api.AtmOpsRole {
      assert Api.RoleOf("atm_ops") == role.value;
    } else if role.value == Api.BranchManagerRole {
      assert Api.RoleOf("branch_mgr") == role.value;
    } else if role.value == Api.VaultManagerRole {
      assert Api.RoleOf("vault_mgr") == role.value;
    } else {
      assert Api.RoleOf("hoao") == role.value;
    }
  }

  /** `statusFilter === "all" ? undefined : statusFilter`. */
  function FilterParameter(statusFilter: string): (f: Option<string>)
    ensures f.None? <==> statusFilter == "all"
    ensures f.Some? ==> f.value == statusFilter
  {
    if statusFilter == "all" then None else Some(statusFilter)
  }

  /** The query a filter choice leads to: "all" asks for every request and
      any other non-empty value is sent verbatim. */
  lemma FilterQuery(statusFilter: string)
    ensures statusFilter == "all" ==> Api.RefillRequestsEndpoint(FilterParameter(statusFilter)) == "/refill-requests"
    ensures statusFilter != "all" && statusFilter != "" ==>
              Api.RefillRequestsEndpoint(FilterParameter(statusFilter))
                == "/refill-requests?status_filter=" + statusFilter
  {
  }

  /** The creation dialog's fields. */
  datatype CreateForm = CreateForm(atmId: string, amount: string, comment: string, dialogOpen: bool)

  /** The call `createRefillRequest` receives; the amount is still the text
      that `parseFloat` reads. */
  datatype CreateCall = CreateCall(atmId: string, amountText: string, comment: string)

  /** The guard of `handleCreateRequest`: no call unless both a machine and
      an amount were entered. */
  function CreateRequestCall(form: CreateForm): (call: Option<CreateCall>)
    ensures call.None? <==> form.atmId == "" || form.amount == ""
    ensures call.Some? ==> call.value == CreateCall(form.atmId, form.amount, form.comment)
  {
    if form.atmId == "" || form.amount == "" then None
    else Some(CreateCall(form.atmId, form.amount, form.comment))
  }

  /** The form after the call settles, and whether the list is fetched
      again: success clears and closes the form and refetches; failure keeps
      the form as it was. */
  function AfterCreate(form: CreateForm, succeeded: bool): (r: (CreateForm, bool))
    ensures succeeded ==> r.0 == CreateForm("", "", "", false) && r.1
    ensures !succeeded ==> r.0 == form && !r.1
  {
    if succeeded then (CreateForm("", "", "", false), true) else (form, false)
  }

  /** A submitted form is never resubmitted by accident: after a successful
      creation the guard refuses the cleared form. */
  lemma ClearedFormMakesNoCall(form: CreateForm)
    ensures CreateRequestCall(AfterCreate(form, true).0).None?
  {
  }

  /** An approval decision. */
  datatype Decision = Approve | Reject

  function DecisionWord(d: Decision): string
  {
    match d
    case Approve => "approve"
    case Reject => "reject"
  }

  /** The success notice of `handleApprovalAction` as written: the action
      word followed by "d". */
  function ApprovalNoticeAsWritten(d: Decision): string
  {
    "Refill request has been " + DecisionWord(d) + "d"
  }

  /** The written notice reads "rejectd" for a rejection. */
  lemma RejectionNoticeMisspelt()
    ensures ApprovalNoticeAsWritten(Reject) == "Refill request has been rejectd"
    ensures ApprovalNoticeAsWritten(Approve) == "Refill request has been approved"
  {
  }

  /** The past tense of a decision. */
  function PastTense(d: Decision): string
  {
    match d
    case Approve => "approved"
    case Reject => "rejected"
  }

  /** The notice as intended: the past tense of the decision. */
  function ApprovalNotice(d: Decision): (notice: string)
    ensures d == Approve ==> notice == ApprovalNoticeAsWritten(d)
    ensures d == Reject ==> notice == "Refill request has been rejected"
  {
    "Refill request has been " + PastTense(d)
  }
}

=== FILE: text.dfy ===
/** String helpers with the meaning the JavaScript standard library gives
    them: `split` on one character, `join`, `endsWith`, `toLowerCase`
    (ASCII letters only) and a character-class `replace`. */
module Text {

  /** `s.split(sep)` for a one-character separator: the pieces between
      consecutive occurrences of `sep`, always at least one. */
  function Split(s: string, sep: char): (parts: seq<string>)
    ensures |parts| > 0
    ensures forall i :: 0 <= i < |parts| ==> sep !in parts[i]
  {
    if |s| == 0 then [""]
    else if s[0] == sep then [""] + Split(s[1..], sep)
    else
      var rest := Split(s[1..], sep);
      [[s[0]] + rest[0]] + rest[1..]
  }

  /** `parts.join(sep)`. */
  function Join(parts: seq<string>, sep: string): string
  {
    if |parts| == 0 then ""
    else if |parts| == 1 then parts[0]
    else parts[0] + sep + Join(parts[1..], sep)
  }

  /** `s.endsWith(suffix)`. */
  predicate EndsWith(s: string, suffix: string)
  {
    |suffix| <= |s| && s[|s| - |suffix|..] == suffix
  }

  /** `c.toLowerCase()` for one character, restricted to ASCII letters. */
  function LowerChar(c: char): (d: char)
    ensures 'A' <= c <= 'Z' ==> d as int == c as int + 32
    ensures !('A' <= c <= 'Z') ==> d == c
  {
    if 'A' <= c <= 'Z' then (c as int + 32) as char else c
  }

  /** `s.toLowerCase()`, restricted to ASCII letters. */
  function ToLower(s: string): (t: string)
    ensures |t| == |s|
    ensures forall i :: 0 <= i < |s| ==> t[i] == LowerChar(s[i])
  {
    if |s| == 0 then "" else [LowerChar(s[0])] + ToLower(s[1..])
  }

  /** `s.replace(/[...]/g, repl)`: every character in `from` becomes `repl`. */
  function ReplaceAll(s: string, from: set<char>, repl: char): (t: string)
    ensures |t| == |s|
    ensures forall i :: 0 <= i < |s| ==> t[i] == (if s[i] in from then repl else s[i])
  {
    if |s| == 0 then "" else [if s[0] in from then repl else s[0]] + ReplaceAll(s[1..], from, repl)
  }

  /** `s.slice(0, -k)`: drops the last `k` characters, leaving "" when
      there are not that many. */
  function DropLast(s: string, k: nat): (t: string)
    ensures |s| >= k ==> |t| == |s| - k
    ensures |s| < k ==> t == ""
    ensures |t| <= |s| && t <= s
  {
    if |s| >= k then s[..|s| - k] else ""
  }

  /** Splitting on a character and joining with it again gives back the
      original text. */
  lemma {:induction false} JoinSplit(s: string, sep: char)
    ensures Join(Split(s, sep), [sep]) == s
  {
    if |s| == 0 {
    } else if s[0] == sep {
      var rest := Split(s[1..], sep);
      JoinSplit(s[1..], sep);
      assert Split(s, sep) == [""] + rest;
      assert ([""] + rest)[1..] == rest;
      assert Join(Split(s, sep), [sep]) == "" + [sep] + Join(rest, [sep]);
      assert s == [sep] + s[1..];
    } else {
      var rest := Split(s[1..], sep);
      JoinSplit(s[1..], sep);
      var parts := [[s[0]] + rest[0]] + rest[1..];
      assert Split(s, sep) == parts;
      if |rest| == 1 {
        assert Join(parts, [sep]) == [s[0]] + rest[0];
        assert Join(rest, [sep]) == rest[0];
      } else {
        assert parts[1..] == rest[1..];
        assert Join(parts, [sep]) == [s[0]] + rest[0] + [sep] + Join(rest[1..], [sep]);
        assert Join(rest, [sep]) == rest[0] + [sep] + Join(rest[1..], [sep]);
      }
      assert s == [s[0]] + s[1..];
    }
  }

  /** Joining a prefix of the pieces gives a prefix of the joined text. */
  lemma {:induction false} JoinTakePrefix(parts: seq<string>, sep: string, k: nat)
    requires k <= |parts|
    ensures Join(parts[..k], sep) <= Join(parts, sep)
  {
    if k == 0 {
    } else if |parts| == 1 {
      assert parts[..k] == parts;
    } else if k == 1 {
      assert Join(parts[..1], sep) == parts[0];
    } else {
      JoinTakePrefix(parts[1..], sep, k - 1);
      assert parts[..k][1..] == parts[1..][..k - 1];
      assert Join(parts[..k], sep) == parts[0] + sep + Join(parts[1..][..k - 1], sep);
    }
  }

  /** A text without the separator splits into itself alone. */
  lemma {:induction false} SplitWithoutSeparator(s: string, sep: char)
    ensures sep !in s ==> Split(s, sep) == [s]
  {
    if |s| > 0 && sep !in s {
      SplitWithoutSeparator(s[1..], sep);
      assert s == [s[0]] + s[1..];
    }
  }

  /** Splitting a separator-free piece followed by the separator and more
      text yields that piece first. */
  lemma {:induction false} SplitAfterPiece(piece: string, sep: char, rest: string)
    requires sep !in piece
    ensures Split(piece + [sep] + rest, sep) == [piece] + Split(rest, sep)
  {
    var s := piece + [sep] + rest;
    if |piece| == 0 {
      assert s == [sep] + rest;
      assert s[1..] == rest;
    } else {
      assert s[0] == piece[0];
      assert s[1..] == piece[1..] + [sep] + rest;
      SplitAfterPiece(piece[1..], sep, rest);
      assert [piece[0]] + piece[1..] == piece;
    }
  }

  /** Joining separator-free pieces and splitting again gives the pieces
      back: the partner of `JoinSplit`. */
  lemma {:induction false} SplitJoin(parts: seq<string>, sep: char)
    requires |parts| > 0
    requires forall i :: 0 <= i < |parts| ==> sep !in parts[i]
    ensures Split(Join(parts, [sep]), sep) == parts
  {
    if |parts| == 1 {
      SplitWithoutSeparator(parts[0], sep);
    } else {
      SplitJoin(parts[1..], sep);
      SplitAfterPiece(parts[0], sep, Join(parts[1..], [sep]));
      assert [parts[0]] + parts[1..] == parts;
    }
  }
}

=== FILE: websocket.dfy ===
/** The push channel for live updates (`ATMWebSocket`): a socket, a counter
    of reconnection attempts, and the linear back-off it schedules after a
    close. Timers are modelled by the delay a close event schedules; the
    socket's events are the inputs of the transition functions. */
module PushChannel {
  import opened Wrappers

  const MaxReconnectAttempts: nat := 5
  const ReconnectDelayMs: nat := 1000

  /** The state of the socket held in `ws`. */
  datatype Socket = NoSocket | Connecting | Open | Closed

  /** The channel: its socket and the attempts made since the last open. */
  datatype Channel = Channel(socket: Socket, attempts: nat)

  /** The counter never passes the limit. */
  predicate Valid(c: Channel)
  {
    c.attempts <= MaxReconnectAttempts
  }

  /** A fresh channel. */
  function Initial(): (c: Channel)
    ensures Valid(c) && c.attempts == 0 && c.socket == NoSocket
  {
    Channel(NoSocket, 0)
  }

  /** `connect`: a new socket that has not opened yet. */
  function Connect(c: Channel): (d: Channel)
    ensures d.socket == Connecting && d.attempts == c.attempts
  {
    c.(socket := Connecting)
  }

  /** `onopen`: a successful connection forgets earlier failures. */
  function OnOpen(c: Channel): (d: Channel)
    ensures d.socket == Open && d.attempts == 0 && Valid(d)
  {
    Channel(Open, 0)
  }

  /** What a close event leaves behind: the channel and, when a reconnection
      was scheduled, its delay in milliseconds. */
  datatype CloseOutcome = CloseOutcome(channel: Channel, retryAfter: Option<nat>)

  /** `onclose` followed by `reconnect`: below the limit the counter goes up
      by one and a reconnection is scheduled after `1000 * attempts`
      milliseconds; at the limit nothing is scheduled. */
  function OnClose(c: Channel): (o: CloseOutcome)
    requires Valid(c)
    ensures Valid(o.channel) && o.channel.socket == Closed
    ensures o.retryAfter.Some? <==> c.attempts < MaxReconnectAttempts
    ensures o.retryAfter.Some? ==> o.channel.attempts == c.attempts + 1
                                   && o.retryAfter.value == ReconnectDelayMs * o.channel.attempts
    ensures o.retryAfter.None? ==> o.channel.attempts == c.attempts
  {
    if c.attempts < MaxReconnectAttempts then
      var n := c.attempts + 1;
      CloseOutcome(Channel(Closed, n), Some(ReconnectDelayMs * n))
    else CloseOutcome(c.(socket := Closed), None)
  }

  /** `disconnect`: drops the socket; the attempt counter is kept. */
  function Disconnect(c: Channel): (d: Channel)
    ensures d.socket == NoSocket && d.attempts == c.attempts
  {
    c.(socket := NoSocket)
  }

  /** `send(data)`: the serialised message goes out only on an open socket. */
  function Send(c: Channel, message: string): (sent: Option<string>)
    ensures sent.Some? <==> c.socket == Open
    ensures sent.Some? ==> sent.value == message
  {
    if c.socket == Open then Some(message) else None
  }

  /** `onmessage`: a frame whose JSON parses is handed to the callback;
      one that does not is dropped. */
  function Deliver<T>(delivered: seq<T>, parsed: Option<T>): (d: seq<T>)
    ensures parsed.None? ==> d == delivered
    ensures parsed.Some? ==> d == delivered + [parsed.value]
  {
    if parsed.Some? then delivered + [parsed.value] else delivered
  }

  /** The delays scheduled by `n` consecutive failed connections: each close
      is followed by the scheduled `connect`, and no socket opens. */
  function FailedRun(c: Channel, n: nat): seq<Option<nat>>
    requires Valid(c)
    decreases n
  {
    if n == 0 then []
    else
      var o := OnClose(c);
      [o.retryAfter] + FailedRun(Connect(o.channel), n - 1)
  }

  /** Back-off law: starting after `k` failed attempts, the `i`-th close of
      a failing run schedules a retry after `1000 * (k + i + 1)` ms while
      that stays within five attempts, and nothing afterwards. */
  lemma {:induction false} FailedRunSchedule(c: Channel, n: nat)
    requires Valid(c)
    ensures |FailedRun(c, n)| == n
    ensures forall i :: 0 <= i < n ==>
              FailedRun(c, n)[i] == (if c.attempts + i < MaxReconnectAttempts
                                     then Some(ReconnectDelayMs * (c.attempts + i + 1)) else None)
    decreases n
  {
    if n > 0 {
      var o := OnClose(c);
      var d := Connect(o.channel);
      FailedRunSchedule(d, n - 1);
      var run := FailedRun(c, n);
      assert run == [o.retryAfter] + FailedRun(d, n - 1);
      forall i | 0 <= i < n
        ensures run[i] == (if c.attempts + i < MaxReconnectAttempts
                           then Some(ReconnectDelayMs * (c.attempts + i + 1)) else None)
      {
        if i > 0 {
          assert run[i] == FailedRun(d, n - 1)[i - 1];
          if c.attempts < MaxReconnectAttempts {
            assert d.attempts == c.attempts + 1;
          } else {
            assert d.attempts == c.attempts;
          }
        }
      }
    }
  }

  /** From a fresh or just-opened channel, a failing run schedules exactly
      five retries, after 1, 2, 3, 4 and 5 seconds, then gives up. */
  lemma FreshChannelGivesUpAfterFive(n: nat)
    requires n >= MaxReconnectAttempts
    ensures |FailedRun(OnOpen(Initial()), n)| == n
    ensures FailedRun(OnOpen(Initial()), n)[..5] ==
              [Some(1000), Some(2000), Some(3000), Some(4000), Some(5000)]
    ensures forall i :: 5 <= i < n ==> FailedRun(OnOpen(Initial()), n)[i].None?
  {
    FailedRunSchedule(OnOpen(Initial()), n);
  }
}

=== FILE: wrappers.dfy ===
/** Failure-carrying datatypes used throughout the model in place of
    JavaScript's `null`/`undefined` and thrown errors. */
module Wrappers {

  /** An optional value: `None` stands for `null`/`undefined`. */
  datatype Option<+T> = None | Some(value: T) {

    /** The wrapped value, or `default` when there is none. */
    function GetOr(default: T): T {
      match this
      case Some(v) => v
      case None => default
    }
  }

  /** The outcome of an operation that may throw: `Failure` carries the error. */
  datatype Result<+R, +E> = Success(value: R) | Failure(error: E) {

    predicate IsFailure() {
      Failure?
    }

    function PropagateFailure<U>(): Result<U, E>
      requires Failure?
    {
      Failure(error)
    }

    function Extract(): R
      requires Success?
    {
      value
    }
  }
}
